=== FILE: README.md ===
# Repository index: a Dafny model

This project models the repository indexer of a Laravel application, and the two ways its
index is read back.

- **The `repo:index` console command** walks the project tree and writes one row per artifact into the
  `repository_index` table:
  - the directory snapshot;
  - every file of the source directories;
  - every migration, model, route file and configuration file;
  - a closing summary row.
- **The web controller** lists the rows (filtered, ordered and paginated), answers the JSON API, and
  shows a single row with the index statistics beside it.
- **The `repo:search` console command** finds rows by text, type and category.

Model layout:

- `text.dfy`: character classes, substring search, split/trim and first-occurrence de-duplication.
- `patterns.dfy`: the regular expressions the extractors use, as hand-written matchers, and the
  `preg_match_all` / `preg_match` scans over them.
- `extractors.dfy`: class and function names, created tables, migration operations, model
  relationships, fillable fields, routes, configuration keys, file descriptions.
- `bytes.dfy`: `formatBytes`.
- `grouping.dfy`: the counting behind `groupBy` / `sum` / `pluck`.
- `structure.dfy`: the file-system tree, `getDirectoryStructure`, `File::files` and
  `File::allFiles`.
- `records.dfy`: the rows the indexer writes, one builder per artifact, and the summary.
- `indexer.dfy`: the table as a class (`RecordStore`) whose methods are the indexer's sweeps, and the
  lemmas about what a run leaves in it.
- `query.dfy`: request parameters, PHP truthiness, `LIKE '%term%'`, `where` and `limit`.
- `browse.dfy`: the controller's `index`, `api`, `show` and `getIndexStats`.
- `search.dfy`: the search command.

The resource-route case follows the code. A `Route::resource('posts', …)` registration becomes a route
whose method and URI are both `posts`. `$match[1] ?? 'resource'` never falls back, because group 1
holds the resource name.

## Model

| member | source | states |
|---|---|---|
| Patterns.FindAllSound | app/Console/Commands/IndexRepository.php:359 | every match `preg_match_all` reports is a real match of the pattern at its start, and successive matches do not overlap |
| Patterns.FindAllComplete | app/Console/Commands/IndexRepository.php:359 | no position where the pattern matches lies outside every reported match |
| Patterns.FindAllEmpty | app/Console/Commands/IndexRepository.php:359 | the scan reports nothing exactly when the pattern matches nowhere in the text |
| Patterns.FindFirstLeftmost | app/Console/Commands/IndexRepository.php:406 | `preg_match` finds a match exactly when one exists, and no match starts before the one it reports |
| Patterns.FindFirstIsFirstOfAll | app/Console/Commands/IndexRepository.php:406 | `preg_match` reports the first match `preg_match_all` would |
| Extractors.ClassNames | app/Console/Commands/IndexRepository.php:357-361 | one class name per `class` declaration found |
| Extractors.FunctionNames | app/Console/Commands/IndexRepository.php:363-367 | one function name per `function` declaration found |
| Extractors.DeclaredNamesSound | app/Console/Commands/IndexRepository.php:357-367 | each reported name is declared where its match starts (the keyword, whitespace, then the whole word run), and the names come in text order |
| Extractors.DeclaredNamesComplete | app/Console/Commands/IndexRepository.php:357-367 | a declaration at a position no earlier match covers has its name among the results |
| Extractors.DeclaredNamesEmpty | app/Console/Commands/IndexRepository.php:357-367 | no names are extracted exactly when the text holds no declaration |
| Extractors.TableNames | app/Console/Commands/IndexRepository.php:369-373 | one table name per `Schema::create` call found |
| Extractors.TableNamesSound | app/Console/Commands/IndexRepository.php:369-373 | each table name is the quoted argument of a `Schema::create(` call at the start of its match, and the names come in text order |
| Extractors.TableNamesComplete | app/Console/Commands/IndexRepository.php:369-373 | a `Schema::create(` call lies inside some reported match, and one at a match start has its table among the names |
| Extractors.TableNamesMember | app/Console/Commands/IndexRepository.php:369-373 | every reported table name is created somewhere in the text |
| Extractors.MigrationOperations | app/Console/Commands/IndexRepository.php:375-382 | an operation is listed if and only if its marker occurs, in the order create, modify, drop |
| Extractors.Listed | app/Console/Commands/IndexRepository.php:378-381 | each flag puts its operation in the list exactly when set, in rank order |
| Extractors.DropIfExistsIsDrop | app/Console/Commands/IndexRepository.php:380 | `Schema::dropIfExists` also counts as a drop, because its text contains `Schema::drop` |
| Extractors.RelationTargetsSound | app/Console/Commands/IndexRepository.php:388-396 | each target is the word run right after a `kind(` call and its optional quote, at the start of its match, and targets come in text order |
| Extractors.RelationTargetsComplete | app/Console/Commands/IndexRepository.php:388-396 | a `kind(` call lies inside some reported match, and one at a match start has its word run reported as the target |
| Extractors.RelationTargetsMember | app/Console/Commands/IndexRepository.php:388-396 | every reported target is the word run of some `kind(` call in the text |
| Extractors.ExtractRelationships | app/Console/Commands/IndexRepository.php:384-402 | the loop builds exactly the relationship map |
| Extractors.RelationshipsShape | app/Console/Commands/IndexRepository.php:384-402 | a kind appears in the map if and only if it has at least one target, holding all of them; kinds keep their order |
| Extractors.BelongsToSkipsBelongsToMany | app/Console/Commands/IndexRepository.php:390-391 | the `belongsTo(` pattern never matches at a `belongsToMany(` call |
| Extractors.UnquotedTarget | app/Console/Commands/IndexRepository.php:389 | the optional quotes let `hasMany(Post::class)` yield `Post` |
| Text.SplitUnique | app/Console/Commands/IndexRepository.php:408 | `explode` gives the one list of comma-free pieces that joins back to the text with commas |
| Text.SplitJoin | app/Console/Commands/IndexRepository.php:408 | joining comma-free pieces with commas and exploding the result gives the pieces back |
| Text.JoinSplit | app/Console/Commands/IndexRepository.php:408 | exploding a text and joining the pieces with the separator gives the text back |
| Text.RemoveQuotesAppend | app/Console/Commands/IndexRepository.php:410 | removing quotes works piece by piece: the quote-free form of a concatenation is the concatenation of the quote-free forms |
| Text.Trim | app/Console/Commands/IndexRepository.php:410 | `trim` keeps a middle slice of the text, cutting only trimmed characters from each end and stopping at the first kept one on each side; an all-whitespace text becomes empty |
| Extractors.CleanField | app/Console/Commands/IndexRepository.php:410 | a cleaned field is the field with its quotes removed and then cut only at its two ends, exactly as far as the trimmed characters reach there |
| Extractors.FieldsOf | app/Console/Commands/IndexRepository.php:408-411 | field k is the cleaned piece k of the one way to cut the list at commas; there is one field per comma plus one, and no field holds a comma |
| Extractors.FillableFields | app/Console/Commands/IndexRepository.php:404-414 | the field list is empty exactly when the model has no `$fillable = [...]` assignment |
| Extractors.FillableFromFirstAssignment | app/Console/Commands/IndexRepository.php:406-411 | the group is the text between `[` and the first `]` of a `$fillable = [` assignment, no such assignment starts earlier, and the fields are cut from that group |
| Extractors.FillableFieldsEmpty | app/Console/Commands/IndexRepository.php:404-414 | the field list is empty exactly when the text holds no `$fillable = [...]` assignment anywhere |
| Extractors.FieldsTrailingComma | app/Console/Commands/IndexRepository.php:408-411 | a trailing comma yields a final empty field, since empty fields are not dropped |
| Extractors.EmptyFillableList | app/Console/Commands/IndexRepository.php:404-414 | `$fillable = []` yields one empty field, not an empty list |
| Extractors.AppendRoutes | app/Console/Commands/IndexRepository.php:426-431 | the inner loop appends one route per match, in match order |
| Extractors.ExtractRoutes | app/Console/Commands/IndexRepository.php:416-435 | the loops produce exactly the route list of the two patterns in turn |
| Extractors.RoutesSplit | app/Console/Commands/IndexRepository.php:419-432 | every verb route comes first, then every resource route, whatever their positions in the file |
| Extractors.VerbRouteEntry | app/Console/Commands/IndexRepository.php:420-429 | a verb registration yields its verb as the method and its quoted first argument as the URI |
| Extractors.ResourceRouteEntry | app/Console/Commands/IndexRepository.php:421-429 | a resource registration yields the resource name as both method and URI |
| Extractors.RoutesVerbsThenResources | app/Console/Commands/IndexRepository.php:424-432 | route k is the k-th verb match when k is small enough, otherwise the matching resource match |
| Extractors.RoutesRegistered | app/Console/Commands/IndexRepository.php:418-431 | every route extracted is registered in the text, by a verb call on its URI or by a resource call naming it as both method and URI |
| Extractors.ConfigKeyOccurrencesSound | app/Console/Commands/IndexRepository.php:439 | each key found is a quoted word run followed by optional whitespace and `=>` at the start of its match, and keys come in text order |
| Extractors.ConfigKeysComplete | app/Console/Commands/IndexRepository.php:437-441 | a `'key' =>` occurrence lies inside some reported match, and one at a match start has its key among the keys |
| Extractors.ConfigKeysMember | app/Console/Commands/IndexRepository.php:437-441 | every key reported occurs as `'key' =>` somewhere in the text |
| Extractors.ConfigKeys | app/Console/Commands/IndexRepository.php:437-441 | the keys are free of duplicates, are exactly the keys that occur, and are all non-empty word runs |
| Extractors.ConfigKeysFirstOccurrenceOrder | app/Console/Commands/IndexRepository.php:440 | `array_unique` keeps keys in the order of their first occurrence |
| Extractors.ConfigKeysEmpty | app/Console/Commands/IndexRepository.php:437-441 | there are no keys exactly when no `'key' =>` occurs |
| Extractors.FileDescription | app/Console/Commands/IndexRepository.php:443-456 | a known extension gets its table description, and only an unknown one gets `File` |
| ByteFormat.UnitIndexUnique | app/Console/Commands/IndexRepository.php:458-467 | the unit is the only one whose range holds the size: at least its power of 1024 (except B), and below the next one (except GB) |
| ByteFormat.Scaled | app/Console/Commands/IndexRepository.php:458-467 | the amount times the unit's power of 1024 gives back the size |
| ByteFormat.UnitIndexMonotone | app/Console/Commands/IndexRepository.php:458-467 | a larger size never gets a smaller unit |
| ByteFormat.ScaledRange | app/Console/Commands/IndexRepository.php:458-467 | from 1024 bytes up, the amount is at least 1, and below GB it is under 1024 |
| ByteFormat.FormatBytes | app/Console/Commands/IndexRepository.php:458-467 | the dividing loop ends with the amount and unit of the specification |
| ByteFormat.FormatBytesGuarded | app/Http/Controllers/RepositoryIndexController.php:120-131 | a missing or zero size reads `0 B`; any other size is scaled as in the command |
| ByteFormat.GuardAgreesOnZero | app/Http/Controllers/RepositoryIndexController.php:122-124 | the controller's zero guard gives what the unguarded loop gives for 0 |
| Grouping.TallyCorrect | app/Console/Commands/IndexRepository.php:315-318 | grouped counts have distinct keys, count each value's occurrences, add up to the number of rows, and have a key exactly for each value present |
| Grouping.PluckKeepsLast | app/Console/Commands/IndexRepository.php:297 | `pluck('count', 'category')` keeps the last count filed under a key |
| Grouping.PluckDistinct | app/Console/Commands/IndexRepository.php:297 | the plucked map has distinct keys |
| Grouping.PutLookup | app/Console/Commands/IndexRepository.php:297 | storing a key makes it read back its new value and leaves the other keys as they were |
| Grouping.TallyRekeyed | app/Console/Commands/IndexRepository.php:294-296 | summing group counts by a coarser key gives the same totals as counting that key directly |
| DirectoryTree.GetDirectoryStructure | app/Console/Commands/IndexRepository.php:330-355 | the recursive walk builds exactly the snapshot of the tree |
| DirectoryTree.SnapshotTidy | app/Console/Commands/IndexRepository.php:332-350 | the snapshot nests no deeper than the depth limit, and each level's keys are distinct, not hidden and not skipped |
| DirectoryTree.SnapshotLookup | app/Console/Commands/IndexRepository.php:341-348 | a shown entry's name reads back its size or its nested snapshot |
| DirectoryTree.SnapshotKeys | app/Console/Commands/IndexRepository.php:332-350 | a name is a key exactly when the depth allows it and a shown entry carries it |
| DirectoryTree.Resolve | app/Console/Commands/IndexRepository.php:98-101 | the empty path names the root, and a found node carries the path's last name |
| DirectoryTree.Files | app/Console/Commands/IndexRepository.php:174 | `File::files` lists only visible files directly in the directory, each under its path |
| DirectoryTree.FilesComplete | app/Console/Commands/IndexRepository.php:174 | every visible file directly in the directory is listed |
| DirectoryTree.AllFilesExactly | app/Console/Commands/IndexRepository.php:108 | `File::allFiles` lists exactly the visible files below the directory, reached through visible directories, each under the path of that descent |
| DirectoryTree.AllFilesSound | app/Console/Commands/IndexRepository.php:108 | every listed entry is a visible file below the directory, under the path of its descent |
| DirectoryTree.AllFilesComplete | app/Console/Commands/IndexRepository.php:108 | every visible file below the directory, reached through visible directories, is listed under its path |
| DirectoryTree.AllFilesIncludesFile | app/Console/Commands/IndexRepository.php:108 | every visible file in the directory is listed |
| DirectoryTree.AllFilesIncludesNested | app/Console/Commands/IndexRepository.php:108 | everything listed below a visible sub-directory is listed below its parent too |
| Records.StemExtension | app/Console/Commands/IndexRepository.php:112 | a name with a dot splits at its last dot into the stem and the extension |
| Records.ExtensionNeverBlade | app/Console/Commands/IndexRepository.php:147-148 | `getExtension` never yields `blade.php`, so the Blade branches cannot be taken |
| Records.Language | app/Console/Commands/IndexRepository.php:139-149 | a language is recorded exactly for php, js, css and blade.php |
| Records.Preview | app/Console/Commands/IndexRepository.php:130 | text up to 500 bytes is kept whole; longer text is cut to its first 500 bytes plus `...` |
| Records.Head | app/Console/Commands/IndexRepository.php:190 | the preview of a migration, model or configuration is a prefix of the file of at most 500 bytes |
| Records.LinesCountsLineFeeds | app/Console/Commands/IndexRepository.php:127 | the line count is the number of line feeds in the text plus one |
| Records.ReadFile | app/Console/Commands/IndexRepository.php:124-136 | a file is read exactly when it is under 1 MB and readable; otherwise its content is empty and the preview names the reason |
| Records.FileRecordShape | app/Console/Commands/IndexRepository.php:106-165 | a file row keeps the file's name, path, category and size, is described by its extension, and lists declarations only for PHP files |
| Records.ReadFileRecord | app/Console/Commands/IndexRepository.php:124-142 | a file that was read takes its lines, preview and PHP declarations from its bytes |
| Records.LargeFileNotScanned | app/Console/Commands/IndexRepository.php:124-142 | a file of 1 MB or more is not read: it has no lines, no declarations and a fixed preview |
| Records.UnreadableFile | app/Console/Commands/IndexRepository.php:125-142 | a failed read leaves no lines, no declarations and the read-error preview |
| Records.MigrationRecordReflectsFile | app/Console/Commands/IndexRepository.php:171-194 | a migration row carries the file name, every table it lists is created in the file, an operation is listed exactly when its marker occurs, and its preview is a prefix of the file of at most 500 bytes |
| Records.ModelRecordReflectsFile | app/Console/Commands/IndexRepository.php:197-221 | a model row is named by the file stem, its class is that stem, every listed relation kind has targets each called in the file, and the fillable list is empty exactly when the file has no `$fillable` assignment |
| Records.ConfigRecordReflectsFile | app/Console/Commands/IndexRepository.php:255-282 | a configuration row is named by the file stem and lists distinct keys, each occurring as `'key' =>` in the file |
| Records.RouteRecordReflectsFile | app/Console/Commands/IndexRepository.php:225-253 | a route row is filed under its file's stem, counts one route per verb or resource match, and every route it lists is registered in the file |
| Records.StructureRecordTidy | app/Console/Commands/IndexRepository.php:67-83 | the structure row is stored at `/` and holds a tidy snapshot at most three levels deep |
| Records.ByTypeCounts | app/Console/Commands/IndexRepository.php:288-296 | the summary's `by_type` has one entry per type, counts each type's rows, and adds up to all rows |
| Records.ByCategoryCounts | app/Console/Commands/IndexRepository.php:288-297 | when no category spans two types, `by_category` has one entry per category key and counts its rows |
| Indexer.RebuiltTableOneTypePerCategory | app/Console/Commands/IndexRepository.php:288-297 | the table a rebuild leaves never files one category under two types, so `by_category` counts the rows of each category exactly |
| Records.StatsGroupIsRow | app/Console/Commands/IndexRepository.php:288-291 | every (type, category) group comes from a row of the table |
| Indexer.SizeSum | app/Console/Commands/IndexRepository.php:325 | `sum('size')` is 0, never NULL, exactly when every row's size is NULL or 0, and no row's size exceeds it |
| Indexer.SizeSumAppend | app/Console/Commands/IndexRepository.php:325 | the size total of two runs of rows one after the other is the sum of their totals |
| Indexer.SizeSumSizeless | app/Console/Commands/IndexRepository.php:325 | rows without a size, such as the structure, database, route, configuration and summary rows, leave the total unchanged |
| Indexer.RecordStore.Insert | app/Console/Commands/IndexRepository.php:151-163 | an insert appends one row with the next id and leaves the earlier rows unchanged |
| Indexer.RecordStore.ClearIndex | app/Console/Commands/IndexRepository.php:60-65 | truncating empties the table |
| Indexer.RecordStore.CreateIndexTable | app/Console/Commands/IndexRepository.php:38-58 | the table exists afterwards and its rows are unchanged |
| Indexer.RecordStore.IndexProjectStructure | app/Console/Commands/IndexRepository.php:67-83 | appends the structure row |
| Indexer.RecordStore.IndexDirectory | app/Console/Commands/IndexRepository.php:106-165 | appends one file row per file, in listing order |
| Indexer.RecordStore.IndexSourceFiles | app/Console/Commands/IndexRepository.php:85-104 | appends the file rows of each existing source directory, in directory order |
| Indexer.RecordStore.IndexEach | app/Console/Commands/IndexRepository.php:108-164 | inserts the row of each listed file in turn, so the table gains exactly those rows in listing order |
| Indexer.RowsOf | app/Console/Commands/IndexRepository.php:108-164 | one row per listed file, in listing order, the i-th built from the i-th file |
| Indexer.RecordStore.IndexRouteSlot | app/Console/Commands/IndexRepository.php:232-251 | a route file adds its row when it exists and nothing when it does not |
| Indexer.RecordStore.IndexDatabaseStructure | app/Console/Commands/IndexRepository.php:167-223 | appends the migration rows, then the model rows |
| Indexer.RecordStore.IndexConfigurations | app/Console/Commands/IndexRepository.php:255-282 | appends one configuration row per file |
| Indexer.RecordStore.IndexRoutes | app/Console/Commands/IndexRepository.php:225-253 | appends one route row per existing route file, in the order web, api, console |
| Indexer.RecordStore.IndexRouteFile | app/Console/Commands/IndexRepository.php:233-250 | appends the route row built from the file's extracted routes |
| Indexer.RecordStore.GenerateIndexSummary | app/Console/Commands/IndexRepository.php:284-311 | appends a summary row computed from the rows already in the table |
| Indexer.RecordStore.DisplayIndexStats | app/Console/Commands/IndexRepository.php:313-327 | reports the per-type counts and the scaled size total of the table without changing it |
| Indexer.RecordStore.RunSweeps | app/Console/Commands/IndexRepository.php:29-33 | the five sweeps append exactly the index rows, in sweep order |
| Indexer.RecordStore.Handle | app/Console/Commands/IndexRepository.php:17-36 | a run keeps the old rows unless rebuilding, appends the index rows and then the summary, and reports counts and size of the result |
| Indexer.IndexRecordsNoSummary | app/Console/Commands/IndexRepository.php:17-36 | no sweep writes a row of type `summary` |
| Indexer.RunAddsOneSummary | app/Console/Commands/IndexRepository.php:17-36 | each run adds exactly one summary row, last, and it counts every row before it |
| Indexer.RebuildLeavesOneSummary | app/Console/Commands/IndexRepository.php:17-36 | after a rebuild, the table holds exactly one summary row |
| Query.Where | app/Http/Controllers/RepositoryIndexController.php:18-32 | a filter keeps exactly the rows meeting the condition, in table order |
| Query.WhereAppend | app/Http/Controllers/RepositoryIndexController.php:18-32 | filtering two runs of rows one after the other keeps their order |
| Query.WhereKeepsAll | app/Http/Controllers/RepositoryIndexController.php:18-32 | a condition every row meets removes nothing |
| Query.Limit | app/Http/Controllers/RepositoryIndexController.php:85 | `limit(n)` keeps a prefix of the rows: all of them for a negative n, otherwise min(n, count) |
| Browse.FilteredRows | app/Http/Controllers/RepositoryIndexController.php:18-32 | a row is listed if and only if it has the requested type and category (when given) and its name, description or preview contains the search |
| Browse.NoParametersNoFilter | app/Http/Controllers/RepositoryIndexController.php:18-32 | with no truthy parameter, every row is listed |
| Browse.StrLeTotal | app/Http/Controllers/RepositoryIndexController.php:34-36 | byte-wise string order compares any two strings |
| Browse.StrLeAntisymmetric | app/Http/Controllers/RepositoryIndexController.php:34-36 | two strings that order both ways are equal |
| Browse.StrLeTransitive | app/Http/Controllers/RepositoryIndexController.php:34-36 | byte-wise string order is transitive |
| Browse.RecordLeTotal | app/Http/Controllers/RepositoryIndexController.php:34-36 | the type, category, name order compares any two rows |
| Browse.CategoryLeTransitive | app/Http/Controllers/RepositoryIndexController.php:35 | the category order, NULL first, is transitive |
| Browse.CategoryLeAntisymmetric | app/Http/Controllers/RepositoryIndexController.php:35 | two categories that order both ways are equal |
| Browse.RecordLeTransitive | app/Http/Controllers/RepositoryIndexController.php:34-36 | the row order is transitive |
| Browse.InsertRow | app/Http/Controllers/RepositoryIndexController.php:34-36 | inserting into an ordered list keeps it ordered and adds exactly that row |
| Browse.Ordered | app/Http/Controllers/RepositoryIndexController.php:34-36 | `orderBy('type')->orderBy('category')->orderBy('name')` returns the same rows, sorted |
| Browse.SortedSlice | app/Http/Controllers/RepositoryIndexController.php:37 | any slice of an ordered list is ordered, so a page or a limit is too |
| Browse.CurrentPage | app/Http/Controllers/RepositoryIndexController.php:37 | the page read is at least 1; a missing or lower page becomes 1 |
| Browse.PagesCoverRows | app/Http/Controllers/RepositoryIndexController.php:37 | row i is item i mod 50 of page i div 50 + 1, so pages split the rows without gaps or repeats |
| Browse.PageSize | app/Http/Controllers/RepositoryIndexController.php:37 | a page holds at most 50 rows, reports the full total, and the last page is at least 1 and covers the total |
| Browse.PageOfOrdered | app/Http/Controllers/RepositoryIndexController.php:34-37 | a page of the ordered rows is ordered and holds only rows of the list |
| Browse.Find | app/Http/Controllers/RepositoryIndexController.php:46 | the row found has the id asked for, and none is found exactly when no row has it |
| Browse.Show | app/Http/Controllers/RepositoryIndexController.php:44-55 | an unknown id is a 404; otherwise the row is shown with its metadata |
| Browse.ShowById | app/Http/Controllers/RepositoryIndexController.php:44-55 | with ids numbered from 1, an id is shown exactly when 1 <= id <= count, and it shows row id |
| Browse.Categories | app/Http/Controllers/RepositoryIndexController.php:102-107 | the categories grouped are exactly the non-NULL ones present, one per row at most |
| Browse.StatsCounts | app/Http/Controllers/RepositoryIndexController.php:96-107 | the per-type and per-category counts have distinct keys, count the rows of each, and add up to the rows (or the rows with a category) |
| Browse.GetIndexStats | app/Http/Controllers/RepositoryIndexController.php:94-118 | the statistics count every row, group them by type and by non-NULL category, and report `sum('size')` (0 for a table without sizes) with its guarded formatting |
| Browse.SizelessTableStats | app/Http/Controllers/RepositoryIndexController.php:109-116 | a table whose rows have no size, an empty one included, reports a total of 0 shown as `0 B` |
| Browse.Index | app/Http/Controllers/RepositoryIndexController.php:10-42 | the page lists at most 50 matching rows, ordered, taken from the filtered and ordered table, with the statistics of the whole table |
| Browse.Api | app/Http/Controllers/RepositoryIndexController.php:57-92 | the data are the first `limit` (default 20) matching rows in order, with the statistics of the whole table |
| Search.ResultsSoundAndComplete | app/Console/Commands/SearchRepository.php:20-38 | every result matches the query, type and category; there are at most `limit` (default 10); without a binding limit every matching row is a result |
| Search.EmptyQueryMatchesAll | app/Console/Commands/SearchRepository.php:22-28 | an empty query matches every row of the requested type and category |
| Search.PathOnlyHere | app/Console/Commands/SearchRepository.php:27 | the command also searches the path, so it finds rows the controller's search misses |
| Search.PathOnlyMatches | app/Console/Commands/SearchRepository.php:22-28 | a row of the asked type and category whose term occurs only in its path is found by the command, and not by the controller's search with the same truthy term |
| Search.ShownText | app/Console/Commands/SearchRepository.php:50-54 | a category or description is printed exactly when it is truthy |
| Search.Handle | app/Console/Commands/SearchRepository.php:13-59 | no results gives the warning; otherwise the count and one entry per result, in result order, with a size only when it is non-zero |

## Left out

- Output: console messages, tables and emoji, the rendered views and the pagination links are not
  modelled. `displayIndexStats` and `repo:search` return what they would print.
- Timestamps: `last_modified`, `created_at`, `updated_at` and `generated_at` are not modelled.
- JSON encoding: metadata is stored as a structured value. `show` passes it on unchanged rather than
  decoding JSON text.
- ByteFormat.FormatBytes: does not model `round($size, 2)` or the text it prints. The amount is the
  exact quotient, and the unit is a datatype value.
- Query.Like: does not model the database's case-insensitive collation or `%` / `_` wildcards
  inside the term. A match is an exact substring occurrence.
- Browse.Ordered: ties in (type, category, name) are left in insertion order, which SQL does not
  specify. NULL categories sort first and strings compare byte-wise, as with a binary collation.
- Search.Handle: results come in table order, because the query has no `orderBy`.
- Grouping.TallyCorrect: groups come in order of first occurrence, an order SQL does not specify.
- Request parameters and options are already parsed. Non-numeric `limit` or `page` strings are not
  modelled.
- File listing: the source lists entries sorted by name (`File::files` and `File::allFiles` sort by
  full path, and `glob` sorts its matches); the model lists them in the order the tree holds them.
  Dot-names are left out. The other names Finder skips by default as version-control folders
  (`CVS`, `_svn`, `_darcs`) are listed by the model; version-control ignore rules are not modelled.
- Nodes of the wrong kind: `File::exists` also holds for a node of the other kind. The source then
  throws and the command stops, where the model adds no rows and goes on with the next sweep.
  `DirectoryAt` reads a regular file as absent: a file at `database/migrations`, `app/Models`,
  `config` or at a source directory's name, where `File::files` or `File::allFiles` would throw.
  `RouteFileAt` reads a directory as absent: a directory at `routes/web.php`, `routes/api.php` or
  `routes/console.php`, where `File::get` would throw. So the migration, model, configuration,
  source and route sweeps never model this failure.
- Records.ByCategoryCounts: groups rows by (type, category) with a NULL category read as the empty
  text, so a NULL category and an empty one share a group, where SQL keeps them apart. No row the
  command writes has an empty category.
- File sizes: a file's recorded size is taken from the tree and is not tied to the length of its
  content.
- Reading files: a failed `File::get` is modelled inside `indexDirectory`, which catches it. Files
  read by the migration, model, route and configuration sweeps are taken as readable. There, the
  source does not catch the exception, and the command would stop.
- Paths: `str_replace(base_path() . '/', '', …)` is modelled as removing that leading prefix only.
- Labels: the `$description` argument of `indexDirectory` and the directory labels of
  `indexSourceFiles` are never stored, so they are not modelled.
- Schema: the column definitions and index declarations of `createIndexTable` are not modelled beyond
  the table's existence. The auto-increment id is.
- Summary: `by_type` values are modelled as natural numbers, not the driver's numeric strings.

=== FILE: browse.dfy ===
/**
 * RepositoryIndexController: `index` and `api` filter the rows of
 * `repository_index` by type, category and a search term, order them by
 * type, category and name, and return a page of 50 or at most `limit` rows
 * together with the index statistics; `show` returns one row or 404.
 */
module Browse {
  import opened Text
  import opened ByteFormat
  import opened Grouping
  import opened Records
  import opened Indexer
  import opened Query

  // ---------------------------------------------------------------------------
  // Filtering
  // ---------------------------------------------------------------------------

  /** The search of `index` and `api`: the term occurs in the name, the description or the preview (not the path). */
  predicate Found(r: Record, term: string) {
    Contains(r.name, term) || Like(r.description, term) || Like(r.preview, term)
  }

  /** The conditions the controller adds: type, category and search, each only when its parameter is truthy. */
  predicate Selected(r: Record, kind: Param, category: Param, search: Param) {
    OfKindAndCategory(r, kind, category) && (Truthy(search) ==> Found(r, search.value))
  }

  function Filtered(rows: seq<Row>, kind: Param, category: Param, search: Param): seq<Row> {
    Where(rows, (row: Row) => Selected(row.record, kind, category, search))
  }

  /**
   * A row is listed exactly when it is in the table and meets every
   * condition whose parameter is truthy: type and category by equality, the
   * search by occurrence in the name, the description or the preview.
   */
  lemma FilteredRows(rows: seq<Row>, kind: Param, category: Param, search: Param)
    ensures forall row :: row in Filtered(rows, kind, category, search) <==>
              && row in rows
              && (Truthy(kind) ==> row.record.kind == kind.value)
              && (Truthy(category) ==> row.record.category == Some(category.value))
              && (Truthy(search) ==> (Contains(row.record.name, search.value)
                                      || (row.record.description.Some? && Contains(row.record.description.value, search.value))
                                      || (row.record.preview.Some? && Contains(row.record.preview.value, search.value))))
  {
  }

  /** Without a truthy parameter nothing is filtered out, and the table order is kept. */
  lemma NoParametersNoFilter(rows: seq<Row>, kind: Param, category: Param, search: Param)
    requires !Truthy(kind) && !Truthy(category) && !Truthy(search)
    ensures Filtered(rows, kind, category, search) == rows
  {
    WhereKeepsAll(rows, (row: Row) => Selected(row.record, kind, category, search));
  }

  // ---------------------------------------------------------------------------
  // orderBy('type')->orderBy('category')->orderBy('name')
  // ---------------------------------------------------------------------------

  /** Byte-wise string order: a proper prefix comes first. */
  predicate StrLe(a: string, b: string)
    decreases |a|
  {
    a == [] || (b != [] && (a[0] < b[0] || (a[0] == b[0] && StrLe(a[1..], b[1..]))))
  }

  lemma {:induction false} StrLeTotal(a: string, b: string)
    ensures StrLe(a, b) || StrLe(b, a)
    decreases |a|
  {
    if a != [] && b != [] && a[0] == b[0] {
      StrLeTotal(a[1..], b[1..]);
    }
  }

  lemma {:induction false} StrLeAntisymmetric(a: string, b: string)
    requires StrLe(a, b) && StrLe(b, a)
    ensures a == b
    decreases |a|
  {
    if a != [] {
      StrLeAntisymmetric(a[1..], b[1..]);
      assert a == [a[0]] + a[1..] && b == [b[0]] + b[1..];
    }
  }

  lemma {:induction false} StrLeTransitive(a: string, b: string, c: string)
    requires StrLe(a, b) && StrLe(b, c)
    ensures StrLe(a, c)
    decreases |a|
  {
    if a != [] && a[0] == b[0] && b[0] == c[0] {
      StrLeTransitive(a[1..], b[1..], c[1..]);
    }
  }

  /** Category order: NULL first, then by text. */
  predicate CategoryLe(a: Option<string>, b: Option<string>) {
    a.None? || (b.Some? && StrLe(a.value, b.value))
  }

  /** `x` may come before `y`: by type, then category, then name. */
  predicate RecordLe(x: Record, y: Record) {
    if x.kind != y.kind then StrLe(x.kind, y.kind)
    else if x.category != y.category then CategoryLe(x.category, y.category)
    else StrLe(x.name, y.name)
  }

  predicate RowLe(a: Row, b: Row) {
    RecordLe(a.record, b.record)
  }

  lemma RecordLeTotal(x: Record, y: Record)
    ensures RecordLe(x, y) || RecordLe(y, x)
  {
    StrLeTotal(x.kind, y.kind);
    StrLeTotal(x.name, y.name);
    if x.category.Some? && y.category.Some? {
      StrLeTotal(x.category.value, y.category.value);
    }
  }

  lemma CategoryLeTransitive(a: Option<string>, b: Option<string>, c: Option<string>)
    requires CategoryLe(a, b) && CategoryLe(b, c)
    ensures CategoryLe(a, c)
  {
    if a.Some? {
      StrLeTransitive(a.value, b.value, c.value);
    }
  }

  lemma CategoryLeAntisymmetric(a: Option<string>, b: Option<string>)
    requires CategoryLe(a, b) && CategoryLe(b, a)
    ensures a == b
  {
    if a.Some? {
      StrLeAntisymmetric(a.value, b.value);
    }
  }

  lemma RecordLeTransitive(x: Record, y: Record, z: Record)
    requires RecordLe(x, y) && RecordLe(y, z)
    ensures RecordLe(x, z)
  {
    if x.kind != y.kind || y.kind != z.kind {
      if x.kind != y.kind && y.kind != z.kind {
        StrLeTransitive(x.kind, y.kind, z.kind);
        if x.kind == z.kind {
          StrLeAntisymmetric(x.kind, y.kind);
        }
      }
    } else if x.category != y.category || y.category != z.category {
      if x.category != y.category && y.category != z.category {
        CategoryLeTransitive(x.category, y.category, z.category);
        if x.category == z.category {
          CategoryLeAntisymmetric(x.category, y.category);
        }
      }
    } else {
      StrLeTransitive(x.name, y.name, z.name);
    }
  }

  /** Ascending by type, then category, then name. */
  predicate Sorted(rows: seq<Row>) {
    forall i, j :: 0 <= i < j < |rows| ==> RowLe(rows[i], rows[j])
  }

  /** `x` placed in an ordered run of rows. */
  function InsertRow(x: Row, rows: seq<Row>): (r: seq<Row>)
    requires Sorted(rows)
    ensures Sorted(r)
    ensures multiset(r) == multiset(rows) + multiset{x}
  {
    if rows == [] then [x]
    else if RowLe(x, rows[0]) then
      InsertFrontSorted(x, rows);
      [x] + rows
    else
      var rest := InsertRow(x, rows[1..]);
      InsertBehindSorted(x, rows, rest);
      [rows[0]] + rest
  }

  /** A row that orders before every row of an ordered run can be put in front of it. */
  lemma ConsSorted(y: Row, rows: seq<Row>)
    requires Sorted(rows) && forall k :: 0 <= k < |rows| ==> RowLe(y, rows[k])
    ensures Sorted([y] + rows)
  {
    forall i, j | 0 <= i < j < |rows| + 1 ensures RowLe(([y] + rows)[i], ([y] + rows)[j]) {
      assert ([y] + rows)[j] == rows[j - 1];
      if i > 0 {
        assert ([y] + rows)[i] == rows[i - 1];
      }
    }
  }

  /** A row that orders before the head of an ordered run orders before all of it. */
  lemma InsertFrontSorted(x: Row, rows: seq<Row>)
    requires Sorted(rows) && rows != [] && RowLe(x, rows[0])
    ensures Sorted([x] + rows)
  {
    forall k | 0 <= k < |rows| ensures RowLe(x, rows[k]) {
      if k > 0 {
        RecordLeTransitive(x.record, rows[0].record, rows[k].record);
      }
    }
    ConsSorted(x, rows);
  }

  /** The head of an ordered run stays first when `x`, which orders after it, is placed in its tail. */
  lemma InsertBehindSorted(x: Row, rows: seq<Row>, rest: seq<Row>)
    requires Sorted(rows) && rows != [] && !RowLe(x, rows[0])
    requires Sorted(rest) && multiset(rest) == multiset(rows[1..]) + multiset{x}
    ensures Sorted([rows[0]] + rest)
    ensures multiset([rows[0]] + rest) == multiset(rows) + multiset{x}
  {
    HeadBelowInserted(x, rows, rest);
    ConsSorted(rows[0], rest);
    assert rows == [rows[0]] + rows[1..];
  }

  /** Every row of the tail with `x` placed in it orders after the head. */
  lemma HeadBelowInserted(x: Row, rows: seq<Row>, rest: seq<Row>)
    requires Sorted(rows) && rows != [] && !RowLe(x, rows[0])
    requires multiset(rest) == multiset(rows[1..]) + multiset{x}
    ensures forall k :: 0 <= k < |rest| ==> RowLe(rows[0], rest[k])
  {
    RecordLeTotal(x.record, rows[0].record);
    forall k | 0 <= k < |rest| ensures RowLe(rows[0], rest[k]) {
      var y := rest[k];
      assert y in multiset(rest);
      if y != x {
        assert y in rows[1..];
      }
    }
  }

  /** The rows in the order of `orderBy('type')->orderBy('category')->orderBy('name')`. */
  function Ordered(rows: seq<Row>): (r: seq<Row>)
    ensures Sorted(r)
    ensures multiset(r) == multiset(rows)
  {
    if rows == [] then []
    else
      assert rows == [rows[0]] + rows[1..];
      InsertRow(rows[0], Ordered(rows[1..]))
  }

  /** A contiguous piece of an ordered run is ordered. */
  lemma SortedSlice(rows: seq<Row>, lo: nat, hi: nat)
    requires Sorted(rows) && lo <= hi <= |rows|
    ensures Sorted(rows[lo..hi])
  {
    forall i, j | 0 <= i < j < hi - lo ensures RowLe(rows[lo..hi][i], rows[lo..hi][j]) {
      assert rows[lo..hi][i] == rows[lo + i] && rows[lo..hi][j] == rows[lo + j];
    }
  }

  // ---------------------------------------------------------------------------
  // paginate(50) and limit
  // ---------------------------------------------------------------------------

  const PerPage: nat := 50

  /** A page of results with what the pagination links are drawn from. */
  datatype Page = Page(items: seq<Row>, total: nat, currentPage: nat, lastPage: nat)

  /** The page asked for: an absent page, or one below 1, is page 1. */
  function CurrentPage(page: Option<int>): (p: nat)
    ensures p >= 1
    ensures page.Some? && page.value >= 1 ==> p == page.value
    ensures page.None? || page.value < 1 ==> p == 1
  {
    match page
    case Some(n) => if n >= 1 then n else 1
    case None => 1
  }

  /** The number of pages: at least one, and enough for every row. */
  function LastPage(total: nat): nat {
    if total == 0 then 1 else (total + PerPage - 1) / PerPage
  }

  /** paginate(50): the rows of the current page, and the totals the links need. */
  function Paginate(rows: seq<Row>, page: Option<int>): Page {
    var p := CurrentPage(page);
    var offset := (p - 1) * PerPage;
    var items := if offset >= |rows| then []
                 else if offset + PerPage <= |rows| then rows[offset..offset + PerPage]
                 else rows[offset..];
    Page(items, |rows|, p, LastPage(|rows|))
  }

  /**
   * Every row is on exactly the page its position calls for: row `i` is item
   * `i % 50` of page `i / 50 + 1`, no page holds more than 50 rows, and every
   * page before the last is full.
   */
  lemma PagesCoverRows(rows: seq<Row>, i: nat)
    requires i < |rows|
    ensures var pg := Paginate(rows, Some(i / PerPage + 1));
            i % PerPage < |pg.items| && pg.items[i % PerPage] == rows[i] && pg.currentPage <= pg.lastPage
  {
  }

  lemma PageSize(rows: seq<Row>, page: Option<int>)
    ensures var pg := Paginate(rows, page);
            && |pg.items| <= PerPage
            && (pg.currentPage < pg.lastPage ==> |pg.items| == PerPage)
            && (pg.currentPage > pg.lastPage ==> pg.items == [])
            && pg.lastPage >= 1 && (pg.lastPage - 1) * PerPage < |rows| + (if rows == [] then 1 else 0)
            && |rows| <= pg.lastPage * PerPage
  {
  }

  /** The page's rows are rows of the table, in order. */
  lemma PageOfOrdered(rows: seq<Row>, page: Option<int>)
    requires Sorted(rows)
    ensures var items := Paginate(rows, page).items;
            Sorted(items) && forall row :: row in items ==> row in rows
  {
    var p := CurrentPage(page);
    var offset := (p - 1) * PerPage;
    if offset < |rows| {
      var hi := if offset + PerPage <= |rows| then offset + PerPage else |rows|;
      assert Paginate(rows, page).items == rows[offset..hi];
      SortedSlice(rows, offset, hi);
    }
  }

  /** The default `limit` of `api`. */
  const ApiDefaultLimit := 20

  // ---------------------------------------------------------------------------
  // show
  // ---------------------------------------------------------------------------

  /** `find($id)`: the first row with that id. */
  function Find(rows: seq<Row>, id: int): (r: Option<Row>)
    ensures r.Some? ==> r.value in rows && r.value.id == id
    ensures r.None? <==> forall i :: 0 <= i < |rows| ==> rows[i].id != id
  {
    if rows == [] then None
    else if rows[0].id == id then Some(rows[0])
    else
      var r := Find(rows[1..], id);
      assert forall i :: 1 <= i < |rows| ==> rows[i] == rows[1..][i - 1];
      r
  }

  /** The outcome of `show`: 404, or the row with its decoded metadata. */
  datatype ShowResult = NotFound | Shown(item: Row, metadata: Metadata)

  function Show(rows: seq<Row>, id: int): (r: ShowResult)
    ensures r.NotFound? <==> forall i :: 0 <= i < |rows| ==> rows[i].id != id
    ensures r.Shown? ==> r.item in rows && r.item.id == id && r.metadata == r.item.record.metadata
  {
    match Find(rows, id)
    case None => NotFound
    case Some(row) => Shown(row, row.record.metadata)
  }

  /** With the ids the table hands out (1, 2, ... in row order), `show` finds row `id` exactly when it exists. */
  lemma ShowById(rows: seq<Row>, id: int)
    requires forall i :: 0 <= i < |rows| ==> rows[i].id == i + 1
    ensures Show(rows, id).Shown? <==> 1 <= id <= |rows|
    ensures Show(rows, id).Shown? ==> Show(rows, id).item == rows[id - 1]
  {
    if 1 <= id <= |rows| {
      assert rows[id - 1].id == id;
      var r := Show(rows, id);
      var k :| 0 <= k < |rows| && rows[k] == r.item;
    }
  }

  // ---------------------------------------------------------------------------
  // getIndexStats
  // ---------------------------------------------------------------------------

  /** The non-null categories of the rows, in row order (`whereNotNull('category')`). */
  function Categories(records: seq<Record>): (cs: seq<string>)
    ensures |cs| <= |records|
    ensures forall c :: c in cs <==> exists i :: 0 <= i < |records| && records[i].category == Some(c)
  {
    if records == [] then []
    else
      var init := records[..|records| - 1];
      var last := records[|records| - 1];
      assert forall i :: 0 <= i < |init| ==> init[i] == records[i];
      Categories(init) + (if last.category.Some? then [last.category.value] else [])
  }

  /** `groupBy('type')` with `count(*)`, plucked by type. */
  function TypeCounts(records: seq<Record>): seq<(string, nat)> {
    Pluck(Tally(Kinds(records)))
  }

  /** `whereNotNull('category')->groupBy('category')` with `count(*)`, plucked by category. */
  function CategoryCounts(records: seq<Record>): seq<(string, nat)> {
    Pluck(Tally(Categories(records)))
  }

  /** The statistics `index` and `api` return. */
  datatype IndexStats = IndexStats(totalItems: nat, byType: seq<(string, nat)>, byCategory: seq<(string, nat)>,
                                   totalSize: nat, totalSizeHuman: Quantity)

  /**
   * `stats` are the statistics of `rows`; the total size is `sum('size')`,
   * which is 0 for a table without sizes, and the human size is its formatBytes.
   */
  predicate StatsFor(stats: IndexStats, rows: seq<Row>) {
    var records := RecordsOf(rows);
    && stats.totalItems == |rows|
    && stats.byType == TypeCounts(records)
    && stats.byCategory == CategoryCounts(records)
    && stats.totalSize == SizeSum(records)
    && stats.totalSizeHuman == Scaled(stats.totalSize)
  }

  /**
   * `by_type` lists each type once with its number of rows, and those counts
   * add up to `total_items`; `by_category` lists each non-null category once
   * with its number of rows, and rows without a category are not counted.
   */
  lemma StatsCounts(records: seq<Record>)
    ensures DistinctKeys(TypeCounts(records))
    ensures forall t :: AmountFor(TypeCounts(records), t) == Occurrences(Kinds(records), t)
    ensures Total(TypeCounts(records)) == |records|
    ensures DistinctKeys(CategoryCounts(records))
    ensures forall c :: AmountFor(CategoryCounts(records), c) == Occurrences(Categories(records), c)
    ensures Total(CategoryCounts(records)) == |Categories(records)|
    ensures forall c :: c in Keys(CategoryCounts(records)) <==> exists i :: 0 <= i < |records| && records[i].category == Some(c)
  {
    TallyCorrect(Kinds(records));
    PluckDistinct(Tally(Kinds(records)));
    TallyCorrect(Categories(records));
    PluckDistinct(Tally(Categories(records)));
  }

  /** getIndexStats. */
  method GetIndexStats(rows: seq<Row>) returns (stats: IndexStats)
    ensures StatsFor(stats, rows)
  {
    var records := RecordsOf(rows);
    var totalSize := SizeSum(records);
    var human := FormatBytesGuarded(Some(totalSize));
    GuardAgreesOnZero();
    stats := IndexStats(|rows|, TypeCounts(records), CategoryCounts(records), totalSize, human);
  }

  /**
   * A table whose rows carry no size (an empty one included) reports a total
   * of 0, shown as zero bytes, not a null.
   */
  lemma SizelessTableStats(stats: IndexStats, rows: seq<Row>)
    requires StatsFor(stats, rows)
    requires forall i :: 0 <= i < |rows| ==> rows[i].record.size.None?
    ensures stats.totalSize == 0 && stats.totalSizeHuman == Quantity(0.0, B)
  {
    var records := RecordsOf(rows);
    assert forall i :: 0 <= i < |records| ==> SizeOf(records[i]) == 0;
    GuardAgreesOnZero();
  }

  // ---------------------------------------------------------------------------
  // index and api
  // ---------------------------------------------------------------------------

  /** index: the requested page of the filtered, ordered rows, and the statistics. */
  method Index(rows: seq<Row>, kind: Param, category: Param, search: Param, page: Option<int>)
    returns (items: Page, stats: IndexStats)
    ensures items == Paginate(Ordered(Filtered(rows, kind, category, search)), page)
    ensures Sorted(items.items) && |items.items| <= PerPage
    ensures forall row :: row in items.items ==> row in rows && Selected(row.record, kind, category, search)
    ensures StatsFor(stats, rows)
  {
    var selected := Filtered(rows, kind, category, search);
    var ordered := Ordered(selected);
    items := Paginate(ordered, page);
    PageOfOrdered(ordered, page);
    PageSize(ordered, page);
    forall row | row in items.items
      ensures row in rows && Selected(row.record, kind, category, search)
    {
      assert row in multiset(ordered);
    }
    stats := GetIndexStats(rows);
  }

  /** api: at most `limit` (by default 20) of the filtered, ordered rows, and the statistics. */
  method Api(rows: seq<Row>, kind: Param, category: Param, search: Param, limit: Option<int>)
    returns (data: seq<Row>, stats: IndexStats)
    ensures data == Limit(Ordered(Filtered(rows, kind, category, search)), LimitOr(limit, ApiDefaultLimit))
    ensures Sorted(data)
    ensures forall row :: row in data ==> row in rows && Selected(row.record, kind, category, search)
    ensures LimitOr(limit, ApiDefaultLimit) >= 0 ==> |data| <= LimitOr(limit, ApiDefaultLimit)
    ensures StatsFor(stats, rows)
  {
    var ordered := Ordered(Filtered(rows, kind, category, search));
    data := Limit(ordered, LimitOr(limit, ApiDefaultLimit));
    SortedSlice(ordered, 0, |data|);
    forall row | row in data
      ensures row in rows && Selected(row.record, kind, category, search)
    {
      assert row in multiset(ordered);
    }
    stats := GetIndexStats(rows);
  }
}

=== FILE: bytes.dfy ===
/**
 * formatBytes, as written three times in the repository: the size is divided
 * by 1024 while it is at least 1024 and a larger unit remains. Dividing by a
 * power of two is exact, so the scaled amount is modelled as a real number;
 * the rounding to two decimals and the text it is printed as are not modelled.
 */
module ByteFormat {
  import opened Text

  datatype ByteUnit = B | KB | MB | GB

  /** The unit list of formatBytes, smallest first. */
  const Units: seq<ByteUnit> := [B, KB, MB, GB]

  function UnitName(u: ByteUnit): string {
    match u
    case B => "B"
    case KB => "KB"
    case MB => "MB"
    case GB => "GB"
  }

  /** A size as formatBytes reports it: an amount in a unit. */
  datatype Quantity = Quantity(amount: real, unit: ByteUnit)

  function Pow1024(k: nat): (p: nat)
    ensures p >= 1
  {
    if k == 0 then 1 else 1024 * Pow1024(k - 1)
  }

  /**
   * The index of the unit formatBytes picks: the largest of B, KB, MB, GB
   * whose threshold 1024^k the size reaches, capped at GB.
   */
  function UnitIndex(size: int): (k: nat)
    ensures k < |Units|
    ensures k == 0 || size >= Pow1024(k)
    ensures k == |Units| - 1 || size < Pow1024(k + 1)
  {
    if size < 1024 then 0
    else if size < 1024 * 1024 then 1
    else if size < 1024 * 1024 * 1024 then 2
    else 3
  }

  /** The unit is the only one whose range holds the size: the thresholds decide it. */
  lemma UnitIndexUnique(size: int, k: nat)
    requires k < |Units|
    requires k == 0 || size >= Pow1024(k)
    requires k == |Units| - 1 || size < Pow1024(k + 1)
    ensures UnitIndex(size) == k
  {
    var j := UnitIndex(size);
    if j < k {
      PowMonotone(j + 1, k);
    } else if k < j {
      PowMonotone(k + 1, j);
    }
  }

  lemma {:induction false} PowMonotone(i: nat, j: nat)
    requires i <= j
    ensures Pow1024(i) <= Pow1024(j)
    decreases j
  {
    if i < j {
      PowMonotone(i, j - 1);
    }
  }

  /** A larger size never gets a smaller unit. */
  lemma UnitIndexMonotone(a: int, b: int)
    requires a <= b
    ensures UnitIndex(a) <= UnitIndex(b)
  {
  }

  /** The quantity formatBytes reports for `size`, before rounding. */
  function Scaled(size: int): (q: Quantity)
    ensures q.unit == Units[UnitIndex(size)]
    ensures q.amount * (Pow1024(UnitIndex(size)) as real) == size as real
  {
    Quantity(size as real / Pow1024(UnitIndex(size)) as real, Units[UnitIndex(size)])
  }

  /** Once a unit above B is picked, the reported amount is at least 1 and, below GB, under 1024. */
  lemma ScaledRange(size: int)
    requires size >= 1024
    ensures 1.0 <= Scaled(size).amount
    ensures Scaled(size).unit != GB ==> Scaled(size).amount < 1024.0
  {
    var k := UnitIndex(size);
    var p := Pow1024(k) as real;
    assert (1024 * Pow1024(k)) as real == 1024.0 * p;
    RatioBounds(Scaled(size).amount, p, size as real);
  }

  /** For a = s / p with p > 0: a is at least 1 when s is at least p, and under 1024 when s is under 1024 p. */
  lemma RatioBounds(a: real, p: real, s: real)
    requires p > 0.0 && a * p == s
    ensures s >= p ==> a >= 1.0
    ensures s < 1024.0 * p ==> a < 1024.0
  {
    if a < 1.0 {
      ScaleStrict(a, 1.0, p);
    }
    if a >= 1024.0 {
      ScaleMono(1024.0, a, p);
    }
  }

  lemma ScaleMono(a: real, b: real, p: real)
    requires p > 0.0 && a <= b
    ensures a * p <= b * p
  {
  }

  lemma ScaleStrict(a: real, b: real, p: real)
    requires p > 0.0 && a < b
    ensures a * p < b * p
  {
  }

  /** formatBytes: the loop that divides by 1024 and steps to the next unit. */
  method FormatBytes(size: int) returns (q: Quantity)
    ensures q == Scaled(size)
  {
    var amount := size as real;
    var unit := 0;
    while amount >= 1024.0 && unit < |Units| - 1
      invariant 0 <= unit < |Units|
      invariant amount * (Pow1024(unit) as real) == size as real
      invariant unit == 0 || size >= Pow1024(unit)
      decreases |Units| - unit
    {
      amount := amount / 1024.0;
      unit := unit + 1;
    }
    UnitIndexUnique(size, unit);
    q := Quantity(amount, Units[unit]);
  }

  /**
   * The controller's formatBytes: a falsy size (null or 0) is reported as
   * zero bytes without entering the loop.
   */
  method FormatBytesGuarded(size: Option<int>) returns (q: Quantity)
    ensures size.None? || size.value == 0 ==> q == Quantity(0.0, B)
    ensures size.Some? && size.value != 0 ==> q == Scaled(size.value)
  {
    if size.None? || size.value == 0 {
      return Quantity(0.0, B);
    }
    q := FormatBytes(size.value);
  }

  /** The guard changes nothing: the unguarded loop reports zero bytes for 0 as well. */
  lemma GuardAgreesOnZero()
    ensures Scaled(0) == Quantity(0.0, B)
  {
  }
}

=== FILE: extractors.dfy ===
/**
 * The pattern extractors of the indexing command (IndexRepository.php): each
 * turns a file's text into a small structured result and never fails; text
 * without a match gives an empty result.
 */
module Extractors {
  import opened Text
  import opened Patterns

  // ---------------------------------------------------------------------------
  // Class and function names
  // ---------------------------------------------------------------------------

  /**
   * `name` is declared at `i` by `keyword`: the keyword, one or more blanks,
   * then `name`, a run of word characters that the next character does not extend.
   */
  ghost predicate DeclarationAt(s: string, i: nat, keyword: string, name: string) {
    && StartsAt(s, i, keyword)
    && name != []
    && (forall c :: c in name ==> IsWordChar(c))
    && exists j :: i + |keyword| < j
         && StartsAt(s, j, name)
         && (forall k :: i + |keyword| <= k < j ==> IsSpace(s[k]))
         && (j + |name| == |s| || !IsWordChar(s[j + |name|]))
  }

  /** A match of the scanner for `keyword\s+(\w+)` is a declaration of the name it captures. */
  lemma KeywordNameDeclares(s: string, i: nat, keyword: string)
    requires i <= |s| && KeywordName(s, i, keyword).Some?
    ensures DeclarationAt(s, i, keyword, KeywordName(s, i, keyword).value.groups[0])
  {
    var j := RunEnd(s, i + |keyword|, Space);
    var e := RunEnd(s, j, Word);
    assert StartsAt(s, j, s[j..e]);
  }

  /** A word run at `j` after the blanks that follow the keyword is what the scanner captures. */
  lemma NameRunMatches(s: string, i: nat, keyword: string, name: string, j: nat)
    requires StartsAt(s, i, keyword) && i + |keyword| < j && StartsAt(s, j, name)
    requires name != [] && forall c :: c in name ==> IsWordChar(c)
    requires forall k :: i + |keyword| <= k < j ==> IsSpace(s[k])
    requires j + |name| == |s| || !IsWordChar(s[j + |name|])
    ensures KeywordName(s, i, keyword) == Some(Match(i, j + |name|, [name]))
  {
    var e := j + |name|;
    assert s[j..e] == name;
    forall k | j <= k < e ensures IsWordChar(s[k]) {
      assert s[k] == name[k - j];
      assert name[k - j] in name;
    }
    RunEndAt(s, j, e, Word);
    RunEndAt(s, i + |keyword|, j, Space);
  }

  /** A declaration at `i` is what the scanner captures there. */
  lemma DeclarationMatches(s: string, i: nat, keyword: string, name: string)
    requires i <= |s| && DeclarationAt(s, i, keyword, name)
    ensures KeywordName(s, i, keyword).Some? && KeywordName(s, i, keyword).value.groups[0] == name
  {
    var j :| i + |keyword| < j
       && StartsAt(s, j, name)
       && (forall k :: i + |keyword| <= k < j ==> IsSpace(s[k]))
       && (j + |name| == |s| || !IsWordChar(s[j + |name|]));
    NameRunMatches(s, i, keyword, name, j);
  }

  /** The scanner for `keyword\s+(\w+)` finds exactly the declarations. */
  lemma KeywordNameIsDeclaration(s: string, i: nat, keyword: string, name: string)
    requires i <= |s|
    ensures (KeywordName(s, i, keyword).Some? && KeywordName(s, i, keyword).value.groups[0] == name)
            <==> DeclarationAt(s, i, keyword, name)
  {
    if KeywordName(s, i, keyword).Some? {
      KeywordNameDeclares(s, i, keyword);
    }
    if DeclarationAt(s, i, keyword, name) {
      DeclarationMatches(s, i, keyword, name);
    }
  }

  /** Matching a declaration pattern is running the keyword scanner. */
  lemma DeclarationPattern(p: Pattern, s: string, i: nat)
    requires p == ClassDecl || p == FunctionDecl
    requires i <= |s|
    ensures MatchAt(p, s, i) == KeywordName(s, i, Keyword(p))
  {
  }

  /** extractPHPClasses: the name after each `class` keyword, in text order, duplicates kept. */
  function ClassNames(content: string): (names: seq<string>)
    ensures |names| == |FindAll(ClassDecl, content)|
  {
    Captures(FindAll(ClassDecl, content), 0)
  }

  /** extractPHPFunctions: the name after each `function` keyword, in text order, duplicates kept. */
  function FunctionNames(content: string): (names: seq<string>)
    ensures |names| == |FindAll(FunctionDecl, content)|
  {
    Captures(FindAll(FunctionDecl, content), 0)
  }

  function Keyword(p: Pattern): string
    requires p == ClassDecl || p == FunctionDecl
  {
    if p == ClassDecl then "class" else "function"
  }

  /**
   * Every extracted class (function) name is declared in the text at the
   * position of its match, and the positions increase: text order.
   */
  lemma {:induction false} DeclaredNamesSound(p: Pattern, content: string, k: nat)
    requires p == ClassDecl || p == FunctionDecl
    requires k < |FindAll(p, content)|
    ensures var ms := FindAll(p, content);
            var names := Captures(ms, 0);
            && DeclarationAt(content, ms[k].start, Keyword(p), names[k])
            && (k + 1 < |ms| ==> ms[k].start < ms[k + 1].start)
  {
    var ms := FindAll(p, content);
    FindAllSound(p, content, k);
    DeclarationPattern(p, content, ms[k].start);
    KeywordNameDeclares(content, ms[k].start, Keyword(p));
  }

  /**
   * No declaration is missed: each lies inside a reported match, and one that
   * starts a match is the name reported for it. Only a declaration nested in
   * the text of an earlier match (`class class Foo`) goes unreported.
   */
  lemma DeclaredNamesComplete(p: Pattern, content: string, i: nat, name: string)
    requires p == ClassDecl || p == FunctionDecl
    requires i <= |content| && DeclarationAt(content, i, Keyword(p), name)
    ensures var ms := FindAll(p, content);
            exists k :: 0 <= k < |ms| && ms[k].start <= i < ms[k].end
                        && (ms[k].start == i ==> Captures(ms, 0)[k] == name)
  {
    var ms := FindAll(p, content);
    DeclarationMatches(content, i, Keyword(p), name);
    DeclarationPattern(p, content, i);
    FindAllComplete(p, content, i);
    var k :| 0 <= k < |ms| && ms[k].start <= i < ms[k].end;
    FindAllSound(p, content, k);
  }

  /** The class (function) list is empty exactly when the text declares nothing. */
  lemma DeclaredNamesEmpty(p: Pattern, content: string)
    requires p == ClassDecl || p == FunctionDecl
    ensures Captures(FindAll(p, content), 0) == [] <==>
            forall i: nat, name :: i <= |content| ==> !DeclarationAt(content, i, Keyword(p), name)
  {
    if Captures(FindAll(p, content), 0) == [] {
      forall i: nat, name | i <= |content| ensures !DeclarationAt(content, i, Keyword(p), name) {
        if DeclarationAt(content, i, Keyword(p), name) {
          DeclaredNamesComplete(p, content, i, name);
        }
      }
    } else {
      DeclaredNamesSound(p, content, 0);
    }
  }

  // ---------------------------------------------------------------------------
  // Migrations
  // ---------------------------------------------------------------------------

  /** extractTableNames: the quoted first argument of every `Schema::create(` call, in text order. */
  function TableNames(content: string): (tables: seq<string>)
    ensures |tables| == |FindAll(SchemaCreate, content)|
  {
    Captures(FindAll(SchemaCreate, content), 0)
  }

  /** `name` is created at `i`: `Schema::create(`, a quote, the word run `name`, a quote. */
  ghost predicate CreatesTable(s: string, i: nat, name: string) {
    && StartsAt(s, i, "Schema::create(")
    && name != [] && (forall c :: c in name ==> IsWordChar(c))
    && i + 16 + |name| < |s|
    && IsQuote(s[i + 15]) && StartsAt(s, i + 16, name) && IsQuote(s[i + 16 + |name|])
  }

  /** Each table name is a quoted word literal right after `Schema::create(`, in text order. */
  lemma {:induction false} TableNamesSound(content: string, k: nat)
    requires k < |TableNames(content)|
    ensures var i := FindAll(SchemaCreate, content)[k].start;
            && CreatesTable(content, i, TableNames(content)[k])
            && (k + 1 < |TableNames(content)| ==> i < FindAll(SchemaCreate, content)[k + 1].start)
  {
    FindAllSound(SchemaCreate, content, k);
  }

  /** A `Schema::create('name'` call is what the scanner captures at its start. */
  lemma CreatesTableMatches(s: string, i: nat, name: string)
    requires i <= |s| && CreatesTable(s, i, name)
    ensures MatchAt(SchemaCreate, s, i) == Some(Match(i, i + 17 + |name|, [name]))
  {
    var e := i + 16 + |name|;
    assert s[i + 16..e] == name;
    forall k | i + 16 <= k < e ensures IsWordChar(s[k]) {
      assert s[k] == name[k - i - 16];
      assert name[k - i - 16] in name;
    }
    RunEndAt(s, i + 16, e, Word);
  }

  /**
   * No created table is missed: each call lies inside a reported match, and
   * one that starts a match is the name reported for it.
   */
  lemma TableNamesComplete(content: string, i: nat, name: string)
    requires i <= |content| && CreatesTable(content, i, name)
    ensures var ms := FindAll(SchemaCreate, content);
            exists k :: 0 <= k < |ms| && ms[k].start <= i < ms[k].end
                        && (ms[k].start == i ==> TableNames(content)[k] == name)
  {
    var ms := FindAll(SchemaCreate, content);
    CreatesTableMatches(content, i, name);
    FindAllComplete(SchemaCreate, content, i);
    var k :| 0 <= k < |ms| && ms[k].start <= i < ms[k].end;
    FindAllSound(SchemaCreate, content, k);
  }

  /** Every listed table is created somewhere in the text. */
  lemma TableNamesMember(content: string, name: string)
    requires name in TableNames(content)
    ensures exists i :: CreatesTable(content, i, name)
  {
    var k :| 0 <= k < |TableNames(content)| && TableNames(content)[k] == name;
    TableNamesSound(content, k);
  }

  /** The schema operations a migration performs. */
  datatype Operation = Create | Modify | Drop

  /** The call whose presence marks each operation. */
  function Marker(op: Operation): string {
    match op
    case Create => "Schema::create"
    case Modify => "Schema::table"
    case Drop => "Schema::drop"
  }

  function Rank(op: Operation): nat {
    match op
    case Create => 0
    case Modify => 1
    case Drop => 2
  }

  /**
   * extractMigrationOperations: an operation is listed exactly when its
   * marker occurs in the text, each at most once, in the order create,
   * modify, drop.
   */
  function MigrationOperations(content: string): (ops: seq<Operation>)
    ensures forall op :: op in ops <==> Contains(content, Marker(op))
    ensures forall i, j :: 0 <= i < j < |ops| ==> Rank(ops[i]) < Rank(ops[j])
  {
    Listed(Contains(content, Marker(Create)), Contains(content, Marker(Modify)), Contains(content, Marker(Drop)))
  }

  /** The operations whose flags are set, in rank order. */
  function Listed(create: bool, alter: bool, drop: bool): (ops: seq<Operation>)
    ensures (Create in ops <==> create) && (Modify in ops <==> alter) && (Drop in ops <==> drop)
    ensures forall i, j :: 0 <= i < j < |ops| ==> Rank(ops[i]) < Rank(ops[j])
  {
    (if create then [Create] else []) + (if alter then [Modify] else []) + (if drop then [Drop] else [])
  }

  /** `Schema::dropIfExists` counts as a drop: presence of the marker is all that is checked. */
  lemma DropIfExistsIsDrop(content: string)
    requires Contains(content, "Schema::dropIfExists")
    ensures Drop in MigrationOperations(content)
  {
    ContainsIff(content, "Schema::dropIfExists");
    ContainsIff(content, "Schema::drop");
    var i :| 0 <= i <= |content| && StartsAt(content, i, "Schema::dropIfExists");
    PrefixOccurs(content, i, "Schema::dropIfExists", 12);
    assert "Schema::dropIfExists"[..12] == "Schema::drop";
  }

  // ---------------------------------------------------------------------------
  // Model relationships
  // ---------------------------------------------------------------------------

  /** The relationship patterns in the order the source tries them. */
  const RelationKinds: seq<RelationKind> := [HasOne, HasMany, BelongsTo, BelongsToMany]

  function KindRank(k: RelationKind): nat {
    match k
    case HasOne => 0
    case HasMany => 1
    case BelongsTo => 2
    case BelongsToMany => 3
  }

  /** The targets of every call of relationship kind `k`, in text order. */
  function RelationTargets(content: string, k: RelationKind): (targets: seq<string>)
    ensures |targets| == |FindAll(Relation(k), content)|
  {
    Captures(FindAll(Relation(k), content), 0)
  }

  /**
   * `target` is the target of a `kind(` call at `i`: the call's name and its
   * parenthesis, an optional quote, then `target`, a run of word characters
   * that the next character does not extend.
   */
  ghost predicate RelationCallAt(s: string, i: nat, kind: RelationKind, target: string) {
    var j := i + |RelationName(kind)| + 1;
    && StartsAt(s, i, RelationName(kind) + "(")
    && target != [] && (forall c :: c in target ==> IsWordChar(c))
    && exists q :: (q == j || (q == j + 1 && j < |s| && IsQuote(s[j])))
         && StartsAt(s, q, target)
         && (q + |target| == |s| || !IsWordChar(s[q + |target|]))
  }

  /** Matching a relationship pattern is running the optionally quoted word scanner. */
  lemma RelationPattern(kind: RelationKind, s: string, i: nat)
    requires i <= |s|
    ensures MatchAt(Relation(kind), s, i) == OptionallyQuotedWord(s, i, RelationName(kind) + "(")
  {
  }

  /** A match of a relationship pattern is a call whose target is what it captures. */
  lemma RelationMatchIsCall(s: string, i: nat, kind: RelationKind)
    requires i <= |s| && OptionallyQuotedWord(s, i, RelationName(kind) + "(").Some?
    ensures RelationCallAt(s, i, kind, OptionallyQuotedWord(s, i, RelationName(kind) + "(").value.groups[0])
  {
    var j := i + |RelationName(kind)| + 1;
    var q := if j < |s| && IsQuote(s[j]) then j + 1 else j;
    var e := RunEnd(s, q, Word);
    assert StartsAt(s, q, s[q..e]);
  }

  /** A relationship call at `i` is what the scanner captures there. */
  lemma RelationCallMatches(s: string, i: nat, kind: RelationKind, target: string)
    requires i <= |s| && RelationCallAt(s, i, kind, target)
    ensures OptionallyQuotedWord(s, i, RelationName(kind) + "(").Some?
    ensures OptionallyQuotedWord(s, i, RelationName(kind) + "(").value.groups[0] == target
  {
    var j := i + |RelationName(kind)| + 1;
    var q :| (q == j || (q == j + 1 && j < |s| && IsQuote(s[j])))
             && StartsAt(s, q, target)
             && (q + |target| == |s| || !IsWordChar(s[q + |target|]));
    OptionallyQuotedWordAt(s, i, RelationName(kind) + "(", q, target);
  }

  /** A word run after `lit` and an optional quote, not extended by the next character, is what the scanner captures. */
  lemma OptionallyQuotedWordAt(s: string, i: nat, lit: string, q: nat, target: string)
    requires i <= |s| && StartsAt(s, i, lit)
    requires q == i + |lit| || (q == i + |lit| + 1 && i + |lit| < |s| && IsQuote(s[i + |lit|]))
    requires target != [] && (forall c :: c in target ==> IsWordChar(c))
    requires StartsAt(s, q, target) && (q + |target| == |s| || !IsWordChar(s[q + |target|]))
    ensures OptionallyQuotedWord(s, i, lit).Some? && OptionallyQuotedWord(s, i, lit).value.groups[0] == target
  {
    var e := q + |target|;
    WordRunAt(s, q, target);
    if q == i + |lit| {
      assert s[q] == target[0] && target[0] in target;
    }
    RunEndAt(s, q, e, Word);
  }

  /** An occurrence of a word run is a run of word characters in the text. */
  lemma WordRunAt(s: string, q: nat, target: string)
    requires StartsAt(s, q, target) && forall c :: c in target ==> IsWordChar(c)
    ensures forall k :: q <= k < q + |target| ==> IsWordChar(s[k])
  {
    forall k | q <= k < q + |target| ensures IsWordChar(s[k]) {
      assert s[k] == target[k - q];
      assert target[k - q] in target;
    }
  }

  /**
   * Each target of kind `kind` is the word written right after a `kind(`
   * call and its optional quote, and the targets come in text order.
   */
  lemma {:induction false} RelationTargetsSound(content: string, kind: RelationKind, n: nat)
    requires n < |RelationTargets(content, kind)|
    ensures var ms := FindAll(Relation(kind), content);
            && RelationCallAt(content, ms[n].start, kind, RelationTargets(content, kind)[n])
            && (n + 1 < |ms| ==> ms[n].start < ms[n + 1].start)
  {
    var ms := FindAll(Relation(kind), content);
    FindAllSound(Relation(kind), content, n);
    RelationPattern(kind, content, ms[n].start);
    RelationMatchIsCall(content, ms[n].start, kind);
  }

  /**
   * No call is missed: each lies inside a reported match, and one that
   * starts a match has its target reported for it.
   */
  lemma RelationTargetsComplete(content: string, kind: RelationKind, i: nat, target: string)
    requires i <= |content| && RelationCallAt(content, i, kind, target)
    ensures var ms := FindAll(Relation(kind), content);
            exists n :: 0 <= n < |ms| && ms[n].start <= i < ms[n].end
                        && (ms[n].start == i ==> RelationTargets(content, kind)[n] == target)
  {
    var ms := FindAll(Relation(kind), content);
    RelationCallMatches(content, i, kind, target);
    RelationPattern(kind, content, i);
    FindAllComplete(Relation(kind), content, i);
    var n :| 0 <= n < |ms| && ms[n].start <= i < ms[n].end;
    FindAllSound(Relation(kind), content, n);
  }

  /** Every listed target is the target of some call of its kind in the text. */
  lemma RelationTargetsMember(content: string, kind: RelationKind, target: string)
    requires target in RelationTargets(content, kind)
    ensures exists i :: RelationCallAt(content, i, kind, target)
  {
    var n :| 0 <= n < |RelationTargets(content, kind)| && RelationTargets(content, kind)[n] == target;
    RelationTargetsSound(content, kind, n);
  }

  /** The relationships kept from `found[i]`, the targets of `kinds[i]`: one entry per kind with at least one target. */
  function Assemble(kinds: seq<RelationKind>, found: seq<seq<string>>): seq<(RelationKind, seq<string>)>
    requires |found| == |kinds|
    decreases |kinds|
  {
    if kinds == [] then []
    else
      var n := |kinds| - 1;
      Assemble(kinds[..n], found[..n]) + (if found[n] != [] then [(kinds[n], found[n])] else [])
  }

  /** The targets of each kind, in the order of RelationKinds. */
  function TargetsPerKind(content: string): seq<seq<string>> {
    seq(|RelationKinds|, i requires 0 <= i < |RelationKinds| => RelationTargets(content, RelationKinds[i]))
  }

  /** The result of extractModelRelationships, an ordered map from kind to targets. */
  function Relationships(content: string): seq<(RelationKind, seq<string>)> {
    Assemble(RelationKinds, TargetsPerKind(content))
  }

  /** extractModelRelationships: a loop over the four patterns that keeps the kinds that matched. */
  method ExtractRelationships(content: string) returns (relationships: seq<(RelationKind, seq<string>)>)
    ensures relationships == Relationships(content)
  {
    ghost var found := TargetsPerKind(content);
    relationships := [];
    for i := 0 to |RelationKinds|
      invariant relationships == Assemble(RelationKinds[..i], found[..i])
    {
      var kind := RelationKinds[i];
      var matches := FindAll(Relation(kind), content);
      var targets := Captures(matches, 0);
      assert targets == found[i];
      AssembleAppend(RelationKinds, found, i);
      if targets != [] {
        relationships := relationships + [(kind, targets)];
      }
    }
    assert RelationKinds[..|RelationKinds|] == RelationKinds;
    assert found[..|found|] == found;
  }

  lemma AssembleAppend(kinds: seq<RelationKind>, found: seq<seq<string>>, i: nat)
    requires |found| == |kinds| && i < |kinds|
    ensures Assemble(kinds[..i + 1], found[..i + 1])
            == Assemble(kinds[..i], found[..i]) + (if found[i] != [] then [(kinds[i], found[i])] else [])
  {
    assert kinds[..i + 1][..i] == kinds[..i];
    assert found[..i + 1][..i] == found[..i];
  }

  lemma {:induction false} AssembleMembers(kinds: seq<RelationKind>, found: seq<seq<string>>, e: (RelationKind, seq<string>))
    requires |found| == |kinds|
    ensures e in Assemble(kinds, found) <==>
            exists i :: 0 <= i < |kinds| && kinds[i] == e.0 && found[i] == e.1 && e.1 != []
    decreases |kinds|
  {
    if kinds != [] {
      var n := |kinds| - 1;
      AssembleMembers(kinds[..n], found[..n], e);
      if exists i :: 0 <= i < |kinds| && kinds[i] == e.0 && found[i] == e.1 && e.1 != [] {
        var i :| 0 <= i < |kinds| && kinds[i] == e.0 && found[i] == e.1 && e.1 != [];
        if i < n {
          assert kinds[..n][i] == e.0 && found[..n][i] == e.1;
        }
      }
    }
  }

  lemma {:induction false} AssembleOrder(kinds: seq<RelationKind>, found: seq<seq<string>>)
    requires |found| == |kinds|
    requires forall i, j :: 0 <= i < j < |kinds| ==> KindRank(kinds[i]) < KindRank(kinds[j])
    ensures var r := Assemble(kinds, found);
            forall i, j :: 0 <= i < j < |r| ==> KindRank(r[i].0) < KindRank(r[j].0)
    decreases |kinds|
  {
    if kinds != [] {
      var n := |kinds| - 1;
      AssembleOrder(kinds[..n], found[..n]);
      var r := Assemble(kinds[..n], found[..n]);
      forall i | 0 <= i < |r| ensures KindRank(r[i].0) < KindRank(kinds[n]) {
        AssembleMembers(kinds[..n], found[..n], r[i]);
      }
    }
  }

  /**
   * A kind appears exactly when it has at least one target, with all its
   * targets in text order; kinds appear at most once, in the order hasOne,
   * hasMany, belongsTo, belongsToMany.
   */
  lemma RelationshipsShape(content: string)
    ensures var r := Relationships(content);
            && (forall i, j :: 0 <= i < j < |r| ==> KindRank(r[i].0) < KindRank(r[j].0))
            && (forall k, targets :: (k, targets) in r <==> targets == RelationTargets(content, k) && targets != [])
  {
    var found := TargetsPerKind(content);
    AssembleOrder(RelationKinds, found);
    forall k, targets
      ensures (k, targets) in Relationships(content) <==> targets == RelationTargets(content, k) && targets != []
    {
      AssembleMembers(RelationKinds, found, (k, targets));
      var i := KindRank(k);
      assert RelationKinds[i] == k;
    }
  }

  /** A `belongsToMany(` call is never also counted as a `belongsTo(` call. */
  lemma BelongsToSkipsBelongsToMany(content: string, i: nat)
    requires i <= |content| && StartsAt(content, i, "belongsToMany(")
    ensures MatchAt(Relation(BelongsTo), content, i).None?
  {
    assert content[i..i + 14][9] == "belongsToMany("[9] == 'M';
    assert content[i..i + 10][9] == content[i + 9];
    assert "belongsTo("[9] == '(';
  }

  /** Quotes around the target are optional: `hasMany(Post::class)` targets `Post`. */
  lemma UnquotedTarget()
    ensures MatchAt(Relation(HasMany), "hasMany(Post::class)", 0) == Some(Match(0, 12, ["Post"]))
  {
    var s := "hasMany(Post::class)";
    assert StartsAt(s, 0, "hasMany(");
    RunEndAt(s, 8, 12, Word);
    assert s[8..12] == "Post";
  }

  // ---------------------------------------------------------------------------
  // Fillable fields
  // ---------------------------------------------------------------------------

  /**
   * One element of the fillable list: the element with its quotes removed
   * (RemoveQuotes keeps every other character in order), then stripped of
   * trim() characters at both ends and nowhere else.
   */
  function CleanField(field: string): (r: string)
    ensures exists lo: nat, hi: nat :: TrimBounds(RemoveQuotes(field), lo, hi) && r == RemoveQuotes(field)[lo..hi]
    ensures forall c :: c in r ==> c in field && !IsQuote(c)
    ensures r == [] || (!IsTrimmed(r[0]) && !IsTrimmed(r[|r| - 1]))
  {
    Trim(RemoveQuotes(field))
  }

  /**
   * The fields of one list text: the text cut at every comma (the pieces
   * joined back with commas give the text, and by SplitJoin no other cut
   * does), one field per piece, each the piece cleaned.
   */
  function FieldsOf(inner: string): (fields: seq<string>)
    ensures |fields| == multiset(inner)[','] + 1
    ensures exists pieces :: IsSplit(pieces, inner, ',') && |pieces| == |fields|
              && forall k :: 0 <= k < |pieces| ==> fields[k] == CleanField(pieces[k])
    ensures forall k :: 0 <= k < |fields| ==> ',' !in fields[k]
  {
    var pieces := Split(inner, ',');
    JoinSplit(inner, ',');
    CountIsMultiplicity(inner, ',');
    var fields := seq(|pieces|, k requires 0 <= k < |pieces| => CleanField(pieces[k]));
    assert IsSplit(pieces, inner, ',');
    fields
  }

  /**
   * `list` is the list text of an assignment at `i`: `$fillable`, optional
   * blanks, `=`, optional blanks, `[`, then `list` up to the first `]`.
   */
  ghost predicate FillableListAt(s: string, i: nat, list: string) {
    && StartsAt(s, i, "$fillable")
    && ']' !in list
    && exists a: nat, b: nat :: FillableListBetween(s, i, a, b, list)
  }

  /** The `=` of the assignment at `i` is at `a`, its `[` at `b`, and `list` runs from there to a `]`. */
  ghost predicate FillableListBetween(s: string, i: nat, a: nat, b: nat, list: string) {
    && i + 9 <= a < b < |s|
    && (forall k :: i + 9 <= k < a ==> IsSpace(s[k])) && s[a] == '='
    && (forall k :: a + 1 <= k < b ==> IsSpace(s[k])) && s[b] == '['
    && StartsAt(s, b + 1, list) && b + 1 + |list| < |s| && s[b + 1 + |list|] == ']'
  }

  /** Matching the fillable pattern is running its scanner. */
  lemma FillablePattern(s: string, i: nat)
    requires i <= |s|
    ensures MatchAt(FillableAssign, s, i) == FillableAt(s, i)
  {
  }

  /** A match of the fillable pattern captures the list text of an assignment. */
  lemma FillableMatchIsList(s: string, i: nat)
    requires i <= |s| && FillableAt(s, i).Some?
    ensures FillableListAt(s, i, FillableAt(s, i).value.groups[0])
  {
    var a := RunEnd(s, i + 9, Space);
    var b := RunEnd(s, a + 1, Space);
    assert FillableAt(s, i) == BracketList(s, i, b);
    var list := FillableAt(s, i).value.groups[0];
    BracketListCloses(s, i, b);
    assert FillableListBetween(s, i, a, b, list);
  }

  /** The lazy group ends right before a `]`. */
  lemma BracketListCloses(s: string, i: nat, b: nat)
    requires i < b < |s| && BracketList(s, i, b).Some?
    ensures var list := BracketList(s, i, b).value.groups[0];
            StartsAt(s, b + 1, list) && b + 1 + |list| < |s| && s[b + 1 + |list|] == ']'
  {
    var c := IndexOf(s, "]", b + 1).value;
    assert s[c] == "]"[0];
    assert StartsAt(s, b + 1, s[b + 1..c]);
  }

  /** The list text of an assignment at `i` is what the scanner captures there. */
  lemma FillableListMatches(s: string, i: nat, list: string)
    requires i <= |s| && FillableListAt(s, i, list)
    ensures FillableAt(s, i).Some? && FillableAt(s, i).value.groups[0] == list
  {
    var a: nat, b: nat :| FillableListBetween(s, i, a, b, list);
    FillableAtBetween(s, i, a, b, list);
  }

  lemma FillableAtBetween(s: string, i: nat, a: nat, b: nat, list: string)
    requires StartsAt(s, i, "$fillable") && ']' !in list && FillableListBetween(s, i, a, b, list)
    ensures FillableAt(s, i) == Some(Match(i, b + 2 + |list|, [list]))
  {
    RunEndAt(s, i + 9, a, Space);
    RunEndAt(s, a + 1, b, Space);
    BracketListAt(s, i, b, list);
  }

  /** A list text after the `[` at `b`, closed by a `]`, is what the lazy group captures. */
  lemma BracketListAt(s: string, i: nat, b: nat, list: string)
    requires i < b < |s| && StartsAt(s, b + 1, list) && ']' !in list
    requires b + 1 + |list| < |s| && s[b + 1 + |list|] == ']'
    ensures BracketList(s, i, b) == Some(Match(i, b + 2 + |list|, [list]))
  {
    FirstCloseAfter(s, b + 1, list);
    assert s[b + 1..b + 1 + |list|] == list;
  }

  /** The first `]` after a list text without one is the one that ends it. */
  lemma FirstCloseAfter(s: string, from: nat, list: string)
    requires StartsAt(s, from, list) && ']' !in list
    requires from + |list| < |s| && s[from + |list|] == ']'
    ensures IndexOf(s, "]", from) == Some(from + |list|)
  {
    var c := from + |list|;
    assert StartsAt(s, c, "]") by {
      assert s[c..c + 1] == [s[c]];
    }
    forall k | from <= k < c ensures !StartsAt(s, k, "]") {
      assert s[k] == list[k - from];
      assert list[k - from] in list;
    }
  }

  /**
   * extractFillableFields: the fields of the first `$fillable = [...]`
   * list, up to its first `]`; no assignment gives [].
   */
  function FillableFields(content: string): (fields: seq<string>)
    ensures fields == [] <==> forall i :: 0 <= i <= |content| ==> MatchAt(FillableAssign, content, i).None?
  {
    FindFirstLeftmost(FillableAssign, content);
    match FindFirst(FillableAssign, content)
    case None => []
    case Some(m) => FieldsOf(m.groups[0])
  }

  /**
   * Only the first assignment counts: the fields are those of the list text
   * (from `[` to the first `]`) of the leftmost assignment; no assignment
   * starts before it.
   */
  lemma FillableFromFirstAssignment(content: string)
    requires FindFirst(FillableAssign, content).Some?
    ensures var m := FindFirst(FillableAssign, content).value;
            && FillableListAt(content, m.start, m.groups[0])
            && (forall i: nat, list :: i < m.start ==> !FillableListAt(content, i, list))
            && FillableFields(content) == FieldsOf(m.groups[0])
  {
    var m := FindFirst(FillableAssign, content).value;
    FindFirstLeftmost(FillableAssign, content);
    FillablePattern(content, m.start);
    FillableMatchIsList(content, m.start);
    forall i: nat, list | i < m.start ensures !FillableListAt(content, i, list) {
      if FillableListAt(content, i, list) {
        FillableListMatches(content, i, list);
        FillablePattern(content, i);
      }
    }
  }

  /** No fields at all exactly when the text holds no `$fillable = [...]` assignment. */
  lemma FillableFieldsEmpty(content: string)
    ensures FillableFields(content) == [] <==> forall i: nat, list :: i <= |content| ==> !FillableListAt(content, i, list)
  {
    if FillableFields(content) == [] {
      forall i: nat, list | i <= |content| ensures !FillableListAt(content, i, list) {
        if FillableListAt(content, i, list) {
          FillableListMatches(content, i, list);
          FillablePattern(content, i);
        }
      }
    } else {
      FindFirstLeftmost(FillableAssign, content);
      FillableFromFirstAssignment(content);
    }
  }

  /** A separator at the very end leaves an empty last piece. */
  lemma {:induction false} SplitTrailingSeparator(s: string, sep: char)
    requires s != [] && s[|s| - 1] == sep
    ensures Split(s, sep)[|Split(s, sep)| - 1] == ""
  {
    if |s| > 1 {
      SplitTrailingSeparator(s[1..], sep);
    }
  }

  /** A trailing comma in the list gives a trailing empty field. */
  lemma FieldsTrailingComma(inner: string)
    requires inner != [] && inner[|inner| - 1] == ','
    ensures FieldsOf(inner)[|FieldsOf(inner)| - 1] == ""
  {
    SplitTrailingSeparator(inner, ',');
    var pieces := Split(inner, ',');
    CleanEmpty();
    FieldsOfPiece(inner, |pieces| - 1);
  }

  /** Field `k` is piece `k` of explode(',', ...), cleaned. */
  lemma FieldsOfPiece(inner: string, k: nat)
    requires k < |Split(inner, ',')|
    ensures |FieldsOf(inner)| == |Split(inner, ',')| && FieldsOf(inner)[k] == CleanField(Split(inner, ',')[k])
  {
  }

  lemma CleanEmpty()
    ensures CleanField("") == ""
  {
    assert RemoveQuotes("") == "";
  }

  lemma EmptyFillableMatch()
    ensures FillableAt("$fillable = []", 0) == Some(Match(0, 14, [""]))
  {
    var s := "$fillable = []";
    assert StartsAt(s, 0, "$fillable");
    RunEndAt(s, 9, 10, Space);
    RunEndAt(s, 11, 12, Space);
    assert StartsAt(s, 13, "]");
    assert s[13..13] == "";
  }

  lemma EmptyFillableFirst()
    ensures FindFirst(FillableAssign, "$fillable = []") == Some(Match(0, 14, [""]))
  {
    var s := "$fillable = []";
    EmptyFillableMatch();
    assert MatchAt(FillableAssign, s, 0) == Some(Match(0, 14, [""]));
    FindFirstLeftmost(FillableAssign, s);
  }

  /** An empty list `$fillable = []` gives one empty field, not an empty list. */
  lemma EmptyFillableList()
    ensures FillableFields("$fillable = []") == [""]
  {
    EmptyFillableFirst();
    assert Split("", ',') == [""];
    CleanEmpty();
    assert FieldsOf("") == [""];
  }

  // ---------------------------------------------------------------------------
  // Routes
  // ---------------------------------------------------------------------------

  /** One entry of the route list. */
  datatype Route = Route(httpMethod: string, uri: string)

  /**
   * The entry built from one match: `httpMethod` (the `method` key) is group 1, or 'resource' when
   * there is none; `uri` is group 2, or group 1 when there is none.
   */
  function RouteOf(m: Match): Route
    requires |m.groups| >= 1
  {
    Route(if |m.groups| >= 1 then m.groups[0] else "resource",
          if |m.groups| >= 2 then m.groups[1] else m.groups[0])
  }

  function RoutesOf(ms: seq<Match>): (routes: seq<Route>)
    requires forall k :: 0 <= k < |ms| ==> |ms[k].groups| >= 1
    ensures |routes| == |ms| && forall k :: 0 <= k < |ms| ==> routes[k] == RouteOf(ms[k])
  {
    seq(|ms|, k requires 0 <= k < |ms| => RouteOf(ms[k]))
  }

  /** The two route patterns, in the order the source runs them. */
  const RoutePatterns: seq<Pattern> := [RouteVerb, RouteResource]

  /** The routes found by running `patterns` one after the other over the whole text. */
  function RoutesOver(content: string, patterns: seq<Pattern>): seq<Route>
    decreases |patterns|
  {
    if patterns == [] then []
    else RoutesOver(content, patterns[..|patterns| - 1]) + RoutesOf(FindAll(patterns[|patterns| - 1], content))
  }

  /** The result of extractRoutes. */
  function Routes(content: string): seq<Route> {
    RoutesOver(content, RoutePatterns)
  }

  lemma RoutesOfAppend(ms: seq<Match>, j: nat)
    requires j < |ms| && forall k :: 0 <= k < |ms| ==> |ms[k].groups| >= 1
    ensures RoutesOf(ms[..j + 1]) == RoutesOf(ms[..j]) + [RouteOf(ms[j])]
  {
  }

  lemma RoutesOverAppend(content: string, patterns: seq<Pattern>, p: nat)
    requires p < |patterns|
    ensures RoutesOver(content, patterns[..p + 1]) == RoutesOver(content, patterns[..p]) + RoutesOf(FindAll(patterns[p], content))
  {
    assert patterns[..p + 1][..p] == patterns[..p];
  }

  /** The inner loop of extractRoutes: one entry per match, appended in match order. */
  method AppendRoutes(routes: seq<Route>, matches: seq<Match>) returns (result: seq<Route>)
    requires forall k :: 0 <= k < |matches| ==> |matches[k].groups| >= 1
    ensures result == routes + RoutesOf(matches)
  {
    result := routes;
    for j := 0 to |matches|
      invariant result == routes + RoutesOf(matches[..j])
    {
      RoutesOfAppend(matches, j);
      result := result + [RouteOf(matches[j])];
    }
    assert matches[..|matches|] == matches;
  }

  /** extractRoutes: for each pattern in turn, one entry per match. */
  method ExtractRoutes(content: string) returns (routes: seq<Route>)
    ensures routes == Routes(content)
  {
    routes := [];
    for p := 0 to |RoutePatterns|
      invariant routes == RoutesOver(content, RoutePatterns[..p])
    {
      var matches := FindAll(RoutePatterns[p], content);
      routes := AppendRoutes(routes, matches);
      RoutesOverAppend(content, RoutePatterns, p);
    }
    assert RoutePatterns[..|RoutePatterns|] == RoutePatterns;
  }

  /** The verb routes, then the resource routes. */
  lemma RoutesSplit(content: string)
    ensures Routes(content) == RoutesOf(FindAll(RouteVerb, content)) + RoutesOf(FindAll(RouteResource, content))
  {
    var verbs := RoutesOf(FindAll(RouteVerb, content));
    RoutesOverAppend(content, RoutePatterns, 0);
    assert RoutesOver(content, RoutePatterns[..0]) == [];
    assert RoutesOver(content, RoutePatterns[..1]) == verbs;
    RoutesOverAppend(content, RoutePatterns, 1);
    assert RoutePatterns[..2] == RoutePatterns;
  }

  /** A verb route carries its verb and the URI written, quoted, after `Route::verb(`. */
  lemma VerbRouteEntry(content: string, k: nat)
    requires k < |FindAll(RouteVerb, content)|
    ensures var m := FindAll(RouteVerb, content)[k];
            var r := RouteOf(m);
            && r.httpMethod in Verbs && r.uri != [] && (forall c :: c in r.uri ==> !IsQuote(c))
            && StartsAt(content, m.start, "Route::" + r.httpMethod + "(")
            && StartsAt(content, m.start + 9 + |r.httpMethod|, r.uri)
  {
    var m := FindAll(RouteVerb, content)[k];
    FindAllSound(RouteVerb, content, k);
    VerbMatchRoute(content, m);
  }

  lemma VerbMatchRoute(content: string, m: Match)
    requires m.start <= |content| && MatchAt(RouteVerb, content, m.start) == Some(m)
    ensures var r := RouteOf(m);
            && r.httpMethod in Verbs && r.uri != [] && (forall c :: c in r.uri ==> !IsQuote(c))
            && StartsAt(content, m.start, "Route::" + r.httpMethod + "(")
            && StartsAt(content, m.start + 9 + |r.httpMethod|, r.uri)
  {
    VerbPattern(content, m.start);
    VerbRouteShape(content, m.start, Verbs, m);
  }

  /** Matching the verb route pattern is trying each verb in turn. */
  lemma VerbPattern(s: string, i: nat)
    requires i <= |s|
    ensures MatchAt(RouteVerb, s, i) == VerbRouteAt(s, i, Verbs)
  {
  }

  /** A resource route has the resource name as both its method and its URI. */
  lemma ResourceRouteEntry(content: string, k: nat)
    requires k < |FindAll(RouteResource, content)|
    ensures var m := FindAll(RouteResource, content)[k];
            var r := RouteOf(m);
            && r.httpMethod == r.uri != [] && (forall c :: c in r.uri ==> !IsQuote(c))
            && StartsAt(content, m.start, "Route::resource(")
            && StartsAt(content, m.start + 17, r.uri)
  {
    FindAllSound(RouteResource, content, k);
  }

  /**
   * All verb routes come first, in text order, then all resource routes, in
   * text order, wherever the two kinds stand in the text: the entry at
   * `k` is built from the `k`-th verb match or from a resource match.
   */
  lemma RoutesVerbsThenResources(content: string, k: nat)
    requires k < |Routes(content)|
    ensures var verbs := FindAll(RouteVerb, content);
            var resources := FindAll(RouteResource, content);
            && |Routes(content)| == |verbs| + |resources|
            && (k < |verbs| ==> Routes(content)[k] == RouteOf(verbs[k]) && Routes(content)[k].httpMethod in Verbs)
            && (k >= |verbs| ==> Routes(content)[k] == RouteOf(resources[k - |verbs|])
                                 && Routes(content)[k].httpMethod == Routes(content)[k].uri)
  {
    RoutesSplit(content);
    var verbs := FindAll(RouteVerb, content);
    if k < |verbs| {
      VerbRouteEntry(content, k);
    } else {
      ResourceRouteEntry(content, k - |verbs|);
    }
  }

  /**
   * `route` is registered in the text: its URI, non-empty and without
   * quotes, is written quoted after `Route::verb(` for its verb, or, for a
   * resource, after `Route::resource(` with the method equal to the URI.
   */
  ghost predicate Registered(content: string, route: Route) {
    && route.uri != [] && (forall c :: c in route.uri ==> !IsQuote(c))
    && exists i: nat :: RegisteredAt(content, i, route)
  }

  /** The registration of `route` starts at `i`. */
  ghost predicate RegisteredAt(content: string, i: nat, route: Route) {
    || (&& route.httpMethod in Verbs && StartsAt(content, i, "Route::" + route.httpMethod + "(")
        && StartsAt(content, i + 9 + |route.httpMethod|, route.uri))
    || (&& route.httpMethod == route.uri && StartsAt(content, i, "Route::resource(")
        && StartsAt(content, i + 17, route.uri))
  }

  /** Every listed route is registered in the text. */
  lemma RoutesRegistered(content: string, route: Route)
    requires route in Routes(content)
    ensures Registered(content, route)
  {
    RoutesSplit(content);
    var verbs := RoutesOf(FindAll(RouteVerb, content));
    var resources := RoutesOf(FindAll(RouteResource, content));
    assert route in verbs + resources;
    if route in verbs {
      var k :| 0 <= k < |verbs| && verbs[k] == route;
      VerbRouteRegistered(content, k);
    } else {
      var k :| 0 <= k < |resources| && resources[k] == route;
      ResourceRouteRegistered(content, k);
    }
  }

  lemma VerbRouteRegistered(content: string, k: nat)
    requires k < |FindAll(RouteVerb, content)|
    ensures var m := FindAll(RouteVerb, content)[k];
            Registered(content, RouteOf(m))
  {
    var m := FindAll(RouteVerb, content)[k];
    VerbRouteEntry(content, k);
    assert RegisteredAt(content, m.start, RouteOf(m));
  }

  lemma ResourceRouteRegistered(content: string, k: nat)
    requires k < |FindAll(RouteResource, content)|
    ensures var m := FindAll(RouteResource, content)[k];
            Registered(content, RouteOf(m))
  {
    var m := FindAll(RouteResource, content)[k];
    ResourceRouteEntry(content, k);
    assert RegisteredAt(content, m.start, RouteOf(m));
  }

  /** The verb match at `i` carries the verb and the quoted URI that follow `Route::` there. */
  lemma {:induction false} VerbRouteShape(content: string, i: nat, vs: seq<string>, m: Match)
    requires i <= |content| && VerbRouteAt(content, i, vs) == Some(m)
    ensures StartsAt(content, i + 9 + |m.groups[0]|, m.groups[1])
    decreases |vs|
  {
    if QuotedRun(content, i, "Route::" + vs[0] + "(", NotQuote).None? {
      VerbRouteShape(content, i, vs[1..], m);
    }
  }

  // ---------------------------------------------------------------------------
  // Configuration keys
  // ---------------------------------------------------------------------------

  /** Every quoted word key written before `=>`, in text order, repeats included. */
  function ConfigKeyOccurrences(content: string): (keys: seq<string>)
    ensures forall k :: 0 <= k < |keys| ==> keys[k] != [] && forall c :: c in keys[k] ==> IsWordChar(c)
  {
    var ms := FindAll(ConfigKey, content);
    var keys := Captures(ms, 0);
    assert forall k :: 0 <= k < |ms| ==> MatchAt(ConfigKey, content, ms[k].start) == Some(ms[k]) by {
      forall k | 0 <= k < |ms| ensures MatchAt(ConfigKey, content, ms[k].start) == Some(ms[k]) {
        FindAllSound(ConfigKey, content, k);
      }
    }
    keys
  }

  /**
   * `key` is written at `i` as an array key: a quote, the word run `key`, a
   * quote, optional blanks, then `=>`.
   */
  ghost predicate KeyAt(s: string, i: nat, key: string) {
    && key != [] && (forall c :: c in key ==> IsWordChar(c))
    && i + |key| + 1 < |s| && IsQuote(s[i]) && StartsAt(s, i + 1, key) && IsQuote(s[i + 1 + |key|])
    && exists w :: i + |key| + 2 <= w <= |s| && (forall k :: i + |key| + 2 <= k < w ==> IsSpace(s[k])) && StartsAt(s, w, "=>")
  }

  /** Matching the key pattern is running its scanner. */
  lemma ConfigKeyPattern(s: string, i: nat)
    requires i <= |s|
    ensures MatchAt(ConfigKey, s, i) == ConfigKeyAt(s, i)
  {
  }

  /** A match of the key pattern is a key written before `=>`. */
  lemma ConfigKeyMatchIsKey(s: string, i: nat)
    requires i <= |s| && ConfigKeyAt(s, i).Some?
    ensures KeyAt(s, i, ConfigKeyAt(s, i).value.groups[0])
  {
    var e := RunEnd(s, i + 1, Word);
    var w := RunEnd(s, e + 1, Space);
    assert StartsAt(s, i + 1, s[i + 1..e]);
    assert StartsAt(s, w, "=>");
  }

  /** A key written before `=>` at `i` is what the scanner captures there. */
  lemma KeyAtMatches(s: string, i: nat, key: string)
    requires i <= |s| && KeyAt(s, i, key)
    ensures ConfigKeyAt(s, i).Some? && ConfigKeyAt(s, i).value.groups[0] == key
  {
    var e := i + 1 + |key|;
    assert s[i + 1..e] == key;
    forall k | i + 1 <= k < e ensures IsWordChar(s[k]) {
      assert s[k] == key[k - i - 1];
      assert key[k - i - 1] in key;
    }
    RunEndAt(s, i + 1, e, Word);
    var w :| i + |key| + 2 <= w <= |s| && (forall k :: i + |key| + 2 <= k < w ==> IsSpace(s[k])) && StartsAt(s, w, "=>");
    assert s[w] == "=>"[0];
    RunEndAt(s, e + 1, w, Space);
  }

  /** Each occurrence is a key written, quoted, before `=>`, and the occurrences come in text order. */
  lemma {:induction false} ConfigKeyOccurrencesSound(content: string, n: nat)
    requires n < |ConfigKeyOccurrences(content)|
    ensures var ms := FindAll(ConfigKey, content);
            && KeyAt(content, ms[n].start, ConfigKeyOccurrences(content)[n])
            && (n + 1 < |ms| ==> ms[n].start < ms[n + 1].start)
  {
    var ms := FindAll(ConfigKey, content);
    FindAllSound(ConfigKey, content, n);
    ConfigKeyPattern(content, ms[n].start);
    ConfigKeyMatchIsKey(content, ms[n].start);
  }

  /**
   * No key is missed: each lies inside a reported match, and one that starts
   * a match is among the extracted keys.
   */
  lemma ConfigKeysComplete(content: string, i: nat, key: string)
    requires i <= |content| && KeyAt(content, i, key)
    ensures var ms := FindAll(ConfigKey, content);
            exists n :: 0 <= n < |ms| && ms[n].start <= i < ms[n].end
                        && (ms[n].start == i ==> key in ConfigKeys(content))
  {
    var ms := FindAll(ConfigKey, content);
    KeyAtMatches(content, i, key);
    ConfigKeyPattern(content, i);
    FindAllComplete(ConfigKey, content, i);
    var n :| 0 <= n < |ms| && ms[n].start <= i < ms[n].end;
    FindAllSound(ConfigKey, content, n);
    assert ConfigKeyOccurrences(content)[n] in ConfigKeyOccurrences(content);
  }

  /** Every extracted key is written, quoted, before `=>` somewhere in the text. */
  lemma ConfigKeysMember(content: string, key: string)
    requires key in ConfigKeys(content)
    ensures exists i :: KeyAt(content, i, key)
  {
    var n :| 0 <= n < |ConfigKeyOccurrences(content)| && ConfigKeyOccurrences(content)[n] == key;
    ConfigKeyOccurrencesSound(content, n);
  }

  /**
   * extractConfigKeys: the keys without repeats, each at its first
   * occurrence, as array_unique keeps them.
   */
  function ConfigKeys(content: string): (keys: seq<string>)
    ensures NoDuplicates(keys)
    ensures forall key :: key in keys <==> key in ConfigKeyOccurrences(content)
    ensures forall key :: key in keys ==> key != [] && forall c :: c in key ==> IsWordChar(c)
  {
    Dedup(ConfigKeyOccurrences(content))
  }

  /** Keys come in the order in which each first occurs in the text. */
  lemma ConfigKeysFirstOccurrenceOrder(content: string, i: nat, j: nat)
    requires i < j < |ConfigKeys(content)|
    ensures var all := ConfigKeyOccurrences(content);
            FirstIndex(all, ConfigKeys(content)[i]) < FirstIndex(all, ConfigKeys(content)[j])
  {
    DedupFirstOccurrenceOrder(ConfigKeyOccurrences(content), i, j);
  }

  /** No key written before `=>` anywhere gives no keys. */
  lemma ConfigKeysEmpty(content: string)
    ensures ConfigKeys(content) == [] <==> forall i :: 0 <= i <= |content| ==> MatchAt(ConfigKey, content, i).None?
  {
    FindAllEmpty(ConfigKey, content);
    if ConfigKeyOccurrences(content) != [] {
      assert ConfigKeyOccurrences(content)[0] in ConfigKeys(content);
    }
  }

  // ---------------------------------------------------------------------------
  // Descriptions
  // ---------------------------------------------------------------------------

  /** The description table of generateFileDescription. */
  const Descriptions: map<string, string> := map[
    "php" := "PHP source file",
    "js" := "JavaScript file",
    "css" := "Stylesheet file",
    "json" := "JSON configuration file",
    "md" := "Markdown documentation",
    "blade.php" := "Blade template file",
    "xml" := "XML configuration file"
  ]

  /** generateFileDescription: the table entry for the extension, or 'File' for any other. */
  function FileDescription(extension: string): (d: string)
    ensures extension in Descriptions ==> d == Descriptions[extension]
    ensures d == "File" <==> extension !in Descriptions
  {
    if extension in Descriptions then Descriptions[extension] else "File"
  }
}

=== FILE: grouping.dfy ===
/**
 * The aggregations of the summary and of the statistics: SQL `GROUP BY ...
 * count(*)`, a collection `groupBy(...)->sum('count')`, and
 * `pluck('count', key)`. A keyed result is an association list in the order
 * the keys first occur; SQL leaves the group order open and this model fixes
 * it to first occurrence.
 */
module Grouping {
  import opened Text

  /** The keys of an association list, in order. */
  function Keys<K, V>(entries: seq<(K, V)>): (ks: seq<K>)
    ensures |ks| == |entries| && forall i :: 0 <= i < |entries| ==> ks[i] == entries[i].0
  {
    seq(|entries|, i requires 0 <= i < |entries| => entries[i].0)
  }

  predicate DistinctKeys<K(==), V>(entries: seq<(K, V)>) {
    forall i, j :: 0 <= i < j < |entries| ==> entries[i].0 != entries[j].0
  }

  /** The sum of the amounts. */
  function Total<K>(entries: seq<(K, nat)>): nat {
    if entries == [] then 0 else Total(entries[..|entries| - 1]) + entries[|entries| - 1].1
  }

  /** The sum of the amounts recorded under `k`. */
  function AmountFor<K(==)>(entries: seq<(K, nat)>, k: K): nat {
    if entries == [] then 0
    else AmountFor(entries[..|entries| - 1], k) + (if entries[|entries| - 1].0 == k then entries[|entries| - 1].1 else 0)
  }

  /** The number of times `k` occurs. */
  function Occurrences<K(==)>(xs: seq<K>, k: K): nat {
    if xs == [] then 0 else Occurrences(xs[..|xs| - 1], k) + (if xs[|xs| - 1] == k then 1 else 0)
  }

  /** Counting over two runs one after the other adds the counts of the runs. */
  lemma {:induction false} OccurrencesAppend<K>(xs: seq<K>, ys: seq<K>, k: K)
    ensures Occurrences(xs + ys, k) == Occurrences(xs, k) + Occurrences(ys, k)
    decreases |ys|
  {
    if ys != [] {
      var init := ys[..|ys| - 1];
      assert (xs + ys)[..|xs + ys| - 1] == xs + init;
      assert (xs + ys)[|xs + ys| - 1] == ys[|ys| - 1];
      OccurrencesAppend(xs, init, k);
    } else {
      assert xs + ys == xs;
    }
  }

  /** A value that does not occur is counted zero times. */
  lemma {:induction false} OccurrencesAbsent<K>(xs: seq<K>, k: K)
    requires k !in xs
    ensures Occurrences(xs, k) == 0
    decreases |xs|
  {
    if xs != [] {
      assert xs == xs[..|xs| - 1] + [xs[|xs| - 1]];
      OccurrencesAbsent(xs[..|xs| - 1], k);
    }
  }

  /** Adds `n` to the entry for `k`, or appends a new entry for `k` when there is none. */
  function Add<K(==)>(entries: seq<(K, nat)>, k: K, n: nat): (r: seq<(K, nat)>)
    ensures |r| == |entries| || |r| == |entries| + 1
    ensures forall i :: 0 <= i < |entries| ==> r[i].0 == entries[i].0
    ensures |r| == |entries| + 1 ==> r[|entries|] == (k, n)
    ensures (exists i :: 0 <= i < |entries| && entries[i].0 == k) <==> |r| == |entries|
  {
    if entries == [] then [(k, n)]
    else if entries[0].0 == k then [(k, entries[0].1 + n)] + entries[1..]
    else [entries[0]] + Add(entries[1..], k, n)
  }

  /**
   * `groupBy(key)->map->sum(amount)`: one entry per key, in first-occurrence
   * order, holding the sum of the amounts under that key.
   */
  function Accumulate<K(==)>(entries: seq<(K, nat)>): seq<(K, nat)> {
    if entries == [] then []
    else
      var last := entries[|entries| - 1];
      Add(Accumulate(entries[..|entries| - 1]), last.0, last.1)
  }

  /** `GROUP BY key` with `count(*)`: the amount of each row is 1. */
  function Tally<K(==)>(xs: seq<K>): seq<(K, nat)> {
    Accumulate(Ones(xs))
  }

  /** Each row paired with the amount 1. */
  function Ones<K>(xs: seq<K>): (entries: seq<(K, nat)>)
    ensures Keys(entries) == xs
    ensures forall i :: 0 <= i < |xs| ==> entries[i].1 == 1
  {
    seq(|xs|, i requires 0 <= i < |xs| => (xs[i], 1))
  }

  /** `pluck(amount, key)`: each entry assigns its amount to its key, a later one overwriting an earlier one in place. */
  function Pluck<K(==)>(entries: seq<(K, nat)>): seq<(K, nat)> {
    if entries == [] then []
    else
      var last := entries[|entries| - 1];
      Put(Pluck(entries[..|entries| - 1]), last.0, last.1)
  }

  /** `$array[$k] = $v`: sets the entry for `k` to `v` in place, or appends it when there is none. */
  function Put<K(==), V>(entries: seq<(K, V)>, k: K, v: V): (r: seq<(K, V)>)
    ensures |r| == |entries| || |r| == |entries| + 1
    ensures forall i :: 0 <= i < |entries| ==> r[i].0 == entries[i].0
    ensures |r| == |entries| + 1 ==> r[|entries|] == (k, v)
    ensures (exists i :: 0 <= i < |entries| && entries[i].0 == k) <==> |r| == |entries|
    ensures forall i :: 0 <= i < |r| ==> r[i] == (k, v) || r[i] == entries[i]
  {
    if entries == [] then [(k, v)]
    else if entries[0].0 == k then [(k, v)] + entries[1..]
    else [entries[0]] + Put(entries[1..], k, v)
  }

  /** `$array[$k] ?? null`: the value of the first entry for `k`. */
  function Lookup<K(==), V>(entries: seq<(K, V)>, k: K): (r: Option<V>)
    ensures r.None? <==> k !in Keys(entries)
  {
    if entries == [] then None
    else if entries[0].0 == k then Some(entries[0].1)
    else Lookup(entries[1..], k)
  }

  /** After `$array[$k] = $v`, reading `k` gives `v` and every other key reads as before. */
  lemma {:induction false} PutLookup<K, V>(entries: seq<(K, V)>, k: K, v: V, key: K)
    ensures Lookup(Put(entries, k, v), key) == if key == k then Some(v) else Lookup(entries, key)
    decreases |entries|
  {
    if entries != [] && entries[0].0 != k {
      PutLookup(entries[1..], k, v, key);
    }
  }

  // ---------------------------------------------------------------------------
  // Properties of Add and Accumulate
  // ---------------------------------------------------------------------------

  lemma {:induction false} AddKeepsDistinct<K>(entries: seq<(K, nat)>, k: K, n: nat)
    requires DistinctKeys(entries)
    ensures DistinctKeys(Add(entries, k, n))
  {
    var r := Add(entries, k, n);
    forall i, j | 0 <= i < j < |r| ensures r[i].0 != r[j].0 {
      if j == |entries| {
        assert r[i].0 == entries[i].0;
      }
    }
  }

  lemma {:induction false} AddTotal<K>(entries: seq<(K, nat)>, k: K, n: nat)
    ensures Total(Add(entries, k, n)) == Total(entries) + n
    decreases |entries|
  {
    if entries != [] {
      if entries[0].0 == k {
        TotalCons(entries[0], entries[1..]);
        TotalCons((k, entries[0].1 + n), entries[1..]);
      } else {
        AddTotal(entries[1..], k, n);
        TotalCons(entries[0], entries[1..]);
        TotalCons(entries[0], Add(entries[1..], k, n));
      }
      assert entries == [entries[0]] + entries[1..];
    }
  }

  lemma {:induction false} TotalCons<K>(e: (K, nat), rest: seq<(K, nat)>)
    ensures Total([e] + rest) == e.1 + Total(rest)
    decreases |rest|
  {
    if rest != [] {
      var init := rest[..|rest| - 1];
      TotalCons(e, init);
      assert ([e] + rest)[..|rest|] == [e] + init;
    }
  }

  lemma {:induction false} AddAmount<K>(entries: seq<(K, nat)>, k: K, n: nat, key: K)
    requires DistinctKeys(entries)
    ensures AmountFor(Add(entries, k, n), key) == AmountFor(entries, key) + (if key == k then n else 0)
    decreases |entries|
  {
    if entries != [] {
      assert entries == [entries[0]] + entries[1..];
      AmountCons(entries[0], entries[1..], key);
      if entries[0].0 == k {
        AmountCons((k, entries[0].1 + n), entries[1..], key);
      } else {
        AddAmount(entries[1..], k, n, key);
        AmountCons(entries[0], Add(entries[1..], k, n), key);
      }
    }
  }

  lemma {:induction false} AmountCons<K>(e: (K, nat), rest: seq<(K, nat)>, key: K)
    ensures AmountFor([e] + rest, key) == (if e.0 == key then e.1 else 0) + AmountFor(rest, key)
    decreases |rest|
  {
    if rest != [] {
      var init := rest[..|rest| - 1];
      AmountCons(e, init, key);
      assert ([e] + rest)[..|rest|] == [e] + init;
    }
  }

  /**
   * The grouped result has one entry per key, the keys are exactly those of
   * the input, each entry holds the sum of its key's amounts, and nothing is
   * lost: the amounts sum to the input's.
   */
  lemma AccumulateCorrect<K>(entries: seq<(K, nat)>)
    ensures DistinctKeys(Accumulate(entries))
    ensures Total(Accumulate(entries)) == Total(entries)
    ensures forall key :: AmountFor(Accumulate(entries), key) == AmountFor(entries, key)
    ensures forall key :: key in Keys(Accumulate(entries)) <==> key in Keys(entries)
  {
    AccumulateDistinct(entries);
    AccumulateTotal(entries);
    forall key ensures AmountFor(Accumulate(entries), key) == AmountFor(entries, key) {
      AccumulateAmount(entries, key);
    }
    forall key ensures key in Keys(Accumulate(entries)) <==> key in Keys(entries) {
      AccumulateKeys(entries, key);
    }
  }

  lemma {:induction false} AccumulateDistinct<K>(entries: seq<(K, nat)>)
    ensures DistinctKeys(Accumulate(entries))
    decreases |entries|
  {
    if entries != [] {
      var init := entries[..|entries| - 1];
      var last := entries[|entries| - 1];
      AccumulateDistinct(init);
      AddKeepsDistinct(Accumulate(init), last.0, last.1);
    }
  }

  lemma {:induction false} AccumulateTotal<K>(entries: seq<(K, nat)>)
    ensures Total(Accumulate(entries)) == Total(entries)
    decreases |entries|
  {
    if entries != [] {
      var init := entries[..|entries| - 1];
      var last := entries[|entries| - 1];
      AccumulateTotal(init);
      AddTotal(Accumulate(init), last.0, last.1);
    }
  }

  lemma {:induction false} AccumulateAmount<K>(entries: seq<(K, nat)>, key: K)
    ensures AmountFor(Accumulate(entries), key) == AmountFor(entries, key)
    decreases |entries|
  {
    if entries != [] {
      var init := entries[..|entries| - 1];
      var last := entries[|entries| - 1];
      AccumulateAmount(init, key);
      AccumulateDistinct(init);
      AddAmount(Accumulate(init), last.0, last.1, key);
    }
  }

  lemma {:induction false} AccumulateKeys<K>(entries: seq<(K, nat)>, key: K)
    ensures key in Keys(Accumulate(entries)) <==> key in Keys(entries)
    decreases |entries|
  {
    if entries != [] {
      var init := entries[..|entries| - 1];
      var last := entries[|entries| - 1];
      AccumulateKeys(init, key);
      AddKeys(Accumulate(init), last.0, last.1, key);
      KeysInit(entries, key);
    }
  }

  lemma AddKeys<K>(entries: seq<(K, nat)>, k: K, n: nat, key: K)
    ensures key in Keys(Add(entries, k, n)) <==> key in Keys(entries) || key == k
  {
    var r := Add(entries, k, n);
    if key in Keys(r) {
      var i :| 0 <= i < |r| && Keys(r)[i] == key;
      if i < |entries| {
        assert Keys(entries)[i] == key;
      }
    }
    if key in Keys(entries) {
      var i :| 0 <= i < |entries| && Keys(entries)[i] == key;
      assert Keys(r)[i] == key;
    }
    if key == k && |r| == |entries| {
      var i :| 0 <= i < |entries| && entries[i].0 == k;
      assert Keys(r)[i] == key;
    }
    if key == k && |r| != |entries| {
      assert Keys(r)[|entries|] == key;
    }
  }

  lemma KeysInit<K, V>(entries: seq<(K, V)>, key: K)
    requires entries != []
    ensures key in Keys(entries) <==> key in Keys(entries[..|entries| - 1]) || key == entries[|entries| - 1].0
  {
    var init := entries[..|entries| - 1];
    if key in Keys(entries) {
      var i :| 0 <= i < |entries| && Keys(entries)[i] == key;
      if i < |init| {
        assert Keys(init)[i] == key;
      }
    }
    if key in Keys(init) {
      var i :| 0 <= i < |init| && Keys(init)[i] == key;
      assert Keys(entries)[i] == key;
    }
  }

  /** Counting: the tally holds each distinct value once with its number of occurrences, and the counts sum to the length. */
  lemma TallyCorrect<K>(xs: seq<K>)
    ensures DistinctKeys(Tally(xs))
    ensures Total(Tally(xs)) == |xs|
    ensures forall key :: AmountFor(Tally(xs), key) == Occurrences(xs, key)
    ensures forall key :: key in Keys(Tally(xs)) <==> key in xs
  {
    AccumulateCorrect(Ones(xs));
    OnesTotal(xs);
    forall key ensures AmountFor(Ones(xs), key) == Occurrences(xs, key) {
      OnesAmount(xs, key);
    }
    assert Keys(Ones(xs)) == xs;
  }

  lemma {:induction false} OnesTotal<K>(xs: seq<K>)
    ensures Total(Ones(xs)) == |xs|
    decreases |xs|
  {
    if xs != [] {
      OnesTotal(xs[..|xs| - 1]);
      assert Ones(xs)[..|xs| - 1] == Ones(xs[..|xs| - 1]);
    }
  }

  lemma {:induction false} OnesAmount<K>(xs: seq<K>, key: K)
    ensures AmountFor(Ones(xs), key) == Occurrences(xs, key)
    decreases |xs|
  {
    if xs != [] {
      OnesAmount(xs[..|xs| - 1], key);
      assert Ones(xs)[..|xs| - 1] == Ones(xs[..|xs| - 1]);
    }
  }

  // ---------------------------------------------------------------------------
  // Properties of Put and Pluck
  // ---------------------------------------------------------------------------

  /** The amount recorded under `k` by the last entry for `k`, if any. */
  function LastAmount<K(==)>(entries: seq<(K, nat)>, k: K): nat {
    if entries == [] then 0
    else if entries[|entries| - 1].0 == k then entries[|entries| - 1].1
    else LastAmount(entries[..|entries| - 1], k)
  }

  lemma {:induction false} PutAmount<K>(entries: seq<(K, nat)>, k: K, n: nat, key: K)
    requires DistinctKeys(entries)
    ensures AmountFor(Put(entries, k, n), key) == if key == k then n else AmountFor(entries, key)
    decreases |entries|
  {
    if entries != [] {
      assert entries == [entries[0]] + entries[1..];
      AmountCons(entries[0], entries[1..], key);
      if entries[0].0 == k {
        AmountCons((k, n), entries[1..], key);
        if key == k {
          NoAmount(entries[1..], k);
        }
      } else {
        PutAmount(entries[1..], k, n, key);
        AmountCons(entries[0], Put(entries[1..], k, n), key);
      }
    }
  }

  /** A key that no entry carries has no amount. */
  lemma {:induction false} NoAmount<K>(entries: seq<(K, nat)>, k: K)
    requires forall i :: 0 <= i < |entries| ==> entries[i].0 != k
    ensures AmountFor(entries, k) == 0
    decreases |entries|
  {
    if entries != [] {
      NoAmount(entries[..|entries| - 1], k);
    }
  }

  lemma {:induction false} PutKeepsDistinct<K, V>(entries: seq<(K, V)>, k: K, v: V)
    requires DistinctKeys(entries)
    ensures DistinctKeys(Put(entries, k, v))
  {
    var r := Put(entries, k, v);
    forall i, j | 0 <= i < j < |r| ensures r[i].0 != r[j].0 {
      if j == |entries| {
        assert r[i].0 == entries[i].0;
      }
    }
  }

  /**
   * `pluck` keeps one entry per key, in first-occurrence order, holding the
   * amount of the LAST entry with that key: earlier amounts are lost, not added.
   */
  lemma {:induction false} PluckKeepsLast<K>(entries: seq<(K, nat)>)
    ensures DistinctKeys(Pluck(entries))
    ensures forall key :: AmountFor(Pluck(entries), key) == LastAmount(entries, key)
    decreases |entries|
  {
    if entries != [] {
      var init := entries[..|entries| - 1];
      var last := entries[|entries| - 1];
      PluckKeepsLast(init);
      PutKeepsDistinct(Pluck(init), last.0, last.1);
      forall key ensures AmountFor(Pluck(entries), key) == LastAmount(entries, key) {
        PutAmount(Pluck(init), last.0, last.1, key);
      }
    }
  }

  /** With distinct keys, `pluck` changes nothing: it is the identity on a grouped result. */
  lemma {:induction false} PluckDistinct<K>(entries: seq<(K, nat)>)
    requires DistinctKeys(entries)
    ensures Pluck(entries) == entries
    decreases |entries|
  {
    if entries != [] {
      var init := entries[..|entries| - 1];
      var last := entries[|entries| - 1];
      PluckDistinct(init);
      PutAppends(init, last.0, last.1);
    }
  }

  lemma {:induction false} PutAppends<K>(entries: seq<(K, nat)>, k: K, n: nat)
    requires forall i :: 0 <= i < |entries| ==> entries[i].0 != k
    ensures Put(entries, k, n) == entries + [(k, n)]
    decreases |entries|
  {
    if entries != [] {
      PutAppends(entries[1..], k, n);
      assert entries == [entries[0]] + entries[1..];
    }
  }

  // ---------------------------------------------------------------------------
  // Re-keying a grouped result
  // ---------------------------------------------------------------------------

  /** Each entry's key replaced by `f` of it, the amounts kept: grouping a grouped result by a coarser key. */
  function Rekey<K, L>(entries: seq<(K, nat)>, f: K -> L): (r: seq<(L, nat)>)
    ensures |r| == |entries|
    ensures forall i :: 0 <= i < |entries| ==> r[i] == (f(entries[i].0), entries[i].1)
  {
    seq(|entries|, i requires 0 <= i < |entries| => (f(entries[i].0), entries[i].1))
  }

  /** The values of `xs` mapped by `f`. */
  function MapKeys<K, L>(xs: seq<K>, f: K -> L): (r: seq<L>)
    ensures |r| == |xs| && forall i :: 0 <= i < |xs| ==> r[i] == f(xs[i])
  {
    seq(|xs|, i requires 0 <= i < |xs| => f(xs[i]))
  }

  lemma {:induction false} RekeyTotal<K, L>(entries: seq<(K, nat)>, f: K -> L)
    ensures Total(Rekey(entries, f)) == Total(entries)
    decreases |entries|
  {
    if entries != [] {
      var init := entries[..|entries| - 1];
      RekeyTotal(init, f);
      assert Rekey(entries, f)[..|entries| - 1] == Rekey(init, f);
    }
  }

  lemma {:induction false} RekeyAmountInit<K, L>(entries: seq<(K, nat)>, f: K -> L, t: L)
    requires entries != []
    ensures AmountFor(Rekey(entries, f), t)
            == AmountFor(Rekey(entries[..|entries| - 1], f), t)
               + (if f(entries[|entries| - 1].0) == t then entries[|entries| - 1].1 else 0)
  {
    assert Rekey(entries, f)[..|entries| - 1] == Rekey(entries[..|entries| - 1], f);
  }

  lemma {:induction false} RekeyAdd<K, L>(entries: seq<(K, nat)>, k: K, n: nat, f: K -> L, t: L)
    ensures AmountFor(Rekey(Add(entries, k, n), f), t)
            == AmountFor(Rekey(entries, f), t) + (if f(k) == t then n else 0)
    decreases |entries|
  {
    if entries != [] {
      var e := entries[0];
      var rest := entries[1..];
      assert entries == [e] + rest;
      RekeyCons(e, rest, f);
      AmountCons((f(e.0), e.1), Rekey(rest, f), t);
      if e.0 == k {
        RekeyCons((k, e.1 + n), rest, f);
        AmountCons((f(k), e.1 + n), Rekey(rest, f), t);
      } else {
        RekeyAdd(rest, k, n, f, t);
        RekeyCons(e, Add(rest, k, n), f);
        AmountCons((f(e.0), e.1), Rekey(Add(rest, k, n), f), t);
      }
    }
  }

  lemma RekeyCons<K, L>(e: (K, nat), rest: seq<(K, nat)>, f: K -> L)
    ensures Rekey([e] + rest, f) == [(f(e.0), e.1)] + Rekey(rest, f)
  {
  }

  /** Grouping by `f` after grouping gives the same amounts as grouping the raw entries by `f`. */
  lemma {:induction false} RekeyAccumulate<K, L>(entries: seq<(K, nat)>, f: K -> L, t: L)
    ensures AmountFor(Rekey(Accumulate(entries), f), t) == AmountFor(Rekey(entries, f), t)
    decreases |entries|
  {
    if entries != [] {
      var init := entries[..|entries| - 1];
      var last := entries[|entries| - 1];
      RekeyAccumulate(init, f, t);
      RekeyAdd(Accumulate(init), last.0, last.1, f, t);
      RekeyAmountInit(entries, f, t);
    }
  }

  /**
   * Counting rows by a coarser key `f` through a tally of finer keys: the
   * amount for `t` is the number of rows whose key `f` maps to `t`, and the
   * amounts still sum to the number of rows.
   */
  lemma TallyRekeyed<K, L>(xs: seq<K>, f: K -> L, t: L)
    ensures AmountFor(Rekey(Tally(xs), f), t) == Occurrences(MapKeys(xs, f), t)
    ensures Total(Rekey(Tally(xs), f)) == |xs|
  {
    RekeyAccumulate(Ones(xs), f, t);
    assert Rekey(Ones(xs), f) == Ones(MapKeys(xs, f));
    OnesAmount(MapKeys(xs, f), t);
    RekeyTotal(Tally(xs), f);
    TallyCorrect(xs);
  }
}

=== FILE: indexer.dfy ===
/**
 * The `repo:index` command: it creates the `repository_index` table when it
 * is missing, clears it on `--rebuild`, appends the rows of each sweep in a
 * fixed order, appends a summary of everything before it, and reports the
 * count per type and the total size.
 */
module Indexer {
  import opened Text
  import opened Extractors
  import opened ByteFormat
  import opened DirectoryTree
  import opened Grouping
  import opened Records

  /** A stored row: an auto-increment id and the record. */
  datatype Row = Row(id: nat, record: Record)

  /** The directories indexSourceFiles visits, in order (the label it passes with each is never stored). */
  const SourceDirectories: seq<string> := ["app", "resources", "routes", "config", "database", "tests"]

  /** The route files indexRoutes looks for under `routes/`. */
  const RouteFiles: seq<string> := ["web.php", "api.php", "console.php"]

  /** The records held by `rows`, in row order. */
  function RecordsOf(rows: seq<Row>): (records: seq<Record>)
    ensures |records| == |rows| && forall i :: 0 <= i < |rows| ==> records[i] == rows[i].record
  {
    seq(|rows|, i requires 0 <= i < |rows| => rows[i].record)
  }

  // ---------------------------------------------------------------------------
  // What each sweep appends
  // ---------------------------------------------------------------------------

  /** The directory `root/path`, when there is one. */
  function DirectoryAt(root: Node, path: seq<string>): (r: Option<Node>)
    ensures r.Some? ==> r.value.DirNode?
  {
    match Resolve(root, path)
    case Some(node) => if node.DirNode? then Some(node) else None
    case None => None
  }

  /** The rows `build` makes of the listed files: one per file, in listing order. */
  function RowsOf(build: (string, Node) --> Record, files: seq<(string, Node)>): (records: seq<Record>)
    requires forall i :: 0 <= i < |files| ==> build.requires(files[i].0, files[i].1)
    ensures |records| == |files|
    ensures forall i :: 0 <= i < |files| ==> records[i] == build(files[i].0, files[i].1)
  {
    if files == [] then []
    else RowsOf(build, files[..|files| - 1]) + [build(files[|files| - 1].0, files[|files| - 1].1)]
  }

  /** Building the rows of one more file appends its row. */
  lemma RowsOfStep(build: (string, Node) --> Record, files: seq<(string, Node)>, i: nat)
    requires forall i :: 0 <= i < |files| ==> build.requires(files[i].0, files[i].1)
    requires i < |files|
    ensures RowsOf(build, files[..i + 1]) == RowsOf(build, files[..i]) + [build(files[i].0, files[i].1)]
  {
    assert files[..i + 1][..i] == files[..i];
  }

  /** The row indexDirectory writes for a file of `category`. */
  function FileRow(category: string): (string, Node) --> Record {
    (path: string, file: Node) requires file.FileNode? => FileRecord(category, path, file)
  }

  /** The rows for the files below the source directory `dir`, or none when it does not exist. */
  function DirectoryRecords(root: Node, dir: string): seq<Record> {
    match DirectoryAt(root, [dir])
    case Some(node) => RowsOf(FileRow(dir), AllFiles(node, dir))
    case None => []
  }

  /** The rows of indexSourceFiles for the first `n` source directories. */
  function SourceRecords(root: Node, n: nat): seq<Record>
    requires n <= |SourceDirectories|
  {
    if n == 0 then [] else SourceRecords(root, n - 1) + DirectoryRecords(root, SourceDirectories[n - 1])
  }

  /** The sweeps that index the files directly in one directory. */
  datatype FileSweep = Migrations | Models | Configs

  /** The directory each of those sweeps lists, as a path and as the prefix of the stored paths. */
  function SweepPath(sweep: FileSweep): seq<string> {
    match sweep
    case Migrations => ["database", "migrations"]
    case Models => ["app", "Models"]
    case Configs => ["config"]
  }

  function SweepPrefix(sweep: FileSweep): string {
    match sweep
    case Migrations => "database/migrations"
    case Models => "app/Models"
    case Configs => "config"
  }

  /** The row a sweep writes for one of its files. */
  function SweepRecord(sweep: FileSweep, path: string, file: Node): Record
    requires file.FileNode?
  {
    match sweep
    case Migrations => MigrationRecord(path, file)
    case Models => ModelRecord(path, file)
    case Configs => ConfigRecord(path, file)
  }

  /** The row a sweep writes for a listed file. */
  function SweepRow(sweep: FileSweep): (string, Node) --> Record {
    (path: string, file: Node) requires file.FileNode? => SweepRecord(sweep, path, file)
  }

  /** The rows of a sweep over the files directly in its directory, or none when the directory does not exist. */
  function FileSweepRecords(root: Node, sweep: FileSweep): seq<Record> {
    match DirectoryAt(root, SweepPath(sweep))
    case Some(node) => RowsOf(SweepRow(sweep), Files(node, SweepPrefix(sweep)))
    case None => []
  }

  /** The route file `routes/name`, when it exists as a file. */
  function RouteFileAt(root: Node, name: string): (r: Option<Node>)
    ensures r.Some? ==> r.value.FileNode?
  {
    match Resolve(root, ["routes", name])
    case Some(node) => if node.FileNode? then Some(node) else None
    case None => None
  }

  /** The row of the route file `routes/name`, or none when it does not exist. */
  function RouteRows(root: Node, name: string): seq<Record> {
    match RouteFileAt(root, name)
    case Some(file) => [RouteRecord(name, file.content)]
    case None => []
  }

  /** The rows of indexRoutes for the first `n` route files. */
  function RouteRecords(root: Node, n: nat): seq<Record>
    requires n <= |RouteFiles|
  {
    if n == 0 then [] else RouteRecords(root, n - 1) + RouteRows(root, RouteFiles[n - 1])
  }

  /** Every row the sweeps append, in the order handle runs them, before the summary. */
  function IndexRecords(root: Node): seq<Record>
    requires root.DirNode?
  {
    [StructureRecord(root)]
    + SourceRecords(root, |SourceDirectories|)
    + (FileSweepRecords(root, Migrations) + FileSweepRecords(root, Models))
    + RouteRecords(root, |RouteFiles|)
    + FileSweepRecords(root, Configs)
  }

  /** The amount a row adds to `sum('size')`: a null size adds nothing. */
  function SizeOf(r: Record): nat {
    if r.size.Some? then r.size.value else 0
  }

  /**
   * `sum('size')`: the sum of the non-null sizes. SQL gives null when no row
   * has a size, and the query builder turns that null into 0, so the total is
   * 0 exactly when every row's size is null or 0, and no row's size exceeds it.
   */
  function SizeSum(records: seq<Record>): (total: nat)
    ensures total == 0 <==> forall i :: 0 <= i < |records| ==> SizeOf(records[i]) == 0
    ensures forall i :: 0 <= i < |records| ==> SizeOf(records[i]) <= total
  {
    if records == [] then 0
    else
      var init := records[..|records| - 1];
      assert forall i :: 0 <= i < |init| ==> init[i] == records[i];
      SizeSum(init) + SizeOf(records[|records| - 1])
  }

  /** Summing sizes splits over consecutive runs of rows. */
  lemma {:induction false} SizeSumAppend(a: seq<Record>, b: seq<Record>)
    ensures SizeSum(a + b) == SizeSum(a) + SizeSum(b)
    decreases |b|
  {
    if b != [] {
      var n := |b| - 1;
      SizeSumAppend(a, b[..n]);
      assert (a + b)[..|a + b| - 1] == a + b[..n];
      assert (a + b)[|a + b| - 1] == b[n];
      assert SizeSum(a + b) == SizeSum(a + b[..n]) + SizeOf(b[n]);
      assert SizeSum(b) == SizeSum(b[..n]) + SizeOf(b[n]);
    } else {
      assert a + b == a;
    }
  }

  /** Rows without a size leave the total where it was. */
  lemma SizeSumSizeless(before: seq<Record>, added: seq<Record>)
    requires forall i :: 0 <= i < |added| ==> added[i].size.None?
    ensures SizeSum(before + added) == SizeSum(before)
  {
    SizeSumAppend(before, added);
  }

  // ---------------------------------------------------------------------------
  // The table
  // ---------------------------------------------------------------------------

  /** The `repository_index` table: whether it exists, its rows, and the next auto-increment id. */
  class RecordStore {
    var hasTable: bool
    var rows: seq<Row>
    var nextId: nat

    /**
     * Rows are only appended and truncation restarts the counter, so the ids
     * are 1, 2, ... in row order and the next id follows the last; a missing
     * table holds nothing.
     */
    ghost predicate Valid()
      reads this
    {
      && (!hasTable ==> rows == [])
      && nextId == |rows| + 1
      && (forall i :: 0 <= i < |rows| ==> rows[i].id == i + 1)
    }

    function Records(): seq<Record>
      reads this
    {
      RecordsOf(rows)
    }

    /** A database without the table. */
    constructor ()
      ensures Valid() && !hasTable && rows == []
    {
      hasTable := false;
      rows := [];
      nextId := 1;
    }

    /** createIndexTable: creates the table when it is missing, and otherwise changes nothing. */
    method CreateIndexTable()
      requires Valid()
      modifies this
      ensures Valid() && hasTable && rows == old(rows)
    {
      if !hasTable {
        hasTable := true;
      }
    }

    /** clearIndex: truncates the table when it exists, which also restarts the ids. */
    method ClearIndex()
      requires Valid()
      modifies this
      ensures Valid() && hasTable == old(hasTable) && rows == []
    {
      if hasTable {
        rows := [];
        nextId := 1;
      }
    }

    /** An insert: the record is stored under the next id. */
    method Insert(r: Record)
      requires Valid() && hasTable
      modifies this
      ensures Valid() && hasTable
      ensures rows == old(rows) + [Row(old(nextId), r)]
      ensures Records() == old(Records()) + [r]
    {
      rows := rows + [Row(nextId, r)];
      nextId := nextId + 1;
      assert Records() == old(Records()) + [r];
    }

    /** indexProjectStructure. */
    method IndexProjectStructure(root: Node)
      requires Valid() && hasTable && root.DirNode?
      modifies this
      ensures Valid() && hasTable
      ensures Records() == old(Records()) + [StructureRecord(root)]
    {
      var structure := GetDirectoryStructure(root, StructureDepth, 0);
      Insert(Record("structure", Some("project"), "Project Structure", Some("/"),
                    Some("Complete project directory structure"), StructureMeta(structure), None, None));
    }

    /**
     * The loop of indexDirectory and of the migration, model and
     * configuration sweeps: the row of each listed file is inserted in turn.
     */
    method IndexEach(files: seq<(string, Node)>, build: (string, Node) --> Record)
      requires Valid() && hasTable
      requires forall i :: 0 <= i < |files| ==> build.requires(files[i].0, files[i].1)
      modifies this
      ensures Valid() && hasTable
      ensures Records() == old(Records()) + RowsOf(build, files)
    {
      for i := 0 to |files|
        invariant Valid() && hasTable
        invariant Records() == old(Records()) + RowsOf(build, files[..i])
      {
        var row := build(files[i].0, files[i].1);
        RowsOfStep(build, files, i);
        Insert(row);
        AppendAssociates(old(Records()), RowsOf(build, files[..i]), [row]);
      }
      assert files[..|files|] == files;
    }

    /** indexDirectory: one row per file, in listing order. */
    method IndexDirectory(files: seq<(string, Node)>, category: string)
      requires Valid() && hasTable
      requires forall i :: 0 <= i < |files| ==> files[i].1.FileNode?
      modifies this
      ensures Valid() && hasTable
      ensures Records() == old(Records()) + RowsOf(FileRow(category), files)
    {
      IndexEach(files, FileRow(category));
    }

    /** indexSourceFiles: each existing source directory in turn. */
    method IndexSourceFiles(root: Node)
      requires Valid() && hasTable
      modifies this
      ensures Valid() && hasTable
      ensures Records() == old(Records()) + SourceRecords(root, |SourceDirectories|)
    {
      for n := 0 to |SourceDirectories|
        invariant Valid() && hasTable
        invariant Records() == old(Records()) + SourceRecords(root, n)
      {
        var dir := SourceDirectories[n];
        var node := DirectoryAt(root, [dir]);
        if node.Some? {
          IndexDirectory(AllFiles(node.value, dir), dir);
        }
        AppendAssociates(old(Records()), SourceRecords(root, n), DirectoryRecords(root, dir));
      }
    }

    /** One sweep over the files directly in its directory, when the directory exists. */
    method IndexSweep(root: Node, sweep: FileSweep)
      requires Valid() && hasTable
      modifies this
      ensures Valid() && hasTable
      ensures Records() == old(Records()) + FileSweepRecords(root, sweep)
    {
      var dir := DirectoryAt(root, SweepPath(sweep));
      if dir.Some? {
        IndexEach(Files(dir.value, SweepPrefix(sweep)), SweepRow(sweep));
      }
    }

    /** indexDatabaseStructure: a row per migration, then a row per model. */
    method IndexDatabaseStructure(root: Node)
      requires Valid() && hasTable
      modifies this
      ensures Valid() && hasTable
      ensures Records() == old(Records()) + (FileSweepRecords(root, Migrations) + FileSweepRecords(root, Models))
    {
      IndexSweep(root, Migrations);
      IndexSweep(root, Models);
      AppendAssociates(old(Records()), FileSweepRecords(root, Migrations), FileSweepRecords(root, Models));
    }

    /** indexConfigurations: a row per configuration file. */
    method IndexConfigurations(root: Node)
      requires Valid() && hasTable
      modifies this
      ensures Valid() && hasTable
      ensures Records() == old(Records()) + FileSweepRecords(root, Configs)
    {
      IndexSweep(root, Configs);
    }

    /** indexRoutes: a row per route file that exists. */
    method IndexRoutes(root: Node)
      requires Valid() && hasTable
      modifies this
      ensures Valid() && hasTable
      ensures Records() == old(Records()) + RouteRecords(root, |RouteFiles|)
    {
      for n := 0 to |RouteFiles|
        invariant Valid() && hasTable
        invariant Records() == old(Records()) + RouteRecords(root, n)
      {
        IndexRouteSlot(root, RouteFiles[n]);
        AppendAssociates(old(Records()), RouteRecords(root, n), RouteRows(root, RouteFiles[n]));
      }
    }

    /** One pass of indexRoutes' loop: the route file is indexed when it exists. */
    method IndexRouteSlot(root: Node, routeFile: string)
      requires Valid() && hasTable
      modifies this
      ensures Valid() && hasTable
      ensures Records() == old(Records()) + RouteRows(root, routeFile)
    {
      var file := RouteFileAt(root, routeFile);
      if file.Some? {
        IndexRouteFile(routeFile, file.value.content);
      }
    }

    /** The body of indexRoutes' loop for a route file that exists: its routes are extracted and stored. */
    method IndexRouteFile(routeFile: string, content: string)
      requires Valid() && hasTable
      modifies this
      ensures Valid() && hasTable
      ensures Records() == old(Records()) + [RouteRecord(routeFile, content)]
    {
      var routes := ExtractRoutes(content);
      Insert(Record("route", Some(Stem(routeFile)), routeFile, Some("routes/" + routeFile),
                    Some("Route definitions for " + Stem(routeFile)),
                    RouteMeta(routes, |routes|), Some(Head(content)), None));
    }

    /** generateIndexSummary: a row summarising every row before it. */
    method GenerateIndexSummary()
      requires Valid() && hasTable
      modifies this
      ensures Valid() && hasTable
      ensures Records() == old(Records()) + [SummaryRecord(old(Records()))]
    {
      Insert(SummaryRecord(Records()));
    }

    /** displayIndexStats: the number of rows per type and the total size, formatted. */
    method DisplayIndexStats() returns (typeCounts: seq<(string, nat)>, totalSize: Quantity)
      ensures typeCounts == Tally(Kinds(Records()))
      ensures totalSize == Scaled(SizeSum(Records()))
    {
      typeCounts := Tally(Kinds(Records()));
      totalSize := FormatBytes(SizeSum(Records()));
    }

    /** The sweeps of handle, in the order it runs them. */
    method RunSweeps(root: Node)
      requires Valid() && hasTable && root.DirNode?
      modifies this
      ensures Valid() && hasTable
      ensures Records() == old(Records()) + IndexRecords(root)
    {
      ghost var before := Records();
      IndexProjectStructure(root);
      ghost var r1 := Records();
      IndexSourceFiles(root);
      ghost var r2 := Records();
      IndexDatabaseStructure(root);
      ghost var r3 := Records();
      IndexRoutes(root);
      ghost var r4 := Records();
      IndexConfigurations(root);
      SweepsInOrder(before, r1, r2, r3, r4, Records(),
                    [StructureRecord(root)], SourceRecords(root, |SourceDirectories|),
                    FileSweepRecords(root, Migrations) + FileSweepRecords(root, Models),
                    RouteRecords(root, |RouteFiles|), FileSweepRecords(root, Configs));
    }

    /**
     * handle: unless `--rebuild` clears them, the existing rows stay; every
     * sweep then appends its rows, and the summary comes last.
     */
    method Handle(rebuild: bool, root: Node) returns (typeCounts: seq<(string, nat)>, totalSize: Quantity)
      requires Valid() && root.DirNode?
      modifies this
      ensures Valid() && hasTable
      ensures var before := if rebuild then [] else old(Records());
              Records() == before + IndexRecords(root) + [SummaryRecord(before + IndexRecords(root))]
      ensures typeCounts == Tally(Kinds(Records()))
      ensures totalSize == Scaled(SizeSum(Records()))
    {
      if rebuild {
        ClearIndex();
      }
      CreateIndexTable();
      RunSweeps(root);
      GenerateIndexSummary();
      typeCounts, totalSize := DisplayIndexStats();
    }
  }

  lemma AppendAssociates<T>(a: seq<T>, b: seq<T>, c: seq<T>)
    ensures a + b + c == a + (b + c)
  {
  }

  /** Rows appended in five runs are the five runs appended at once. */
  lemma SweepsInOrder<T>(before: seq<T>, r1: seq<T>, r2: seq<T>, r3: seq<T>, r4: seq<T>, r5: seq<T>,
                         a: seq<T>, b: seq<T>, c: seq<T>, d: seq<T>, e: seq<T>)
    requires r1 == before + a && r2 == r1 + b && r3 == r2 + c && r4 == r3 + d && r5 == r4 + e
    ensures r5 == before + (a + b + c + d + e)
  {
  }

  // ---------------------------------------------------------------------------
  // The summary row of a run
  // ---------------------------------------------------------------------------

  /** No row of `records` has the summary's type. */
  predicate NoSummary(records: seq<Record>) {
    forall i :: 0 <= i < |records| ==> records[i].kind != "summary"
  }

  lemma NoSummaryAppend(a: seq<Record>, b: seq<Record>)
    requires NoSummary(a) && NoSummary(b)
    ensures NoSummary(a + b)
  {
    forall i | 0 <= i < |a + b| ensures (a + b)[i].kind != "summary" {
      if i >= |a| {
        assert (a + b)[i] == b[i - |a|];
      }
    }
  }

  lemma DirectoryRecordsNoSummary(root: Node, dir: string)
    ensures NoSummary(DirectoryRecords(root, dir))
  {
    match DirectoryAt(root, [dir])
    case Some(node) =>
      var files := AllFiles(node, dir);
      forall i | 0 <= i < |files| ensures RowsOf(FileRow(dir), files)[i].kind != "summary" {
        FileRecordShape(dir, files[i].0, files[i].1);
      }
    case None =>
  }

  lemma {:induction false} SourceRecordsNoSummary(root: Node, n: nat)
    requires n <= |SourceDirectories|
    ensures NoSummary(SourceRecords(root, n))
  {
    if n > 0 {
      SourceRecordsNoSummary(root, n - 1);
      DirectoryRecordsNoSummary(root, SourceDirectories[n - 1]);
      NoSummaryAppend(SourceRecords(root, n - 1), DirectoryRecords(root, SourceDirectories[n - 1]));
    }
  }

  lemma FileSweepRecordsNoSummary(root: Node, sweep: FileSweep)
    ensures NoSummary(FileSweepRecords(root, sweep))
  {
    match DirectoryAt(root, SweepPath(sweep))
    case Some(node) =>
      var files := Files(node, SweepPrefix(sweep));
      forall i | 0 <= i < |files| ensures RowsOf(SweepRow(sweep), files)[i].kind != "summary" {
        assert RowsOf(SweepRow(sweep), files)[i] == SweepRecord(sweep, files[i].0, files[i].1);
      }
    case None =>
  }

  lemma {:induction false} RouteRecordsNoSummary(root: Node, n: nat)
    requires n <= |RouteFiles|
    ensures NoSummary(RouteRecords(root, n))
  {
    if n > 0 {
      var name := RouteFiles[n - 1];
      RouteRecordsNoSummary(root, n - 1);
      RouteRowsNoSummary(root, name);
      NoSummaryAppend(RouteRecords(root, n - 1), RouteRows(root, name));
    }
  }

  lemma RouteRowsNoSummary(root: Node, name: string)
    ensures NoSummary(RouteRows(root, name))
  {
    match RouteFileAt(root, name)
    case Some(file) => RouteRecordReflectsFile(name, file.content);
    case None =>
  }

  /** The sweeps never write a summary row: only generateIndexSummary does. */
  lemma IndexRecordsNoSummary(root: Node)
    requires root.DirNode?
    ensures "summary" !in Kinds(IndexRecords(root))
  {
    StructureRecordTidy(root);
    SourceRecordsNoSummary(root, |SourceDirectories|);
    FileSweepRecordsNoSummary(root, Migrations);
    FileSweepRecordsNoSummary(root, Models);
    FileSweepRecordsNoSummary(root, Configs);
    RouteRecordsNoSummary(root, |RouteFiles|);
    var a := [StructureRecord(root)];
    var b := SourceRecords(root, |SourceDirectories|);
    var c := FileSweepRecords(root, Migrations) + FileSweepRecords(root, Models);
    var d := RouteRecords(root, |RouteFiles|);
    var e := FileSweepRecords(root, Configs);
    NoSummaryAppend(FileSweepRecords(root, Migrations), FileSweepRecords(root, Models));
    NoSummaryAppend(a, b);
    NoSummaryAppend(a + b, c);
    NoSummaryAppend(a + b + c, d);
    NoSummaryAppend(a + b + c + d, e);
    assert NoSummary(IndexRecords(root));
  }

  // ---------------------------------------------------------------------------
  // Categories of a run
  // ---------------------------------------------------------------------------

  /** The type a run files each category under: source directories, route file stems and the fixed categories. */
  function CategoryType(category: string): string {
    if category in SourceDirectories then "file"
    else if category == "project" then "structure"
    else if category == "migration" || category == "model" then "database"
    else if category == "application" then "config"
    else if category == "meta" then "summary"
    else "route"
  }

  /** The row has the type its category is filed under. */
  predicate TypedRow(r: Record) {
    r.kind == CategoryType(CategoryKey(r.category))
  }

  /** Every row has the type its category is filed under. */
  predicate TypedByCategory(records: seq<Record>) {
    forall i :: 0 <= i < |records| ==> TypedRow(records[i])
  }

  lemma TypedAppend(a: seq<Record>, b: seq<Record>)
    requires TypedByCategory(a) && TypedByCategory(b)
    ensures TypedByCategory(a + b)
  {
    forall i | 0 <= i < |a + b| ensures TypedRow((a + b)[i]) {
      if i >= |a| {
        assert (a + b)[i] == b[i - |a|];
      }
    }
  }

  /** The fixed categories are filed under their own types. */
  lemma CategoryTypes()
    ensures CategoryType("project") == "structure" && CategoryType("meta") == "summary"
    ensures CategoryType("migration") == "database" && CategoryType("model") == "database"
    ensures CategoryType("application") == "config"
  {
  }

  /** The stem of a route file is filed under `route`. */
  lemma RouteStemType(name: string)
    requires name in RouteFiles
    ensures CategoryType(Stem(name)) == "route"
  {
    if name == "web.php" {
      assert forall k :: 0 <= k < |name| && k != 3 ==> name[k] != '.';
      assert LastDot(name) == Some(3) && name[..3] == "web";
    } else if name == "api.php" {
      assert forall k :: 0 <= k < |name| && k != 3 ==> name[k] != '.';
      assert LastDot(name) == Some(3) && name[..3] == "api";
    } else {
      assert forall k :: 0 <= k < |name| && k != 7 ==> name[k] != '.';
      assert LastDot(name) == Some(7) && name[..7] == "console";
    }
  }

  lemma SummaryTyped(records: seq<Record>)
    ensures TypedByCategory([SummaryRecord(records)])
  {
    CategoryTypes();
    assert TypedRow(SummaryRecord(records));
  }

  lemma SweepRowTyped(sweep: FileSweep, path: string, file: Node)
    requires file.FileNode?
    ensures TypedRow(SweepRecord(sweep, path, file))
  {
    CategoryTypes();
  }

  lemma DirectoryRecordsTyped(root: Node, dir: string)
    requires dir in SourceDirectories
    ensures TypedByCategory(DirectoryRecords(root, dir))
  {
    match DirectoryAt(root, [dir])
    case Some(node) =>
      var files := AllFiles(node, dir);
      var rows := RowsOf(FileRow(dir), files);
      forall i | 0 <= i < |files| ensures TypedRow(rows[i]) {
        FileRecordShape(dir, files[i].0, files[i].1);
      }
    case None =>
  }

  lemma {:induction false} SourceRecordsTyped(root: Node, n: nat)
    requires n <= |SourceDirectories|
    ensures TypedByCategory(SourceRecords(root, n))
  {
    if n > 0 {
      SourceRecordsTyped(root, n - 1);
      DirectoryRecordsTyped(root, SourceDirectories[n - 1]);
      TypedAppend(SourceRecords(root, n - 1), DirectoryRecords(root, SourceDirectories[n - 1]));
    }
  }

  lemma FileSweepRecordsTyped(root: Node, sweep: FileSweep)
    ensures TypedByCategory(FileSweepRecords(root, sweep))
  {
    match DirectoryAt(root, SweepPath(sweep))
    case Some(node) =>
      var files := Files(node, SweepPrefix(sweep));
      var rows := RowsOf(SweepRow(sweep), files);
      forall i | 0 <= i < |files| ensures TypedRow(rows[i]) {
        SweepRowTyped(sweep, files[i].0, files[i].1);
      }
    case None =>
  }

  lemma RouteRowsTyped(root: Node, name: string)
    requires name in RouteFiles
    ensures TypedByCategory(RouteRows(root, name))
  {
    match RouteFileAt(root, name)
    case Some(file) =>
      RouteStemType(name);
      assert TypedRow(RouteRecord(name, file.content));
    case None =>
  }

  lemma {:induction false} RouteRecordsTyped(root: Node, n: nat)
    requires n <= |RouteFiles|
    ensures TypedByCategory(RouteRecords(root, n))
  {
    if n > 0 {
      RouteRecordsTyped(root, n - 1);
      RouteRowsTyped(root, RouteFiles[n - 1]);
      TypedAppend(RouteRecords(root, n - 1), RouteRows(root, RouteFiles[n - 1]));
    }
  }

  lemma IndexRecordsTyped(root: Node)
    requires root.DirNode?
    ensures TypedByCategory(IndexRecords(root))
  {
    SourceRecordsTyped(root, |SourceDirectories|);
    FileSweepRecordsTyped(root, Migrations);
    FileSweepRecordsTyped(root, Models);
    FileSweepRecordsTyped(root, Configs);
    RouteRecordsTyped(root, |RouteFiles|);
    var a := [StructureRecord(root)];
    var b := SourceRecords(root, |SourceDirectories|);
    var c := FileSweepRecords(root, Migrations) + FileSweepRecords(root, Models);
    var d := RouteRecords(root, |RouteFiles|);
    var e := FileSweepRecords(root, Configs);
    CategoryTypes();
    assert TypedRow(StructureRecord(root));
    TypedAppend(FileSweepRecords(root, Migrations), FileSweepRecords(root, Models));
    TypedAppend(a, b);
    TypedAppend(a + b, c);
    TypedAppend(a + b + c, d);
    TypedAppend(a + b + c + d, e);
  }

  /** Rows typed by their category never share a category across types. */
  lemma TypedOneTypePerCategory(records: seq<Record>)
    requires TypedByCategory(records)
    ensures OneTypePerCategory(records)
  {
  }

  /**
   * The table a rebuild leaves, the index rows and their summary, never files
   * one category under two types, so `by_category` counts every category's
   * rows exactly (ByCategoryCounts applies).
   */
  lemma RebuiltTableOneTypePerCategory(root: Node)
    requires root.DirNode?
    ensures OneTypePerCategory(IndexRecords(root) + [SummaryRecord(IndexRecords(root))])
  {
    var index := IndexRecords(root);
    IndexRecordsTyped(root);
    SummaryTyped(index);
    TypedAppend(index, [SummaryRecord(index)]);
    TypedOneTypePerCategory(index + [SummaryRecord(index)]);
  }

  lemma KindsAppend(a: seq<Record>, b: seq<Record>)
    ensures Kinds(a + b) == Kinds(a) + Kinds(b)
  {
  }

  /**
   * Appending the summary of the rows to rows of which `swept` holds no
   * summary: the summary comes last and counts every row before it, and
   * there is exactly one more summary row than `before` holds.
   */
  lemma SummaryAppended(before: seq<Record>, swept: seq<Record>)
    requires "summary" !in Kinds(swept)
    ensures var rows := before + swept;
            var all := rows + [SummaryRecord(rows)];
            && all[|all| - 1].kind == "summary"
            && all[|all| - 1].metadata.totalItems == |all| - 1
            && Occurrences(Kinds(all), "summary") == Occurrences(Kinds(before), "summary") + 1
  {
    var rows := before + swept;
    var summary := SummaryRecord(rows);
    OccurrencesAbsent(Kinds(swept), "summary");
    KindsAppend(before, swept);
    KindsAppend(rows, [summary]);
    assert Kinds([summary]) == ["summary"];
    OccurrencesAppend(Kinds(before) + Kinds(swept), ["summary"], "summary");
    OccurrencesAppend(Kinds(before), Kinds(swept), "summary");
    assert Occurrences(["summary"], "summary") == 1 by {
      assert ["summary"][..0] == [];
    }
  }

  /**
   * What a run of handle leaves: the summary row comes last and counts every
   * row before it, and the run adds exactly one summary row to those kept.
   */
  lemma RunAddsOneSummary(before: seq<Record>, root: Node)
    requires root.DirNode?
    ensures var rows := before + IndexRecords(root);
            var all := rows + [SummaryRecord(rows)];
            && all[|all| - 1].kind == "summary"
            && all[|all| - 1].metadata.totalItems == |all| - 1
            && Occurrences(Kinds(all), "summary") == Occurrences(Kinds(before), "summary") + 1
  {
    IndexRecordsNoSummary(root);
    SummaryAppended(before, IndexRecords(root));
  }

  /** After `--rebuild` the table holds exactly one summary row. */
  lemma RebuildLeavesOneSummary(root: Node)
    requires root.DirNode?
    ensures var rows := IndexRecords(root);
            Occurrences(Kinds(rows + [SummaryRecord(rows)]), "summary") == 1
  {
    IndexRecordsNoSummary(root);
    OnlySummary(IndexRecords(root));
  }

  /** Rows without a summary, followed by their summary, hold exactly one summary row. */
  lemma OnlySummary(rows: seq<Record>)
    requires "summary" !in Kinds(rows)
    ensures Occurrences(Kinds(rows + [SummaryRecord(rows)]), "summary") == 1
  {
    SummaryAppended([], rows);
    assert [] + rows == rows;
  }
}

=== FILE: patterns.dfy ===
/**
 * The regular expressions of the indexer, each written out as a matcher at one
 * position, and the scans PHP runs them with: preg_match_all (every
 * non-overlapping match, left to right) and preg_match (the leftmost match).
 * Each matcher decides the match PCRE's backtracking finds at that position:
 * greedy runs followed by a character outside the run leave nothing to
 * backtrack into, so the first successful path is the one written here.
 */
module Patterns {
  import opened Text

  /** The four Eloquent relationship calls the model sweep looks for. */
  datatype RelationKind = HasOne | HasMany | BelongsTo | BelongsToMany

  function RelationName(k: RelationKind): string {
    match k
    case HasOne => "hasOne"
    case HasMany => "hasMany"
    case BelongsTo => "belongsTo"
    case BelongsToMany => "belongsToMany"
  }

  datatype Pattern =
    | ClassDecl                      // /class\s+(\w+)/
    | FunctionDecl                   // /function\s+(\w+)/
    | SchemaCreate                   // /Schema::create\(['"](\w+)['"]/
    | Relation(kind: RelationKind)   // /hasOne\(['"]?(\w+)['"]?/ and its three siblings
    | FillableAssign                 // /\$fillable\s*=\s*\[(.*?)\]/s
    | RouteVerb                      // /Route::(get|post|put|patch|delete|any)\(['"]([^'"]+)['"]/
    | RouteResource                  // /Route::resource\(['"]([^'"]+)['"]/
    | ConfigKey                      // /['"](\w+)['"]\s*=>/

  /** A match: where it starts, where the scan resumes after it, and its capture groups 1, 2, ... */
  datatype Match = Match(start: nat, end: nat, groups: seq<string>)

  /** The verb alternation of the route pattern, in the order PCRE tries it. */
  const Verbs: seq<string> := ["get", "post", "put", "patch", "delete", "any"]

  function GroupCount(p: Pattern): nat {
    if p == RouteVerb then 2 else 1
  }

  /** `keyword\s+(\w+)` at `i`: the keyword, at least one blank, then the longest word run. */
  function KeywordName(s: string, i: nat, keyword: string): (r: Option<Match>)
    requires i <= |s|
    ensures r.Some? ==> StartsAt(s, i, keyword) && r.value.start == i && i < r.value.end <= |s|
    ensures r.Some? ==> |r.value.groups| == 1 && r.value.groups[0] != []
    ensures r.Some? ==> forall c :: c in r.value.groups[0] ==> IsWordChar(c)
  {
    if !StartsAt(s, i, keyword) then None
    else
      var j := i + |keyword|;
      var k := RunEnd(s, j, Space);
      var e := RunEnd(s, k, Word);
      if k == j || e == k then None
      else Some(Match(i, e, [s[k..e]]))
  }

  /** `lit['"](cls+)['"]` at `i`: an opening quote, a non-empty run of `cls`, a closing quote (either kind). */
  function QuotedRun(s: string, i: nat, lit: string, cls: CharClass): (r: Option<Match>)
    requires i <= |s|
    ensures r.Some? ==> StartsAt(s, i, lit) && r.value.start == i && i < r.value.end <= |s|
    ensures r.Some? ==> |r.value.groups| == 1 && r.value.groups[0] != []
    ensures r.Some? ==> forall c :: c in r.value.groups[0] ==> InClass(c, cls) && !IsQuote(c)
    ensures r.Some? ==> var n := |lit| + |r.value.groups[0]|;
                        && r.value.end == i + n + 2
                        && IsQuote(s[i + |lit|]) && IsQuote(s[i + n + 1])
                        && StartsAt(s, i + |lit| + 1, r.value.groups[0])
  {
    if !StartsAt(s, i, lit) then None
    else
      var q := i + |lit|;
      if q < |s| && IsQuote(s[q]) then
        var e := RunEnd(s, q + 1, cls);
        if e > q + 1 && e < |s| && IsQuote(s[e]) then
          assert forall k :: q + 1 <= k < e ==> InClass(s[k], cls);
          assert forall k :: q + 1 <= k < e ==> !IsQuote(s[k]) by {
            if cls == Word {
              assert forall k :: q + 1 <= k < e ==> IsWordChar(s[k]);
            }
          }
          Some(Match(i, e + 1, [s[q + 1..e]]))
        else None
      else None
  }

  /** `lit['"]?(\w+)['"]?` at `i`: the quotes are optional, the word run is not. */
  function OptionallyQuotedWord(s: string, i: nat, lit: string): (r: Option<Match>)
    requires i <= |s|
    ensures r.Some? ==> StartsAt(s, i, lit) && r.value.start == i && i < r.value.end <= |s|
    ensures r.Some? ==> |r.value.groups| == 1 && r.value.groups[0] != []
    ensures r.Some? ==> forall c :: c in r.value.groups[0] ==> IsWordChar(c)
  {
    if !StartsAt(s, i, lit) then None
    else
      var j := i + |lit|;
      var q := if j < |s| && IsQuote(s[j]) then j + 1 else j;
      var e := RunEnd(s, q, Word);
      if e == q then None
      else Some(Match(i, if e < |s| && IsQuote(s[e]) then e + 1 else e, [s[q..e]]))
  }

  /** The route pattern with the verb alternation tried in order, from `vs` onwards; groups are [verb, uri]. */
  function VerbRouteAt(s: string, i: nat, vs: seq<string>): (r: Option<Match>)
    requires i <= |s|
    ensures r.Some? ==> r.value.start == i && i < r.value.end <= |s| && |r.value.groups| == 2
    ensures r.Some? ==> r.value.groups[0] in vs && StartsAt(s, i, "Route::" + r.value.groups[0] + "(")
    ensures r.Some? ==> r.value.groups[1] != [] && forall c :: c in r.value.groups[1] ==> !IsQuote(c)
  {
    if vs == [] then None
    else match QuotedRun(s, i, "Route::" + vs[0] + "(", NotQuote)
      case Some(m) => Some(Match(m.start, m.end, [vs[0]] + m.groups))
      case None => VerbRouteAt(s, i, vs[1..])
  }

  /** `['"](\w+)['"]\s*=>` at `i`. */
  function ConfigKeyAt(s: string, i: nat): (r: Option<Match>)
    requires i <= |s|
    ensures r.Some? ==> r.value.start == i && i < r.value.end <= |s| && |r.value.groups| == 1
    ensures r.Some? ==> r.value.groups[0] != [] && forall c :: c in r.value.groups[0] ==> IsWordChar(c)
  {
    if i < |s| && IsQuote(s[i]) then
      var e := RunEnd(s, i + 1, Word);
      if e > i + 1 && e < |s| && IsQuote(s[e]) then
        var w := RunEnd(s, e + 1, Space);
        if StartsAt(s, w, "=>") then Some(Match(i, w + 2, [s[i + 1..e]])) else None
      else None
    else None
  }

  /** `\$fillable\s*=\s*\[(.*?)\]` with the `s` flag at `i`: the lazy group stops at the first `]`. */
  function FillableAt(s: string, i: nat): (r: Option<Match>)
    requires i <= |s|
    ensures r.Some? ==> StartsAt(s, i, "$fillable") && r.value.start == i && i < r.value.end <= |s|
    ensures r.Some? ==> |r.value.groups| == 1 && ']' !in r.value.groups[0]
  {
    if !StartsAt(s, i, "$fillable") then None
    else
      var a := RunEnd(s, i + 9, Space);
      if a < |s| && s[a] == '=' then
        var b := RunEnd(s, a + 1, Space);
        if b < |s| && s[b] == '[' then BracketList(s, i, b) else None
      else None
  }

  /** The lazy `(.*?)\]` after the `[` at `b`: the text up to the first `]`, for a match that started at `i`. */
  function BracketList(s: string, i: nat, b: nat): (r: Option<Match>)
    requires i < b < |s|
    ensures r.Some? ==> r.value.start == i && b < r.value.end <= |s|
    ensures r.Some? ==> |r.value.groups| == 1 && ']' !in r.value.groups[0]
  {
    match IndexOf(s, "]", b + 1)
    case Some(c) =>
      assert forall k :: b + 1 <= k < c ==> s[k] != ']' by {
        forall k | b + 1 <= k < c ensures s[k] != ']' {
          assert !StartsAt(s, k, "]");
        }
      }
      Some(Match(i, c + 1, [s[b + 1..c]]))
    case None => None
  }

  /** The match of `p` that starts exactly at position `i`, if any. */
  function MatchAt(p: Pattern, s: string, i: nat): (r: Option<Match>)
    requires i <= |s|
    ensures r.Some? ==> r.value.start == i && i < r.value.end <= |s|
    ensures r.Some? ==> |r.value.groups| == GroupCount(p)
  {
    match p
    case ClassDecl => KeywordName(s, i, "class")
    case FunctionDecl => KeywordName(s, i, "function")
    case SchemaCreate => QuotedRun(s, i, "Schema::create(", Word)
    case Relation(k) => OptionallyQuotedWord(s, i, RelationName(k) + "(")
    case FillableAssign => FillableAt(s, i)
    case RouteVerb => VerbRouteAt(s, i, Verbs)
    case RouteResource => QuotedRun(s, i, "Route::resource(", NotQuote)
    case ConfigKey => ConfigKeyAt(s, i)
  }

  /** The outcomes of matching `p` at positions 0 .. n - 1 of `s`. */
  function TableUpTo(p: Pattern, s: string, n: nat): (t: seq<Option<Match>>)
    requires n <= |s| + 1
    ensures |t| == n
  {
    if n == 0 then [] else TableUpTo(p, s, n - 1) + [MatchAt(p, s, n - 1)]
  }

  /** The outcome of matching `p` at every position of `s`, the end position included. */
  function Table(p: Pattern, s: string): (t: seq<Option<Match>>)
    ensures |t| == |s| + 1
  {
    TableUpTo(p, s, |s| + 1)
  }

  lemma {:induction false} TableUpToAt(p: Pattern, s: string, n: nat, i: nat)
    requires i < n <= |s| + 1
    ensures TableUpTo(p, s, n)[i] == MatchAt(p, s, i)
  {
    if i < n - 1 {
      TableUpToAt(p, s, n - 1, i);
    }
  }

  /** Entry `i` of the table is the match of `p` at `i`. */
  lemma TableAt(p: Pattern, s: string, i: nat)
    requires i <= |s|
    ensures Table(p, s)[i] == MatchAt(p, s, i)
  {
    TableUpToAt(p, s, |s| + 1, i);
  }

  /**
   * A table of per-position outcomes over a subject of length |t| - 1: a match
   * found at `i` starts at `i` and ends after it, within the subject.
   */
  ghost predicate WellFormed(t: seq<Option<Match>>) {
    |t| >= 1 &&
    forall i :: 0 <= i < |t| && t[i].Some? ==> t[i].value.start == i < t[i].value.end < |t|
  }

  lemma TableWellFormed(p: Pattern, s: string)
    ensures WellFormed(Table(p, s))
  {
    forall i | 0 <= i < |s| + 1
      ensures Table(p, s)[i].Some? ==> Table(p, s)[i].value.start == i < Table(p, s)[i].value.end < |s| + 1
    {
      TableAt(p, s, i);
    }
  }

  /** Position `i` lies inside one of the matches `ms`. */
  predicate Covered(ms: seq<Match>, i: nat) {
    exists k :: 0 <= k < |ms| && ms[k].start <= i < ms[k].end
  }

  /**
   * The scan of preg_match_all from position `from`: take the match at the
   * current position and resume at its end, or else move one position on.
   * The matches come in text order, do not overlap, and each is the match the
   * table records at its start.
   */
  function Scan(t: seq<Option<Match>>, from: nat): (ms: seq<Match>)
    requires WellFormed(t) && from < |t|
    ensures forall k :: 0 <= k < |ms| ==> from <= ms[k].start < ms[k].end < |t|
    ensures forall k :: 0 <= k < |ms| ==> t[ms[k].start] == Some(ms[k])
    ensures forall k :: 0 <= k < |ms| - 1 ==> ms[k].end <= ms[k + 1].start
    decreases |t| - from
  {
    if from == |t| - 1 then []
    else match t[from]
      case Some(m) => [m] + Scan(t, m.end)
      case None => Scan(t, from + 1)
  }

  /** The scan misses nothing: every position where the table has a match lies inside a reported match. */
  lemma {:induction false} ScanComplete(t: seq<Option<Match>>, from: nat, i: nat)
    requires WellFormed(t) && from <= i < |t| && t[i].Some?
    ensures Covered(Scan(t, from), i)
    decreases |t| - from
  {
    var ms := Scan(t, from);
    if from == |t| - 1 {
      assert false;
    } else if from == i {
      assert ms[0].start == i < ms[0].end;
    } else {
      match t[from]
      case Some(m) =>
        if i < m.end {
          assert ms[0] == m;
        } else {
          ScanComplete(t, m.end, i);
          var rest := Scan(t, m.end);
          var k :| 0 <= k < |rest| && rest[k].start <= i < rest[k].end;
          assert ms[k + 1] == rest[k];
        }
      case None =>
        ScanComplete(t, from + 1, i);
    }
  }

  /** The scan finds nothing exactly when the table has no match from `from` on. */
  lemma ScanEmpty(t: seq<Option<Match>>, from: nat)
    requires WellFormed(t) && from < |t|
    ensures Scan(t, from) == [] <==> forall i :: from <= i < |t| ==> t[i].None?
  {
    if Scan(t, from) == [] {
      forall i | from <= i < |t| ensures t[i].None? {
        if t[i].Some? {
          ScanComplete(t, from, i);
        }
      }
    } else {
      assert t[Scan(t, from)[0].start].Some?;
    }
  }

  /** The first match at or after `from`: the search of preg_match. */
  function First(t: seq<Option<Match>>, from: nat): (r: Option<Match>)
    requires WellFormed(t) && from < |t|
    ensures r.Some? ==> from <= r.value.start < |t| && t[r.value.start] == r
    ensures r.Some? ==> forall i :: from <= i < r.value.start ==> t[i].None?
    ensures r.None? ==> forall i :: from <= i < |t| ==> t[i].None?
    decreases |t| - from
  {
    if t[from].Some? || from == |t| - 1 then t[from] else First(t, from + 1)
  }

  /** preg_match reports the first of the matches preg_match_all reports. */
  lemma {:induction false} FirstIsFirstOfScan(t: seq<Option<Match>>, from: nat)
    requires WellFormed(t) && from < |t|
    ensures First(t, from) == if Scan(t, from) == [] then None else Some(Scan(t, from)[0])
    decreases |t| - from
  {
    if from < |t| - 1 && t[from].None? {
      FirstIsFirstOfScan(t, from + 1);
    }
  }

  /** preg_match_all($pattern, $s): every match of `p` in `s`. */
  function FindAll(p: Pattern, s: string): (ms: seq<Match>)
    ensures forall k :: 0 <= k < |ms| ==> ms[k].start < ms[k].end <= |s|
    ensures forall k :: 0 <= k < |ms| ==> |ms[k].groups| == GroupCount(p)
  {
    TableWellFormed(p, s);
    var t := Table(p, s);
    var ms := Scan(t, 0);
    assert forall k :: 0 <= k < |ms| ==> |ms[k].groups| == GroupCount(p) by {
      forall k | 0 <= k < |ms| ensures |ms[k].groups| == GroupCount(p) {
        TableAt(p, s, ms[k].start);
      }
    }
    ms
  }

  /** preg_match($pattern, $s): the leftmost match of `p` in `s`. */
  function FindFirst(p: Pattern, s: string): (r: Option<Match>)
    ensures r.Some? ==> r.value.start <= |s| && MatchAt(p, s, r.value.start) == r
  {
    TableWellFormed(p, s);
    var r := First(Table(p, s), 0);
    assert r.Some? ==> MatchAt(p, s, r.value.start) == r by {
      if r.Some? {
        TableAt(p, s, r.value.start);
      }
    }
    r
  }

  /** The capture group `g` of every match, in order: `$matches[g]` of preg_match_all. */
  function Captures(ms: seq<Match>, g: nat): (r: seq<string>)
    requires forall k :: 0 <= k < |ms| ==> g < |ms[k].groups|
    ensures |r| == |ms| && forall k :: 0 <= k < |ms| ==> r[k] == ms[k].groups[g]
  {
    seq(|ms|, k requires 0 <= k < |ms| => ms[k].groups[g])
  }

  /** Every match preg_match_all reports is a match of the pattern at its start, and they come in text order. */
  lemma FindAllSound(p: Pattern, s: string, k: nat)
    requires k < |FindAll(p, s)|
    ensures MatchAt(p, s, FindAll(p, s)[k].start) == Some(FindAll(p, s)[k])
    ensures k + 1 < |FindAll(p, s)| ==> FindAll(p, s)[k].end <= FindAll(p, s)[k + 1].start
  {
    TableWellFormed(p, s);
    TableAt(p, s, FindAll(p, s)[k].start);
  }

  /** preg_match_all misses nothing: every position where `p` matches lies inside a reported match. */
  lemma FindAllComplete(p: Pattern, s: string, i: nat)
    requires i <= |s| && MatchAt(p, s, i).Some?
    ensures Covered(FindAll(p, s), i)
  {
    TableWellFormed(p, s);
    TableAt(p, s, i);
    ScanComplete(Table(p, s), 0, i);
  }

  /** preg_match_all finds nothing exactly when the pattern matches nowhere. */
  lemma FindAllEmpty(p: Pattern, s: string)
    ensures FindAll(p, s) == [] <==> forall i :: 0 <= i <= |s| ==> MatchAt(p, s, i).None?
  {
    TableWellFormed(p, s);
    ScanEmpty(Table(p, s), 0);
    forall i | 0 <= i <= |s| ensures Table(p, s)[i] == MatchAt(p, s, i) {
      TableAt(p, s, i);
    }
  }

  /** preg_match finds a match exactly when there is one, and none starts before the one it reports. */
  lemma FindFirstLeftmost(p: Pattern, s: string)
    ensures FindFirst(p, s).None? <==> forall i :: 0 <= i <= |s| ==> MatchAt(p, s, i).None?
    ensures FindFirst(p, s).Some? ==> forall i :: 0 <= i < FindFirst(p, s).value.start ==> MatchAt(p, s, i).None?
  {
    TableWellFormed(p, s);
    forall i | 0 <= i <= |s| ensures Table(p, s)[i] == MatchAt(p, s, i) {
      TableAt(p, s, i);
    }
  }

  /** preg_match reports the first match preg_match_all would. */
  lemma FindFirstIsFirstOfAll(p: Pattern, s: string)
    ensures FindFirst(p, s) == if FindAll(p, s) == [] then None else Some(FindAll(p, s)[0])
  {
    TableWellFormed(p, s);
    FirstIsFirstOfScan(Table(p, s), 0);
  }
}

=== FILE: query.dfy ===
/**
 * What the controller and the search command build their queries from:
 * request parameters and their PHP truthiness, `column LIKE '%term%'`,
 * `where` over the rows of `repository_index`, and `limit`.
 */
module Query {
  import opened Text
  import opened Records
  import opened Indexer

  /** A request parameter or command option: absent, or the text given. */
  type Param = Option<string>

  /** PHP truthiness of a text value: null, "" and "0" are false. */
  predicate Truthy(p: Param) {
    p.Some? && p.value != "" && p.value != "0"
  }

  /** `column LIKE '%term%'`: a NULL column never matches; otherwise the term must occur in it. */
  predicate Like(column: Option<string>, term: string) {
    column.Some? && Contains(column.value, term)
  }

  /**
   * `where('type', $type)` and `where('category', $category)`, each added
   * only when its parameter is truthy; a NULL category equals nothing.
   */
  predicate OfKindAndCategory(r: Record, kind: Param, category: Param) {
    && (Truthy(kind) ==> r.kind == kind.value)
    && (Truthy(category) ==> r.category == Some(category.value))
  }

  /** The rows that satisfy `keep`, in table order. */
  function Where(rows: seq<Row>, keep: Row -> bool): (r: seq<Row>)
    ensures |r| <= |rows|
    ensures forall row :: row in r <==> row in rows && keep(row)
  {
    if rows == [] then []
    else
      var init := rows[..|rows| - 1];
      var last := rows[|rows| - 1];
      assert rows == init + [last];
      Where(init, keep) + (if keep(last) then [last] else [])
  }

  /** Filtering two runs of rows one after the other keeps their order. */
  lemma {:induction false} WhereAppend(xs: seq<Row>, ys: seq<Row>, keep: Row -> bool)
    ensures Where(xs + ys, keep) == Where(xs, keep) + Where(ys, keep)
    decreases |ys|
  {
    if ys != [] {
      var init := ys[..|ys| - 1];
      var last := ys[|ys| - 1];
      var tail := if keep(last) then [last] else [];
      assert (xs + ys)[..|xs + ys| - 1] == xs + init;
      assert (xs + ys)[|xs + ys| - 1] == last;
      WhereAppend(xs, init, keep);
      assert Where(xs + ys, keep) == Where(xs, keep) + Where(init, keep) + tail;
      assert Where(ys, keep) == Where(init, keep) + tail;
    } else {
      assert xs + ys == xs;
    }
  }

  /** A condition every row meets filters nothing out. */
  lemma {:induction false} WhereKeepsAll(rows: seq<Row>, keep: Row -> bool)
    requires forall row :: row in rows ==> keep(row)
    ensures Where(rows, keep) == rows
    decreases |rows|
  {
    if rows != [] {
      assert rows == rows[..|rows| - 1] + [rows[|rows| - 1]];
      WhereKeepsAll(rows[..|rows| - 1], keep);
    }
  }

  /** `limit($n)`: a negative limit is ignored; otherwise the first `n` rows, or all of them when there are fewer. */
  function Limit(rows: seq<Row>, n: int): (r: seq<Row>)
    ensures |r| <= |rows| && r == rows[..|r|]
    ensures n < 0 ==> r == rows
    ensures n >= 0 ==> |r| == if n < |rows| then n else |rows|
  {
    if n < 0 || n >= |rows| then rows else rows[..n]
  }

  /** The limit given, or the default when the parameter is absent. */
  function LimitOr(limit: Option<int>, default: int): int {
    match limit
    case None => default
    case Some(n) => n
  }
}

=== FILE: records.dfy ===
/**
 * The rows of the repository index and how each sweep of the indexer builds
 * them: one per source file, migration, model, route file and configuration
 * file, one for the project structure and one summary.
 */
module Records {
  import opened Text
  import opened Patterns
  import opened Extractors
  import opened ByteFormat
  import opened DirectoryTree
  import opened Grouping

  /** The class and function names of a PHP file. */
  datatype Declarations = Declarations(classes: seq<string>, functions: seq<string>)

  /** The `metadata` column, by kind of row. */
  datatype Metadata =
    | StructureMeta(structure: seq<(string, Entry)>)
    | FileMeta(extension: string, sizeHuman: Quantity, lines: nat, language: Option<string>,
               declarations: Option<Declarations>)
    | MigrationMeta(tables: seq<string>, operations: seq<Operation>)
    | ModelMeta(className: string, relationships: seq<(RelationKind, seq<string>)>, fillable: seq<string>)
    | RouteMeta(routes: seq<Route>, count: nat)
    | ConfigMeta(keys: seq<string>)
    | SummaryMeta(totalItems: nat, byType: seq<(string, nat)>, byCategory: seq<(string, nat)>)

  /** One row of `repository_index` without its id and timestamps; `kind` is the `type` column. */
  datatype Record = Record(
    kind: string,
    category: Option<string>,
    name: string,
    path: Option<string>,
    description: Option<string>,
    metadata: Metadata,
    preview: Option<string>,
    size: Option<nat>)

  /** Files of this many bytes or more are not read. */
  const SizeLimit: nat := 1024 * 1024

  /** The number of leading bytes a preview keeps. */
  const PreviewLength: nat := 500

  // ---------------------------------------------------------------------------
  // File names
  // ---------------------------------------------------------------------------

  /** The position of the last dot in `name`, if any. */
  function LastDot(name: string): (r: Option<nat>)
    ensures r.None? <==> '.' !in name
    ensures r.Some? ==> r.value < |name| && name[r.value] == '.' && '.' !in name[r.value + 1..]
  {
    if name == [] then None
    else if name[|name| - 1] == '.' then Some(|name| - 1)
    else
      var r := LastDot(name[..|name| - 1]);
      assert name[..|name| - 1] + [name[|name| - 1]] == name;
      assert r.Some? ==> name[r.value + 1..] == name[..|name| - 1][r.value + 1..] + [name[|name| - 1]];
      r
  }

  /** getExtension(): the text after the last dot, or nothing when there is no dot. */
  function Extension(name: string): (ext: string)
    ensures '.' !in ext
  {
    match LastDot(name)
    case None => ""
    case Some(d) => name[d + 1..]
  }

  /** pathinfo(..., PATHINFO_FILENAME): the text before the last dot, or the whole name. */
  function Stem(name: string): (stem: string)
    ensures '.' !in name ==> stem == name
  {
    match LastDot(name)
    case None => name
    case Some(d) => name[..d]
  }

  /** A name with a dot is its stem, the dot and its extension. */
  lemma StemExtension(name: string)
    requires '.' in name
    ensures name == Stem(name) + "." + Extension(name)
  {
    var d := LastDot(name).value;
    assert name == name[..d] + [name[d]] + name[d + 1..];
  }

  /** An extension never holds a dot, so the 'blade.php' entries of the type and description tables are never chosen. */
  lemma ExtensionNeverBlade(name: string)
    ensures Extension(name) != "blade.php"
    ensures Language(Extension(name)) != Some("Blade Template")
    ensures FileDescription(Extension(name)) != "Blade template file"
  {
    assert "blade.php"[5] == '.';
    var ext := Extension(name);
    assert ext != "blade.php";
    assert ext !in Descriptions || Descriptions[ext] != "Blade template file";
  }

  /** The `type` entry of a file's metadata. */
  function Language(extension: string): (lang: Option<string>)
    ensures lang.Some? <==> extension in ["php", "js", "css", "blade.php"]
  {
    if extension == "php" then Some("PHP")
    else if extension == "js" then Some("JavaScript")
    else if extension == "css" then Some("CSS")
    else if extension == "blade.php" then Some("Blade Template")
    else None
  }

  // ---------------------------------------------------------------------------
  // Previews
  // ---------------------------------------------------------------------------

  /** The preview of a read file: all of it up to 500 bytes, else its first 500 bytes and '...'. */
  function Preview(content: string): (p: string)
    ensures |p| <= PreviewLength + 3
    ensures |content| <= PreviewLength ==> p == content
    ensures |content| > PreviewLength ==> |p| == PreviewLength + 3 && p[..PreviewLength] == content[..PreviewLength]
  {
    if |content| > PreviewLength then content[..PreviewLength] + "..." else content
  }

  /** substr($content, 0, 500): the first 500 bytes. */
  function Head(content: string): (h: string)
    ensures |h| <= PreviewLength
    ensures |h| == |content| || |h| == PreviewLength
    ensures StartsAt(content, 0, h)
  {
    if |content| > PreviewLength then content[..PreviewLength] else content
  }

  /** substr_count($content, "\n") + 1: the line count of a read file. */
  function Lines(content: string): (n: nat)
    ensures n >= 1
    ensures n == 1 <==> '\n' !in content
  {
    Count(content, '\n') + 1
  }

  /** The line count is one more than the number of line feeds in the text. */
  lemma LinesCountsLineFeeds(content: string)
    ensures Lines(content) == multiset(content)['\n'] + 1
  {
    CountIsMultiplicity(content, '\n');
  }

  // ---------------------------------------------------------------------------
  // One row per sweep
  // ---------------------------------------------------------------------------

  /** The text of a file as far as it is read, the preview, and the line count. */
  function ReadFile(file: Node): (r: (string, string, nat))
    requires file.FileNode?
    ensures r.2 == 0 <==> file.size >= SizeLimit || !file.readable
    ensures r.2 != 0 ==> r == (file.content, Preview(file.content), Lines(file.content))
    ensures r.2 == 0 ==> r.0 == [] && r.1 == (if file.size >= SizeLimit then "Large file - content not indexed" else "Binary file or read error")
  {
    if file.size < SizeLimit then
      if file.readable then (file.content, Preview(file.content), Lines(file.content))
      else ("", "Binary file or read error", 0)
    else ("", "Large file - content not indexed", 0)
  }

  /** The row indexDirectory writes for one file found under a source directory. */
  function FileRecord(category: string, path: string, file: Node): Record
    requires file.FileNode?
  {
    var ext := Extension(file.name);
    var (content, preview, lines) := ReadFile(file);
    var declarations := if ext == "php" then Some(Declarations(ClassNames(content), FunctionNames(content))) else None;
    Record("file", Some(category), file.name, Some(path), Some(FileDescription(ext)),
           FileMeta(ext, Scaled(file.size), lines, Language(ext), declarations),
           Some(preview), Some(file.size))
  }

  /**
   * A file row keeps the file's name, path, category and size, describes it
   * by its extension, reports the size in units, and lists declarations for
   * PHP files only; its preview never exceeds 503 bytes.
   */
  lemma FileRecordShape(category: string, path: string, file: Node)
    requires file.FileNode?
    ensures var r := FileRecord(category, path, file);
            && r.kind == "file" && r.category == Some(category) && r.name == file.name && r.path == Some(path)
            && r.size == Some(file.size) && r.preview.Some? && |r.preview.value| <= PreviewLength + 3
            && r.description == Some(FileDescription(Extension(file.name)))
            && r.metadata.FileMeta? && r.metadata.sizeHuman == Scaled(file.size)
            && (r.metadata.declarations.Some? <==> Extension(file.name) == "php")
            && (r.metadata.lines == 0 <==> file.size >= SizeLimit || !file.readable)
  {
  }

  /** A file that is read has its line count and its preview taken from its bytes, and PHP declarations from its text. */
  lemma ReadFileRecord(category: string, path: string, file: Node)
    requires file.FileNode? && file.size < SizeLimit && file.readable
    ensures var r := FileRecord(category, path, file);
            && r.metadata.lines == Lines(file.content)
            && r.preview == Some(Preview(file.content))
            && (Extension(file.name) == "php" ==>
                  r.metadata.declarations == Some(Declarations(ClassNames(file.content), FunctionNames(file.content))))
  {
  }

  /** A file of 1 MB or more is not read: its preview says so, it has no lines and no declarations. */
  lemma LargeFileNotScanned(category: string, path: string, file: Node)
    requires file.FileNode? && file.size >= SizeLimit
    ensures var r := FileRecord(category, path, file);
            && r.preview == Some("Large file - content not indexed")
            && r.metadata.lines == 0
            && (r.metadata.declarations.Some? ==> r.metadata.declarations.value == Declarations([], []))
  {
    NothingDeclaredInEmpty();
  }

  /** A file that cannot be read is indexed with no lines, no declarations and a placeholder preview. */
  lemma UnreadableFile(category: string, path: string, file: Node)
    requires file.FileNode? && file.size < SizeLimit && !file.readable
    ensures var r := FileRecord(category, path, file);
            && r.preview == Some("Binary file or read error")
            && r.metadata.lines == 0
            && (r.metadata.declarations.Some? ==> r.metadata.declarations.value == Declarations([], []))
  {
    NothingDeclaredInEmpty();
  }

  lemma NothingDeclaredInEmpty()
    ensures ClassNames("") == [] && FunctionNames("") == []
  {
    DeclarationPattern(ClassDecl, "", 0);
    DeclarationPattern(FunctionDecl, "", 0);
    FindAllEmpty(ClassDecl, "");
    FindAllEmpty(FunctionDecl, "");
  }

  /** The row for one migration file. */
  function MigrationRecord(path: string, file: Node): Record
    requires file.FileNode?
  {
    Record("database", Some("migration"), file.name, Some(path), Some("Database migration file"),
           MigrationMeta(TableNames(file.content), MigrationOperations(file.content)),
           Some(Head(file.content)), None)
  }

  /** The row for one model file: named after the file without its extension. */
  function ModelRecord(path: string, file: Node): Record
    requires file.FileNode?
  {
    var className := Stem(file.name);
    Record("database", Some("model"), className, Some(path), Some("Eloquent model for " + className),
           ModelMeta(className, Relationships(file.content), FillableFields(file.content)),
           Some(Head(file.content)), None)
  }

  /** The row for one route file: the count is the number of routes listed. */
  function RouteRecord(routeFile: string, content: string): Record
  {
    var routes := Routes(content);
    Record("route", Some(Stem(routeFile)), routeFile, Some("routes/" + routeFile),
           Some("Route definitions for " + Stem(routeFile)),
           RouteMeta(routes, |routes|), Some(Head(content)), None)
  }

  /** The row for one configuration file. */
  function ConfigRecord(path: string, file: Node): Record
    requires file.FileNode?
  {
    var configName := Stem(file.name);
    Record("config", Some("application"), configName, Some(path), Some("Configuration for " + configName),
           ConfigMeta(ConfigKeys(file.content)), Some(Head(file.content)), None)
  }

  /** The depth to which the project structure is recorded. */
  const StructureDepth: nat := 3

  /** The row holding the project structure. */
  function StructureRecord(root: Node): Record
    requires root.DirNode?
  {
    Record("structure", Some("project"), "Project Structure", Some("/"),
           Some("Complete project directory structure"),
           StructureMeta(Snapshot(root, StructureDepth, 0)), None, None)
  }

  /**
   * A migration row is named after its file; every table it lists is created
   * by a `Schema::create` call in the file, it lists an operation exactly
   * when the file contains that operation's call, and its preview is the
   * start of the file.
   */
  lemma MigrationRecordReflectsFile(path: string, file: Node)
    requires file.FileNode?
    ensures var r := MigrationRecord(path, file);
            && r.kind == "database" && r.category == Some("migration") && r.name == file.name && r.size.None?
            && r.metadata.MigrationMeta?
            && (forall t :: t in r.metadata.tables ==> exists i :: CreatesTable(file.content, i, t))
            && (forall op :: op in r.metadata.operations <==> Contains(file.content, Marker(op)))
            && r.preview.Some? && |r.preview.value| <= PreviewLength && StartsAt(file.content, 0, r.preview.value)
  {
    forall t | t in TableNames(file.content) ensures exists i :: CreatesTable(file.content, i, t) {
      TableNamesMember(file.content, t);
    }
  }

  /**
   * A model row is named after its file without the extension; each
   * relationship it lists has targets, each the target of a call of that
   * kind in the file; and it has no fillable fields exactly when the file
   * assigns no `$fillable` list.
   */
  lemma ModelRecordReflectsFile(path: string, file: Node)
    requires file.FileNode?
    ensures var r := ModelRecord(path, file);
            && r.kind == "database" && r.category == Some("model") && r.size.None?
            && ('.' in file.name ==> file.name == r.name + "." + Extension(file.name))
            && ('.' !in file.name ==> r.name == file.name)
            && r.metadata.ModelMeta? && r.metadata.className == r.name
            && (forall kind, targets :: (kind, targets) in r.metadata.relationships ==>
                  targets != [] && forall t :: t in targets ==> exists i :: RelationCallAt(file.content, i, kind, t))
            && (r.metadata.fillable == [] <==>
                  forall i: nat, list :: i <= |file.content| ==> !FillableListAt(file.content, i, list))
  {
    if '.' in file.name {
      StemExtension(file.name);
    }
    RelationshipsShape(file.content);
    forall kind, targets, t | (kind, targets) in Relationships(file.content) && t in targets
      ensures exists i :: RelationCallAt(file.content, i, kind, t)
    {
      RelationTargetsMember(file.content, kind, t);
    }
    FillableFieldsEmpty(file.content);
  }

  /**
   * A configuration row is named after its file without the extension and
   * lists each key once, every one written, quoted, before `=>` in the file.
   */
  lemma ConfigRecordReflectsFile(path: string, file: Node)
    requires file.FileNode?
    ensures var r := ConfigRecord(path, file);
            && r.kind == "config" && r.category == Some("application") && r.size.None?
            && ('.' in file.name ==> file.name == r.name + "." + Extension(file.name))
            && ('.' !in file.name ==> r.name == file.name)
            && r.metadata.ConfigMeta? && NoDuplicates(r.metadata.keys)
            && (forall key :: key in r.metadata.keys ==> exists i :: KeyAt(file.content, i, key))
  {
    if '.' in file.name {
      StemExtension(file.name);
    }
    forall key | key in ConfigKeys(file.content) ensures exists i :: KeyAt(file.content, i, key) {
      ConfigKeysMember(file.content, key);
    }
  }

  /**
   * A route row is filed under the route file's name without extension; its
   * count is the number of route registrations the two patterns find, and
   * every route it lists is registered in the file.
   */
  lemma RouteRecordReflectsFile(routeFile: string, content: string)
    ensures var r := RouteRecord(routeFile, content);
            && r.kind == "route" && r.category == Some(Stem(routeFile)) && r.name == routeFile
            && r.path == Some("routes/" + routeFile) && r.size.None? && r.metadata.RouteMeta?
            && r.metadata.count == |FindAll(RouteVerb, content)| + |FindAll(RouteResource, content)|
            && (forall route :: route in r.metadata.routes ==> Registered(content, route))
  {
    RoutesSplit(content);
    forall route | route in Routes(content) ensures Registered(content, route) {
      RoutesRegistered(content, route);
    }
  }

  /** The structure row holds a snapshot at most three levels deep with distinct, shown keys at every level. */
  lemma StructureRecordTidy(root: Node)
    requires root.DirNode?
    ensures var r := StructureRecord(root);
            && r.kind == "structure" && r.category == Some("project") && r.path == Some("/")
            && r.metadata.StructureMeta? && Tidy(r.metadata.structure, StructureDepth)
  {
    SnapshotTidy(root, StructureDepth, 0);
  }

  // ---------------------------------------------------------------------------
  // The summary
  // ---------------------------------------------------------------------------

  /** The key `pluck` files a category under: a null category becomes the empty key. */
  function CategoryKey(category: Option<string>): string {
    match category
    case None => ""
    case Some(c) => c
  }

  /** The (type, category) pair a row is grouped by. */
  function GroupOf(r: Record): (string, string) {
    (r.kind, CategoryKey(r.category))
  }

  function KindOf(g: (string, string)): string {
    g.0
  }

  function CategoryOf(g: (string, string)): string {
    g.1
  }

  /** The (type, category) pair of every row, in row order. */
  function Groups(records: seq<Record>): (gs: seq<(string, string)>)
    ensures |gs| == |records| && forall i :: 0 <= i < |records| ==> gs[i] == GroupOf(records[i])
  {
    seq(|records|, i requires 0 <= i < |records| => GroupOf(records[i]))
  }

  /** `GROUP BY type, category` with `count(*)`. */
  function Stats(records: seq<Record>): seq<((string, string), nat)> {
    Tally(Groups(records))
  }

  /** `by_type`: the counts of the groups summed per type. */
  function ByType(records: seq<Record>): seq<(string, nat)> {
    Accumulate(Rekey(Stats(records), KindOf))
  }

  /** `by_category`: the groups' counts plucked by category, a later group overwriting an earlier one. */
  function ByCategory(records: seq<Record>): seq<(string, nat)> {
    Pluck(Rekey(Stats(records), CategoryOf))
  }

  /** The row generateIndexSummary appends, summarising `records`. */
  function SummaryRecord(records: seq<Record>): Record
  {
    Record("summary", Some("meta"), "Index Summary", None,
           Some("Complete repository index summary and statistics"),
           SummaryMeta(|records|, ByType(records), ByCategory(records)), None, None)
  }

  /** The types of the rows, in row order. */
  function Kinds(records: seq<Record>): (ks: seq<string>)
    ensures |ks| == |records| && forall i :: 0 <= i < |records| ==> ks[i] == records[i].kind
  {
    seq(|records|, i requires 0 <= i < |records| => records[i].kind)
  }

  /** The category keys of the rows, in row order. */
  function CategoryKeys(records: seq<Record>): (cs: seq<string>)
    ensures |cs| == |records| && forall i :: 0 <= i < |records| ==> cs[i] == CategoryKey(records[i].category)
  {
    seq(|records|, i requires 0 <= i < |records| => CategoryKey(records[i].category))
  }

  /**
   * `by_type` lists each type once, with the number of rows of that type,
   * and its counts add up to `total_items`.
   */
  lemma ByTypeCounts(records: seq<Record>)
    ensures DistinctKeys(ByType(records))
    ensures forall t :: AmountFor(ByType(records), t) == Occurrences(Kinds(records), t)
    ensures Total(ByType(records)) == |records|
  {
    var rekeyed := Rekey(Stats(records), KindOf);
    AccumulateCorrect(rekeyed);
    assert MapKeys(Groups(records), KindOf) == Kinds(records);
    forall t ensures AmountFor(ByType(records), t) == Occurrences(Kinds(records), t) {
      TallyRekeyed(Groups(records), KindOf, t);
    }
    TallyRekeyed(Groups(records), KindOf, "");
  }

  /** Every category is used by rows of a single type. */
  predicate OneTypePerCategory(records: seq<Record>) {
    forall i, j :: 0 <= i < |records| && 0 <= j < |records|
                   && CategoryKey(records[i].category) == CategoryKey(records[j].category)
                   ==> records[i].kind == records[j].kind
  }

  /**
   * When every category belongs to one type, `by_category` lists each
   * category once with the number of its rows; otherwise `pluck` keeps only
   * the count of the last (type, category) group of a category.
   */
  lemma ByCategoryCounts(records: seq<Record>)
    requires OneTypePerCategory(records)
    ensures DistinctKeys(ByCategory(records))
    ensures forall c :: AmountFor(ByCategory(records), c) == Occurrences(CategoryKeys(records), c)
  {
    var stats := Stats(records);
    var rekeyed := Rekey(stats, CategoryOf);
    TallyCorrect(Groups(records));
    forall i, j | 0 <= i < j < |rekeyed| ensures rekeyed[i].0 != rekeyed[j].0 {
      StatsGroupIsRow(records, i);
      StatsGroupIsRow(records, j);
    }
    PluckDistinct(rekeyed);
    assert MapKeys(Groups(records), CategoryOf) == CategoryKeys(records);
    forall c ensures AmountFor(ByCategory(records), c) == Occurrences(CategoryKeys(records), c) {
      TallyRekeyed(Groups(records), CategoryOf, c);
    }
  }

  /** Each group of the statistics is the group of some row. */
  lemma StatsGroupIsRow(records: seq<Record>, i: nat)
    requires i < |Stats(records)|
    ensures exists r :: 0 <= r < |records| && Stats(records)[i].0 == GroupOf(records[r])
  {
    TallyCorrect(Groups(records));
    assert Stats(records)[i].0 == Keys(Stats(records))[i];
    assert Stats(records)[i].0 in Groups(records);
  }
}

=== FILE: search.dfy ===
/**
 * The `repo:search {query} {--type=} {--category=} {--limit=10}` command: the
 * rows whose name, description, preview or path contain the query, narrowed
 * by type and category when given, at most `limit` of them in table order,
 * each listed with the fields that are set.
 */
module Search {
  import opened Text
  import opened ByteFormat
  import opened Records
  import opened Indexer
  import opened Query
  import Browse

  /** The search of the command: like the controller's, but the path is searched too. */
  predicate Matches(r: Record, term: string) {
    Contains(r.name, term) || Like(r.description, term) || Like(r.preview, term) || Like(r.path, term)
  }

  /** The query's conditions: the search always, type and category when their options are truthy. */
  predicate Wanted(r: Record, term: string, kind: Param, category: Param) {
    Matches(r, term) && OfKindAndCategory(r, kind, category)
  }

  /** The default of `--limit`. */
  const DefaultLimit := 10

  /** The rows the query returns, in table order, before any limit. */
  function Matching(rows: seq<Row>, term: string, kind: Param, category: Param): seq<Row> {
    Where(rows, (row: Row) => Wanted(row.record, term, kind, category))
  }

  /** `$searchQuery->limit($limit)->get()`. */
  function Results(rows: seq<Row>, term: string, kind: Param, category: Param, limit: Option<int>): seq<Row> {
    Limit(Matching(rows, term, kind, category), LimitOr(limit, DefaultLimit))
  }

  /**
   * Every result is a row whose name, description, preview or path contains
   * the query and that has the type and category asked for; there are at
   * most `limit` of them; and with no limit in force, or one at least the
   * number of matching rows, every such row is a result.
   */
  lemma ResultsSoundAndComplete(rows: seq<Row>, term: string, kind: Param, category: Param, limit: Option<int>)
    ensures forall row :: row in Results(rows, term, kind, category, limit) ==>
              row in rows && Wanted(row.record, term, kind, category)
    ensures LimitOr(limit, DefaultLimit) >= 0 ==> |Results(rows, term, kind, category, limit)| <= LimitOr(limit, DefaultLimit)
    ensures LimitOr(limit, DefaultLimit) < 0 || LimitOr(limit, DefaultLimit) >= |Matching(rows, term, kind, category)| ==>
              forall row :: row in rows && Wanted(row.record, term, kind, category) ==> row in Results(rows, term, kind, category, limit)
  {
    var matching := Matching(rows, term, kind, category);
    forall row | row in Results(rows, term, kind, category, limit)
      ensures row in matching
    {
      var r := Results(rows, term, kind, category, limit);
      var k :| 0 <= k < |r| && r[k] == row;
      assert matching[k] == row;
    }
  }

  /** An empty query is contained in every name, so every row of the asked type and category matches. */
  lemma EmptyQueryMatchesAll(r: Record, kind: Param, category: Param)
    requires OfKindAndCategory(r, kind, category)
    ensures Wanted(r, "", kind, category)
  {
    assert StartsAt(r.name, 0, "");
  }

  /** One listed result: the category, description and size appear only when truthy; the path always. */
  datatype Entry = Entry(name: string, kind: string, category: Option<string>, path: Option<string>,
                         description: Option<string>, size: Option<Quantity>)

  /** What the command shows: a warning when nothing matched, otherwise the count and one entry per result. */
  datatype Output = NoResults | Listing(count: nat, entries: seq<Entry>)

  /** A category or description as shown: only a truthy one is printed. */
  function ShownText(value: Option<string>): (r: Option<string>)
    ensures r.Some? <==> Truthy(value)
    ensures r.Some? ==> r == value
  {
    if Truthy(value) then value else None
  }

  /** The entry the loop prints for a row. */
  function EntryOf(r: Record): Entry {
    Entry(r.name, r.kind, ShownText(r.category), r.path, ShownText(r.description),
          match r.size case Some(s) => (if s != 0 then Some(Scaled(s)) else None) case None => None)
  }

  /** handle: runs the query and prints each result in turn. */
  method Handle(rows: seq<Row>, term: string, kind: Param, category: Param, limit: Option<int>)
    returns (out: Output)
    ensures out.NoResults? <==> Results(rows, term, kind, category, limit) == []
    ensures out.Listing? ==> var results := Results(rows, term, kind, category, limit);
              && out.count == |results| && |out.entries| == |results|
              && forall i :: 0 <= i < |results| ==> out.entries[i] == EntryOf(results[i].record)
  {
    var results := Results(rows, term, kind, category, limit);
    if results == [] {
      return NoResults;
    }
    var entries: seq<Entry> := [];
    for i := 0 to |results|
      invariant |entries| == i
      invariant forall k :: 0 <= k < i ==> entries[k] == EntryOf(results[k].record)
    {
      var r := results[i].record;
      var size: Option<Quantity> := None;
      if r.size.Some? && r.size.value != 0 {
        var q := FormatBytes(r.size.value);
        size := Some(q);
      }
      var category := if Truthy(r.category) then r.category else None;
      var description := if Truthy(r.description) then r.description else None;
      entries := entries + [Entry(r.name, r.kind, category, r.path, description, size)];
    }
    out := Listing(|results|, entries);
  }

  /**
   * A row of the asked type and category whose path is the only place the
   * term occurs is found by the command, and left out by the controller's
   * search with the same term whenever that term is truthy there.
   */
  lemma PathOnlyMatches(rows: seq<Row>, row: Row, term: string, kind: Param, category: Param)
    requires row in rows && OfKindAndCategory(row.record, kind, category)
    requires Like(row.record.path, term) && !Browse.Found(row.record, term)
    ensures row in Matching(rows, term, kind, category)
    ensures Truthy(Some(term)) ==> row !in Browse.Filtered(rows, kind, category, Some(term))
  {
  }

  /** The command searches the path and the controller does not: a row found only through its path. */
  lemma PathOnlyHere()
    ensures var r := Record("file", None, "a", Some("x/b"), None, FileMeta("", Quantity(0.0, B), 0, None, None), None, None);
            Matches(r, "b") && !Browse.Found(r, "b")
  {
    var r := Record("file", None, "a", Some("x/b"), None, FileMeta("", Quantity(0.0, B), 0, None, None), None, None);
    assert StartsAt(r.path.value, 2, "b");
    ContainsIff(r.path.value, "b");
    ContainsIff(r.name, "b");
    forall i | 0 <= i <= |r.name| ensures !StartsAt(r.name, i, "b") {
      if i == 0 {
        assert r.name[0..1][0] == 'a';
      }
    }
  }
}

=== FILE: structure.dfy ===
/**
 * The project tree as the indexer sees it, and the directory snapshot
 * stored in the structure record: getDirectoryStructure walks the tree down
 * to a maximum depth, skipping version-control and dependency folders.
 */
module DirectoryTree {
  import opened Text
  import opened Grouping

  /**
   * A file-system entry: a file with its size and bytes (`readable` is false
   * when reading it fails), or a directory with its entries in listing order.
   */
  datatype Node =
    | FileNode(name: string, size: nat, content: string, readable: bool)
    | DirNode(name: string, children: seq<Node>)

  /** One key of the snapshot: a file with its size, or a directory with its own snapshot. */
  datatype Entry = FileEntry(size: nat) | DirectoryEntry(children: seq<(string, Entry)>)

  /** The names getDirectoryStructure passes over. */
  const SkipList: seq<string> := [".git", "vendor", "node_modules", ".env"]

  /** Names that glob('*') and Finder leave out: those starting with a dot. */
  predicate Hidden(name: string) {
    |name| > 0 && name[0] == '.'
  }

  /** A name that appears in the snapshot: listed by glob and not skipped. */
  predicate Shown(name: string) {
    !Hidden(name) && name !in SkipList
  }

  /** No two entries of a directory share a name, as in any real file system. */
  predicate DistinctNames(dir: Node)
    requires dir.DirNode?
  {
    forall i, j :: 0 <= i < j < |dir.children| ==> dir.children[i].name != dir.children[j].name
  }

  // ---------------------------------------------------------------------------
  // getDirectoryStructure
  // ---------------------------------------------------------------------------

  /** The snapshot of `dir` taken at `depth`: nothing once the depth reaches `maxDepth`. */
  function Snapshot(dir: Node, maxDepth: int, depth: int): seq<(string, Entry)>
    requires dir.DirNode?
    decreases dir, 1
  {
    if depth >= maxDepth then [] else Walk(dir, |dir.children|, maxDepth, depth)
  }

  /** The snapshot built from the first `n` entries of `dir`, each shown one stored under its name. */
  function Walk(dir: Node, n: nat, maxDepth: int, depth: int): seq<(string, Entry)>
    requires dir.DirNode? && n <= |dir.children|
    decreases dir, 0, n
  {
    if n == 0 then []
    else
      var item := dir.children[n - 1];
      var structure := Walk(dir, n - 1, maxDepth, depth);
      if Shown(item.name) then Put(structure, item.name, EntryOf(item, maxDepth, depth + 1))
      else structure
  }

  /** The entry stored for `item`: its size, or the snapshot of its contents one level deeper. */
  function EntryOf(item: Node, maxDepth: int, depth: int): Entry
    decreases item, 2
  {
    match item
    case FileNode(_, size, _, _) => FileEntry(size)
    case DirNode(_, _) => DirectoryEntry(Snapshot(item, maxDepth, depth))
  }

  /** getDirectoryStructure($path, $maxDepth, $currentDepth). */
  method GetDirectoryStructure(dir: Node, maxDepth: int, depth: int) returns (structure: seq<(string, Entry)>)
    requires dir.DirNode?
    ensures structure == Snapshot(dir, maxDepth, depth)
    decreases dir
  {
    if depth >= maxDepth {
      return [];
    }
    structure := [];
    var items := dir.children;
    for i := 0 to |items|
      invariant structure == Walk(dir, i, maxDepth, depth)
    {
      var item := items[i];
      if !Hidden(item.name) && item.name !in SkipList {
        if item.DirNode? {
          var children := GetDirectoryStructure(item, maxDepth, depth + 1);
          structure := Put(structure, item.name, DirectoryEntry(children));
        } else {
          structure := Put(structure, item.name, FileEntry(item.size));
        }
      }
    }
  }

  /**
   * A snapshot at most `levels` deep whose every level has distinct keys,
   * none of them hidden or on the skip list.
   */
  predicate Tidy(entries: seq<(string, Entry)>, levels: int)
    decreases DirectoryEntry(entries)
  {
    (entries == [] || levels >= 1)
    && DistinctKeys(entries)
    && forall i :: 0 <= i < |entries| ==>
         Shown(entries[i].0)
         && (entries[i].1.DirectoryEntry? ==> Tidy(entries[i].1.children, levels - 1))
  }

  /** The snapshot nests at most `maxDepth - depth` levels, and no level repeats, hides or skips a name. */
  lemma {:induction false} SnapshotTidy(dir: Node, maxDepth: int, depth: int)
    requires dir.DirNode?
    ensures Tidy(Snapshot(dir, maxDepth, depth), maxDepth - depth)
    decreases dir, 1
  {
    if depth < maxDepth {
      WalkTidy(dir, |dir.children|, maxDepth, depth);
    }
  }

  lemma {:induction false} WalkTidy(dir: Node, n: nat, maxDepth: int, depth: int)
    requires dir.DirNode? && n <= |dir.children| && depth < maxDepth
    ensures Tidy(Walk(dir, n, maxDepth, depth), maxDepth - depth)
    decreases dir, 0, n
  {
    if n > 0 {
      var item := dir.children[n - 1];
      var structure := Walk(dir, n - 1, maxDepth, depth);
      WalkTidy(dir, n - 1, maxDepth, depth);
      if Shown(item.name) {
        var e := EntryOf(item, maxDepth, depth + 1);
        if item.DirNode? {
          SnapshotTidy(item, maxDepth, depth + 1);
        }
        PutKeepsDistinct(structure, item.name, e);
      }
    }
  }

  /** The key of a shown entry of the directory holds that entry's own snapshot or size. */
  lemma SnapshotLookup(dir: Node, maxDepth: int, depth: int, k: nat)
    requires dir.DirNode? && DistinctNames(dir) && depth < maxDepth
    requires k < |dir.children| && Shown(dir.children[k].name)
    ensures Lookup(Snapshot(dir, maxDepth, depth), dir.children[k].name)
            == Some(EntryOf(dir.children[k], maxDepth, depth + 1))
  {
    WalkLookup(dir, |dir.children|, maxDepth, depth, k);
  }

  lemma {:induction false} WalkLookup(dir: Node, n: nat, maxDepth: int, depth: int, k: nat)
    requires dir.DirNode? && DistinctNames(dir) && k < n <= |dir.children|
    requires Shown(dir.children[k].name)
    ensures Lookup(Walk(dir, n, maxDepth, depth), dir.children[k].name)
            == Some(EntryOf(dir.children[k], maxDepth, depth + 1))
    decreases n
  {
    if k == n - 1 {
      WalkLookupLast(dir, n, maxDepth, depth);
    } else {
      WalkLookup(dir, n - 1, maxDepth, depth, k);
      WalkLookupOther(dir, n, maxDepth, depth, dir.children[k].name);
    }
  }

  /** The entry just stored is what its name reads. */
  lemma WalkLookupLast(dir: Node, n: nat, maxDepth: int, depth: int)
    requires dir.DirNode? && 0 < n <= |dir.children| && Shown(dir.children[n - 1].name)
    ensures Lookup(Walk(dir, n, maxDepth, depth), dir.children[n - 1].name)
            == Some(EntryOf(dir.children[n - 1], maxDepth, depth + 1))
  {
    var item := dir.children[n - 1];
    PutLookup(Walk(dir, n - 1, maxDepth, depth), item.name, EntryOf(item, maxDepth, depth + 1), item.name);
  }

  /** Storing an entry leaves every other name as it was. */
  lemma WalkLookupOther(dir: Node, n: nat, maxDepth: int, depth: int, key: string)
    requires dir.DirNode? && 0 < n <= |dir.children| && dir.children[n - 1].name != key
    ensures Lookup(Walk(dir, n, maxDepth, depth), key) == Lookup(Walk(dir, n - 1, maxDepth, depth), key)
  {
    var item := dir.children[n - 1];
    if Shown(item.name) {
      PutLookup(Walk(dir, n - 1, maxDepth, depth), item.name, EntryOf(item, maxDepth, depth + 1), key);
    }
  }

  /** A name is a key of the snapshot exactly when the depth allows it and a shown entry carries it. */
  lemma SnapshotKeys(dir: Node, maxDepth: int, depth: int, name: string)
    requires dir.DirNode?
    ensures name in Keys(Snapshot(dir, maxDepth, depth))
            <==> depth < maxDepth
                 && exists k :: 0 <= k < |dir.children| && dir.children[k].name == name && Shown(name)
  {
    if depth < maxDepth {
      WalkKeys(dir, |dir.children|, maxDepth, depth, name);
    }
  }

  lemma {:induction false} WalkKeys(dir: Node, n: nat, maxDepth: int, depth: int, name: string)
    requires dir.DirNode? && n <= |dir.children|
    ensures name in Keys(Walk(dir, n, maxDepth, depth))
            <==> exists k :: 0 <= k < n && dir.children[k].name == name && Shown(name)
    decreases n
  {
    if n > 0 {
      var item := dir.children[n - 1];
      var structure := Walk(dir, n - 1, maxDepth, depth);
      WalkKeys(dir, n - 1, maxDepth, depth, name);
      if Shown(item.name) {
        PutLookup(structure, item.name, EntryOf(item, maxDepth, depth + 1), name);
      }
    }
  }

  // ---------------------------------------------------------------------------
  // Listings: File::files, File::allFiles and path lookup
  // ---------------------------------------------------------------------------

  /** The entry of `dir` named `name`, if any. */
  function Child(dir: Node, name: string): (r: Option<Node>)
    requires dir.DirNode?
    ensures r.Some? <==> exists k :: 0 <= k < |dir.children| && dir.children[k].name == name
    ensures r.Some? ==> r.value in dir.children && r.value.name == name
  {
    ChildFrom(dir.children, name)
  }

  function ChildFrom(items: seq<Node>, name: string): (r: Option<Node>)
    ensures r.Some? <==> exists k :: 0 <= k < |items| && items[k].name == name
    ensures r.Some? ==> r.value in items && r.value.name == name
  {
    if items == [] then None
    else if items[0].name == name then Some(items[0])
    else ChildFrom(items[1..], name)
  }

  /** The node a relative path names below `root`: File::exists holds exactly when this is Some. */
  function Resolve(root: Node, path: seq<string>): (r: Option<Node>)
    ensures path == [] ==> r == Some(root)
    ensures r.Some? && path != [] ==> r.value.name == path[|path| - 1]
    decreases |path|
  {
    if path == [] then Some(root)
    else
      match Resolve(root, path[..|path| - 1])
      case None => None
      case Some(parent) =>
        if parent.DirNode? then Child(parent, path[|path| - 1]) else None
  }

  /** A path below `prefix`. */
  function PathOf(prefix: string, name: string): string {
    if prefix == [] then name else prefix + "/" + name
  }

  /** File::files: the files directly in `dir`, dot-files left out, each with its path. */
  function Files(dir: Node, prefix: string): (files: seq<(string, Node)>)
    requires dir.DirNode?
    ensures forall i :: 0 <= i < |files| ==>
              files[i].1 in dir.children && files[i].1.FileNode? && !Hidden(files[i].1.name)
              && files[i].0 == PathOf(prefix, files[i].1.name)
  {
    FilesFrom(dir.children, prefix)
  }

  function FilesFrom(items: seq<Node>, prefix: string): (files: seq<(string, Node)>)
    ensures forall i :: 0 <= i < |files| ==>
              files[i].1 in items && files[i].1.FileNode? && !Hidden(files[i].1.name)
              && files[i].0 == PathOf(prefix, files[i].1.name)
  {
    if items == [] then []
    else
      var rest := FilesFrom(items[1..], prefix);
      if items[0].FileNode? && !Hidden(items[0].name) then [(PathOf(prefix, items[0].name), items[0])] + rest
      else rest
  }

  /** Every visible file directly in the directory is listed. */
  lemma {:induction false} FilesComplete(items: seq<Node>, prefix: string, k: nat)
    requires k < |items| && items[k].FileNode? && !Hidden(items[k].name)
    ensures (PathOf(prefix, items[k].name), items[k]) in FilesFrom(items, prefix)
  {
    if k > 0 {
      FilesComplete(items[1..], prefix, k - 1);
    }
  }

  /**
   * File::allFiles: every file below `dir`, in directory order, descending
   * into sub-directories; dot-files and dot-directories are left out.
   */
  function AllFiles(dir: Node, prefix: string): (files: seq<(string, Node)>)
    requires dir.DirNode?
    ensures forall i :: 0 <= i < |files| ==> files[i].1.FileNode? && !Hidden(files[i].1.name)
    decreases dir, 1
  {
    AllFilesFrom(dir, 0, prefix)
  }

  function AllFilesFrom(dir: Node, i: nat, prefix: string): (files: seq<(string, Node)>)
    requires dir.DirNode? && i <= |dir.children|
    ensures forall k :: 0 <= k < |files| ==> files[k].1.FileNode? && !Hidden(files[k].1.name)
    decreases dir, 0, |dir.children| - i
  {
    if i == |dir.children| then []
    else
      var item := dir.children[i];
      var here :=
        if Hidden(item.name) then []
        else if item.FileNode? then [(PathOf(prefix, item.name), item)]
        else AllFiles(item, PathOf(prefix, item.name));
      here + AllFilesFrom(dir, i + 1, prefix)
  }

  /**
   * `f` is a visible file below `dir`, reached through visible directories
   * only, and paired with the path of that descent from `prefix`.
   */
  ghost predicate Below(dir: Node, prefix: string, f: (string, Node))
    requires dir.DirNode?
    decreases dir, 1
  {
    exists k :: 0 <= k < |dir.children| && BelowVia(dir, prefix, k, f)
  }

  /** `f` is the visible entry `k` of `dir` itself, or a visible file below that visible directory. */
  ghost predicate BelowVia(dir: Node, prefix: string, k: int, f: (string, Node))
    requires dir.DirNode? && 0 <= k < |dir.children|
    decreases dir, 0
  {
    var child := dir.children[k];
    && !Hidden(child.name)
    && (child.FileNode? ==> f == (PathOf(prefix, child.name), child))
    && (child.DirNode? ==> Below(child, PathOf(prefix, child.name), f))
  }

  /** File::allFiles lists exactly the visible files below the directory, each under its path. */
  lemma AllFilesExactly(dir: Node, prefix: string, f: (string, Node))
    requires dir.DirNode?
    ensures f in AllFiles(dir, prefix) <==> Below(dir, prefix, f)
  {
    if f in AllFiles(dir, prefix) {
      AllFilesSound(dir, prefix, f);
    }
    if Below(dir, prefix, f) {
      AllFilesComplete(dir, prefix, f);
    }
  }

  /** Everything listed is a visible file below the directory, under the path of its descent. */
  lemma {:induction false} AllFilesSound(dir: Node, prefix: string, f: (string, Node))
    requires dir.DirNode? && f in AllFiles(dir, prefix)
    ensures Below(dir, prefix, f)
    decreases dir, 1
  {
    var k := AllFilesFromSound(dir, 0, prefix, f);
  }

  lemma {:induction false} AllFilesFromSound(dir: Node, i: nat, prefix: string, f: (string, Node)) returns (k: nat)
    requires dir.DirNode? && i <= |dir.children| && f in AllFilesFrom(dir, i, prefix)
    ensures i <= k < |dir.children| && BelowVia(dir, prefix, k, f)
    decreases dir, 0, |dir.children| - i
  {
    var item := dir.children[i];
    var here :=
      if Hidden(item.name) then []
      else if item.FileNode? then [(PathOf(prefix, item.name), item)]
      else AllFiles(item, PathOf(prefix, item.name));
    assert AllFilesFrom(dir, i, prefix) == here + AllFilesFrom(dir, i + 1, prefix);
    if f in here {
      if item.DirNode? {
        AllFilesSound(item, PathOf(prefix, item.name), f);
      }
      k := i;
    } else {
      k := AllFilesFromSound(dir, i + 1, prefix, f);
    }
  }

  /** Every visible file below the directory is listed, under the path of its descent. */
  lemma {:induction false} AllFilesComplete(dir: Node, prefix: string, f: (string, Node))
    requires dir.DirNode? && Below(dir, prefix, f)
    ensures f in AllFiles(dir, prefix)
    decreases dir
  {
    var k :| 0 <= k < |dir.children| && BelowVia(dir, prefix, k, f);
    var child := dir.children[k];
    if child.FileNode? {
      AllFilesIncludesFile(dir, prefix, k);
    } else {
      AllFilesComplete(child, PathOf(prefix, child.name), f);
      AllFilesIncludesNested(dir, prefix, k, f);
    }
  }

  /** A visible file directly in the directory is listed under its path. */
  lemma AllFilesIncludesFile(dir: Node, prefix: string, k: nat)
    requires dir.DirNode? && k < |dir.children|
    requires dir.children[k].FileNode? && !Hidden(dir.children[k].name)
    ensures (PathOf(prefix, dir.children[k].name), dir.children[k]) in AllFiles(dir, prefix)
  {
    AllFilesFromIncludes(dir, 0, prefix, k, (PathOf(prefix, dir.children[k].name), dir.children[k]));
  }

  /** Whatever is listed below a visible sub-directory is listed below its parent too. */
  lemma AllFilesIncludesNested(dir: Node, prefix: string, k: nat, f: (string, Node))
    requires dir.DirNode? && k < |dir.children|
    requires dir.children[k].DirNode? && !Hidden(dir.children[k].name)
    requires f in AllFiles(dir.children[k], PathOf(prefix, dir.children[k].name))
    ensures f in AllFiles(dir, prefix)
  {
    AllFilesFromIncludes(dir, 0, prefix, k, f);
  }

  lemma {:induction false} AllFilesFromIncludes(dir: Node, i: nat, prefix: string, k: nat, f: (string, Node))
    requires dir.DirNode? && i <= k < |dir.children| && !Hidden(dir.children[k].name)
    requires dir.children[k].FileNode? ==> f == (PathOf(prefix, dir.children[k].name), dir.children[k])
    requires dir.children[k].DirNode? ==> f in AllFiles(dir.children[k], PathOf(prefix, dir.children[k].name))
    ensures f in AllFilesFrom(dir, i, prefix)
    decreases k - i
  {
    if i < k {
      AllFilesFromIncludes(dir, i + 1, prefix, k, f);
    }
  }
}

=== FILE: text.dfy ===
/**
 * Character classes and the small string operations the indexer relies on
 * (greedy runs, strpos, substr_count, explode, trim, str_replace of quotes,
 * array_unique). A string is a sequence of chars; each char stands for one
 * byte of a file, as PHP strings are byte strings.
 */
module Text {

  datatype Option<T> = None | Some(value: T)

  /** PCRE `\w` without the `u` flag: ASCII letters, digits and underscore. */
  predicate IsWordChar(c: char) {
    ('a' <= c <= 'z') || ('A' <= c <= 'Z') || ('0' <= c <= '9') || c == '_'
  }

  /** PCRE `\s`: space, tab, line feed, vertical tab, form feed, carriage return. */
  predicate IsSpace(c: char) {
    c == ' ' || c == '\t' || c == '\n' || c == '\U{000B}' || c == '\U{000C}' || c == '\r'
  }

  /** The class `['"]` used by every quoted-literal pattern. */
  predicate IsQuote(c: char) {
    c == '\'' || c == '"'
  }

  /** The characters PHP's trim() strips by default (form feed is not one of them). */
  predicate IsTrimmed(c: char) {
    c == ' ' || c == '\t' || c == '\n' || c == '\r' || c == '\0' || c == '\U{000B}'
  }

  /** The repeated character classes of the patterns: `\w`, `\s` and `[^'"]`. */
  datatype CharClass = Word | Space | NotQuote

  predicate InClass(c: char, cls: CharClass) {
    match cls
    case Word => IsWordChar(c)
    case Space => IsSpace(c)
    case NotQuote => !IsQuote(c)
  }

  /** End of the longest run of `cls` characters that starts at `i`: what a greedy `cls*` consumes. */
  function RunEnd(s: string, i: nat, cls: CharClass): (j: nat)
    requires i <= |s|
    ensures i <= j <= |s|
    ensures forall k :: i <= k < j ==> InClass(s[k], cls)
    ensures j == |s| || !InClass(s[j], cls)
    decreases |s| - i
  {
    if i == |s| || !InClass(s[i], cls) then i else RunEnd(s, i + 1, cls)
  }

  /** A run of `cls` that is followed by a character outside the class (or the end) is what RunEnd finds. */
  lemma {:induction false} RunEndAt(s: string, i: nat, j: nat, cls: CharClass)
    requires i <= j <= |s|
    requires forall k :: i <= k < j ==> InClass(s[k], cls)
    requires j == |s| || !InClass(s[j], cls)
    ensures RunEnd(s, i, cls) == j
    decreases j - i
  {
    if i < j {
      RunEndAt(s, i + 1, j, cls);
    }
  }

  /** `lit` occurs in `s` at position `i`. */
  predicate StartsAt(s: string, i: nat, lit: string) {
    i + |lit| <= |s| && s[i..i + |lit|] == lit
  }

  /** strpos($s, $lit, $from): the first position at or after `from` where `lit` occurs. */
  function IndexOf(s: string, lit: string, from: nat): (r: Option<nat>)
    requires from <= |s|
    ensures r.Some? ==> from <= r.value <= |s| && StartsAt(s, r.value, lit)
    ensures r.Some? ==> forall k :: from <= k < r.value ==> !StartsAt(s, k, lit)
    ensures r.None? ==> forall k :: from <= k <= |s| ==> !StartsAt(s, k, lit)
    decreases |s| - from
  {
    if StartsAt(s, from, lit) then Some(from)
    else if from == |s| then None
    else IndexOf(s, lit, from + 1)
  }

  /** `lit` occurs in `s` at or after position `from`. */
  predicate OccursFrom(s: string, lit: string, from: nat)
    requires from <= |s|
    decreases |s| - from
  {
    StartsAt(s, from, lit) || (from < |s| && OccursFrom(s, lit, from + 1))
  }

  /** strpos($s, $lit) !== false. */
  predicate Contains(s: string, lit: string) {
    OccursFrom(s, lit, 0)
  }

  lemma {:induction false} OccursFromIff(s: string, lit: string, from: nat)
    requires from <= |s|
    ensures OccursFrom(s, lit, from) <==> exists i :: from <= i <= |s| && StartsAt(s, i, lit)
    decreases |s| - from
  {
    if from < |s| {
      OccursFromIff(s, lit, from + 1);
      if exists i :: from <= i <= |s| && StartsAt(s, i, lit) {
        var i :| from <= i <= |s| && StartsAt(s, i, lit);
        if i > from {
          assert from + 1 <= i;
        }
      }
    }
  }

  /** Contains holds exactly when the literal occurs somewhere in the string. */
  lemma ContainsIff(s: string, lit: string)
    ensures Contains(s, lit) <==> exists i :: 0 <= i <= |s| && StartsAt(s, i, lit)
  {
    OccursFromIff(s, lit, 0);
  }

  /** An occurrence of a literal stays an occurrence of each of its prefixes. */
  lemma PrefixOccurs(s: string, i: nat, lit: string, n: nat)
    requires StartsAt(s, i, lit) && n <= |lit|
    ensures StartsAt(s, i, lit[..n])
  {
    assert s[i..i + n] == s[i..i + |lit|][..n];
  }

  /** substr_count($s, $c) for a single character. */
  function Count(s: string, c: char): (n: nat)
    ensures n <= |s|
    ensures n == 0 <==> c !in s
  {
    if s == [] then 0 else (if s[0] == c then 1 else 0) + Count(s[1..], c)
  }

  /** substr_count counts every occurrence: the count is the character's multiplicity in the text. */
  lemma {:induction false} CountIsMultiplicity(s: string, c: char)
    ensures Count(s, c) == multiset(s)[c]
  {
    if s != [] {
      CountIsMultiplicity(s[1..], c);
      assert s == [s[0]] + s[1..];
    }
  }

  /** Concatenation of `pieces` with `sep` between consecutive pieces: implode. */
  function Join(pieces: seq<string>, sep: char): string
    requires |pieces| >= 1
  {
    if |pieces| == 1 then pieces[0] else pieces[0] + [sep] + Join(pieces[1..], sep)
  }

  /** explode($sep, $s) for a one-character separator: never empty, one more piece than separators. */
  function Split(s: string, sep: char): (pieces: seq<string>)
    ensures |pieces| == Count(s, sep) + 1
    ensures forall k :: 0 <= k < |pieces| ==> sep !in pieces[k]
  {
    if s == [] then [""]
    else
      var rest := Split(s[1..], sep);
      if s[0] == sep then [""] + rest
      else [[s[0]] + rest[0]] + rest[1..]
  }

  lemma JoinCons(piece: string, pieces: seq<string>, sep: char)
    requires |pieces| >= 1
    ensures Join([piece] + pieces, sep) == piece + [sep] + Join(pieces, sep)
  {
    assert ([piece] + pieces)[1..] == pieces;
  }

  /** Putting a character in front of the first piece puts it in front of the joined string. */
  lemma JoinPrepend(c: char, pieces: seq<string>, sep: char)
    requires |pieces| >= 1
    ensures Join([[c] + pieces[0]] + pieces[1..], sep) == [c] + Join(pieces, sep)
  {
    if |pieces| > 1 {
      JoinCons([c] + pieces[0], pieces[1..], sep);
      JoinCons(pieces[0], pieces[1..], sep);
      assert pieces == [pieces[0]] + pieces[1..];
    }
  }

  /** `pieces` cut `s` at every `sep`: joined back they give `s`, and none holds a separator. */
  predicate IsSplit(pieces: seq<string>, s: string, sep: char) {
    |pieces| >= 1 && Join(pieces, sep) == s && forall k :: 0 <= k < |pieces| ==> sep !in pieces[k]
  }

  /** explode is undone by implode: no character is lost or moved by the split. */
  lemma {:induction false} JoinSplit(s: string, sep: char)
    ensures Join(Split(s, sep), sep) == s
  {
    if s != [] {
      var rest := Split(s[1..], sep);
      JoinSplit(s[1..], sep);
      if s[0] == sep {
        JoinCons("", rest, sep);
      } else {
        JoinPrepend(s[0], rest, sep);
      }
      assert s == [s[0]] + s[1..];
    }
  }

  /** A string without a separator is a single piece. */
  lemma {:induction false} SplitNoSeparator(s: string, sep: char)
    requires sep !in s
    ensures Split(s, sep) == [s]
  {
    if s != [] {
      SplitNoSeparator(s[1..], sep);
      assert s == [s[0]] + s[1..];
    }
  }

  /** Splitting at the first separator: the piece before it, then the pieces of the rest. */
  lemma {:induction false} SplitAtSeparator(a: string, b: string, sep: char)
    requires sep !in a
    ensures Split(a + [sep] + b, sep) == [a] + Split(b, sep)
  {
    var s := a + [sep] + b;
    if a == [] {
      assert s[1..] == b;
    } else {
      var tail := a[1..] + [sep] + b;
      assert s[0] == a[0] && s[1..] == tail;
      SplitAtSeparator(a[1..], b, sep);
      var rest := Split(tail, sep);
      assert rest[0] == a[1..] && rest[1..] == Split(b, sep);
      assert [a[0]] + rest[0] == a;
    }
  }

  /** implode is undone by explode when no piece holds the separator: the pieces of a text are unique. */
  lemma {:induction false} SplitJoin(pieces: seq<string>, sep: char)
    requires |pieces| >= 1
    requires forall k :: 0 <= k < |pieces| ==> sep !in pieces[k]
    ensures Split(Join(pieces, sep), sep) == pieces
    decreases |pieces|
  {
    if |pieces| == 1 {
      SplitNoSeparator(pieces[0], sep);
    } else {
      SplitJoin(pieces[1..], sep);
      SplitAtSeparator(pieces[0], Join(pieces[1..], sep), sep);
      assert pieces == [pieces[0]] + pieces[1..];
    }
  }

  /** explode($sep, $s) is the one and only way to cut `s` at every separator. */
  lemma SplitUnique(s: string, pieces: seq<string>, sep: char)
    ensures IsSplit(pieces, s, sep) <==> pieces == Split(s, sep)
  {
    JoinSplit(s, sep);
    if IsSplit(pieces, s, sep) {
      SplitJoin(pieces, sep);
    }
  }

  /** str_replace(['\'', '"'], '', $s): every quote character deleted, the rest kept in order. */
  function RemoveQuotes(s: string): (r: string)
    ensures forall c :: c in r <==> c in s && !IsQuote(c)
    ensures |r| <= |s|
    ensures (forall k :: 0 <= k < |s| ==> !IsQuote(s[k])) ==> r == s
  {
    if s == [] then []
    else if IsQuote(s[0]) then RemoveQuotes(s[1..])
    else [s[0]] + RemoveQuotes(s[1..])
  }

  /**
   * Quotes are removed character by character: the result for a text is the
   * results for its parts, in the same order, so no character moves.
   */
  lemma {:induction false} RemoveQuotesAppend(a: string, b: string)
    ensures RemoveQuotes(a + b) == RemoveQuotes(a) + RemoveQuotes(b)
    decreases |a|
  {
    if a == [] {
      assert a + b == b;
    } else {
      var s := a + b;
      assert s[0] == a[0] && s[1..] == a[1..] + b;
      RemoveQuotesAppend(a[1..], b);
      if IsQuote(a[0]) {
        assert RemoveQuotes(s) == RemoveQuotes(a[1..]) + RemoveQuotes(b);
      } else {
        assert RemoveQuotes(s) == [a[0]] + (RemoveQuotes(a[1..]) + RemoveQuotes(b));
      }
    }
  }

  /** The first position at or after `i` that holds no trim() character. */
  function TrimFrom(s: string, i: nat): (j: nat)
    requires i <= |s|
    ensures i <= j <= |s|
    ensures forall k :: i <= k < j ==> IsTrimmed(s[k])
    ensures j == |s| || !IsTrimmed(s[j])
    decreases |s| - i
  {
    if i == |s| || !IsTrimmed(s[i]) then i else TrimFrom(s, i + 1)
  }

  /** The end of `s[lo..j]` once trailing trim() characters are dropped. */
  function TrimBack(s: string, lo: nat, j: nat): (e: nat)
    requires lo <= j <= |s|
    ensures lo <= e <= j
    ensures forall k :: e <= k < j ==> IsTrimmed(s[k])
    ensures e == lo || !IsTrimmed(s[e - 1])
    decreases j
  {
    if j == lo || !IsTrimmed(s[j - 1]) then j else TrimBack(s, lo, j - 1)
  }

  /** Only trim() characters lie outside `s[lo..hi]`. */
  predicate TrimBounds(s: string, lo: nat, hi: nat) {
    && lo <= hi <= |s|
    && (forall k :: 0 <= k < lo ==> IsTrimmed(s[k]))
    && (forall k :: hi <= k < |s| ==> IsTrimmed(s[k]))
  }

  /**
   * trim($s): the infix of `s` left once trim() characters are stripped from
   * both ends; everything stripped is a trim() character, and the infix
   * neither starts nor ends with one.
   */
  function Trim(s: string): (r: string)
    ensures exists lo: nat, hi: nat :: TrimBounds(s, lo, hi) && r == s[lo..hi]
    ensures forall c :: c in r ==> c in s
    ensures r == [] || (!IsTrimmed(r[0]) && !IsTrimmed(r[|r| - 1]))
    ensures (forall k :: 0 <= k < |s| ==> IsTrimmed(s[k])) <==> r == []
  {
    var lo := TrimFrom(s, 0);
    var hi := TrimBack(s, lo, |s|);
    assert TrimBounds(s, lo, hi);
    assert lo < hi ==> !IsTrimmed(s[lo]);
    s[lo..hi]
  }

  predicate NoDuplicates<T(==)>(xs: seq<T>) {
    forall i, j :: 0 <= i < j < |xs| ==> xs[i] != xs[j]
  }

  /** Position of the first occurrence of `x` in `xs`. */
  function FirstIndex<T(==)>(xs: seq<T>, x: T): (k: nat)
    requires x in xs
    ensures k < |xs| && xs[k] == x && x !in xs[..k]
  {
    if xs[0] == x then 0 else 1 + FirstIndex(xs[1..], x)
  }

  /** array_unique: each value once, at the place of its first occurrence. */
  function Dedup(xs: seq<string>): (r: seq<string>)
    ensures forall x :: x in r <==> x in xs
    ensures NoDuplicates(r)
    decreases |xs|
  {
    if xs == [] then []
    else
      var d := Dedup(xs[..|xs| - 1]);
      var x := xs[|xs| - 1];
      if x in d then d else d + [x]
  }

  lemma FirstIndexInPrefix(p: seq<string>, x: string, y: string)
    requires y in p
    ensures FirstIndex(p + [x], y) == FirstIndex(p, y)
  {
    if p[0] != y {
      assert (p + [x])[1..] == p[1..] + [x];
      FirstIndexInPrefix(p[1..], x, y);
    }
  }

  /** array_unique keeps the values in the order of their first occurrences. */
  lemma {:induction false} DedupFirstOccurrenceOrder(xs: seq<string>, i: nat, j: nat)
    requires i < j < |Dedup(xs)|
    ensures FirstIndex(xs, Dedup(xs)[i]) < FirstIndex(xs, Dedup(xs)[j])
  {
    var p := xs[..|xs| - 1];
    var x := xs[|xs| - 1];
    var d := Dedup(p);
    assert xs == p + [x];
    FirstIndexInPrefix(p, x, Dedup(xs)[i]);
    if j < |d| {
      FirstIndexInPrefix(p, x, Dedup(xs)[j]);
      DedupFirstOccurrenceOrder(p, i, j);
    } else {
      assert Dedup(xs)[j] == x && x !in p;
      assert xs[..|p|] == p;
    }
  }
}
